=== FILE: README.md ===
# TwinMind audio recorder — a Dafny model of the recording core

This project models the logic of an Android meeting recorder in Dafny:

- the three recording state machines:
  - the recording screen's view model;
  - the notification service that mirrors it;
  - the foreground service that records in 30-second chunks;
- the Room database of sessions, chunks and recovery tasks, and the session persistence manager built on it;
- the background recovery worker that finalizes, merges and cleans up interrupted sessions;
- the chunk merger;
- the storage, silence, audio-focus and input-device monitors, and the audio recorder wrapper;
- the duration label of the recordings list.

Every component is an immutable datatype plus pure step functions. SQL queries whose `ORDER BY` leaves ties open are methods.

Inputs that come from outside the program become parameters:

- the clock, the SDK level and the telephony state;
- faults of the platform recorder and the bytes it captured;
- generated ids and the file-name time stamp.

The database is three maps keyed by primary key. The file system is a map from path to byte string, plus the sets of paths that cannot be read or written.

Room and SQLite behaviour the code relies on is modelled explicitly:

- `REPLACE` deletes the old row and then inserts the new one.
- The chunk table's foreign key is enforced. Deleting a session row, including a `REPLACE` of it, cascades to its chunks, and a chunk whose session is missing is refused.
- A comparison with `NULL` is not true, so a finished task with no completion time is never cleaned up.

JVM arithmetic is written out where it matters:

- Kotlin's `/` and `%` truncate toward zero (`Common.Div`, `Common.Rem`).
- The cleanup cutoff's `Int` product wraps at 32 bits (`Common.WrapInt32`).

Module layout: one module per source file, plus four shared helper modules (`Common`, `Telephony`, `Text`, `Query`) that correspond to no single source file: `Common` (options, JVM arithmetic, file system), `Telephony`, `Text`, `DurationFormat`, `SilenceDetector`, `AudioFocus`, `AudioDevice`, `Storage`, `AudioRecorder`, `RecordingViewModel`, `RecordingService`, `ForegroundService`, `Entities`, `Query` (sorted result lists), `Dao`, `SessionPersistence`, `AudioMerger`, `RecoveryWorker`.

In the table, every source path is under `app/src/main/java/com/example/myapplication/`, which the cells abbreviate as the path that follows it.

## Model

| member | source | states |
|---|---|---|
| DurationFormat.FormatDuration | app/src/main/java/com/example/myapplication/MainActivity.kt:252-256 | the label always ends in `s`, and contains `m` exactly when there is at least one whole minute |
| DurationFormat.FormatShort | app/src/main/java/com/example/myapplication/MainActivity.kt:252-256 | under a minute the label is the seconds followed by `s` |
| DurationFormat.FormatLong | app/src/main/java/com/example/myapplication/MainActivity.kt:252-256 | from a minute on the label is `<m>m <s>s`, and `m*60 + s` is the input with `0 <= s < 60` |
| DurationFormat.FormatDurationRoundTrip | app/src/main/java/com/example/myapplication/MainActivity.kt:252-256 | every non-negative duration is read back exactly from its label |
| SilenceDetector.StartMonitoring | app/src/main/java/com/example/myapplication/audio/SilenceDetector.kt:43-91 | a no-op while monitoring; otherwise monitoring starts exactly when the stream initializes, from a zero counter and zero warning clock |
| SilenceDetector.Cleanup | app/src/main/java/com/example/myapplication/audio/SilenceDetector.kt:204-222 | afterwards nothing is monitored, no stream is held and both counters are zero |
| SilenceDetector.StopMonitoring | app/src/main/java/com/example/myapplication/audio/SilenceDetector.kt:96-104 | a no-op when not monitoring, otherwise the cleanup |
| SilenceDetector.ResetSilenceCounter | app/src/main/java/com/example/myapplication/audio/SilenceDetector.kt:195-199 | zeroes the counter and the warning clock and leaves monitoring as it was |
| SilenceDetector.Step | app/src/main/java/com/example/myapplication/audio/SilenceDetector.kt:116-161 | a failed read changes nothing; silence adds exactly one second and, without a warning, changes nothing else (the warning clock stays); sound zeroes counter and clock; a warning fires iff the count reaches 10 and more than 5000 ms passed since the last one, carrying the count and stamping the clock |
| SilenceDetector.CounterIsTrailingSilence | app/src/main/java/com/example/myapplication/audio/SilenceDetector.kt:116-150 | after any sequence of readings the counter equals the length of the trailing silent stretch (added to the start count if no sound was heard), and monitoring stays on |
| SilenceDetector.StartedCounterIsTrailingSilence | app/src/main/java/com/example/myapplication/audio/SilenceDetector.kt:73-150 | from a fresh start the counter is exactly the trailing silence |
| SilenceDetector.WarningCooldown | app/src/main/java/com/example/myapplication/audio/SilenceDetector.kt:131-142 | after a warning at `t`, no reading of a following run of silent or failed readings, all up to `t + 5000`, fires another |
| SilenceDetector.QuietKeepsWarningClock | app/src/main/java/com/example/myapplication/audio/SilenceDetector.kt:116-150 | a run of silent or failed readings that all come within 5000 ms of the last warning leaves the warning clock where it was |
| AudioFocus.OnFocusChange | app/src/main/java/com/example/myapplication/audio/AudioFocusManager.kt:35-90 | every loss clears focus and calls the loss callback; every gain leaves focus held and calls the gain callback iff focus was not held; other codes change nothing |
| AudioFocus.RequestAudioFocus | app/src/main/java/com/example/myapplication/audio/AudioFocusManager.kt:96-132 | focus is held and true is returned iff the system granted the request; from API 26 the request object is kept |
| AudioFocus.AbandonAudioFocus | app/src/main/java/com/example/myapplication/audio/AudioFocusManager.kt:137-152 | focus is no longer held; from API 26 the request object is released |
| AudioFocus.RequestThenAbandon | app/src/main/java/com/example/myapplication/audio/AudioFocusManager.kt:96-152 | a release after any request leaves focus unheld (from API 26 the manager is back to its initial state), and a request after a release acts as the request alone |
| AudioFocus.ReplayFollowsLastChange | app/src/main/java/com/example/myapplication/audio/AudioFocusManager.kt:35-90 | after any sequence of changes, focus is held iff the last recognised change was a gain (or as before, when none was) |
| AudioFocus.GainIsIdempotent | app/src/main/java/com/example/myapplication/audio/AudioFocusManager.kt:57-88 | a second gain right after a first calls no callback and changes nothing |
| AudioDevice.FindUsb | app/src/main/java/com/example/myapplication/audio/AudioDeviceManager.kt:307-313 | the first input of a USB type, or none iff there is no such input |
| AudioDevice.Determine | app/src/main/java/com/example/myapplication/audio/AudioDeviceManager.kt:190-227 | Bluetooth iff a bound headset is connected with the adapter on (named by the device or "Bluetooth Headset"); else wired iff a wired headset is present; else USB iff API 23+ and a USB input exists (first one's product name or "USB Headset"); else the device microphone |
| AudioDevice.Detect | app/src/main/java/com/example/myapplication/audio/AudioDeviceManager.kt:172-185 | adopts the determined device and notifies iff type or name changed, with the new pair |
| AudioDevice.StartMonitoring | app/src/main/java/com/example/myapplication/audio/AudioDeviceManager.kt:94-126 | guarded by the registration flag; registers and detects, or changes nothing when registration throws |
| AudioDevice.StopMonitoring | app/src/main/java/com/example/myapplication/audio/AudioDeviceManager.kt:131-152 | guarded by the registration flag; unregisters and drops the headset proxy, keeping the last device |
| AudioDevice.OnEvent | app/src/main/java/com/example/myapplication/audio/AudioDeviceManager.kt:48-89 | plug, headset-connection and recording-config events redetect; an adapter change redetects only on STATE_OFF; the headset profile binds (and redetects) or unbinds |
| AudioDevice.DetectIdempotent | app/src/main/java/com/example/myapplication/audio/AudioDeviceManager.kt:172-185 | a second detection against the same devices notifies nothing and changes nothing |
| AudioDevice.NamesStayConsistent | app/src/main/java/com/example/myapplication/audio/AudioDeviceManager.kt:44-45 | under any sequence of events the microphone and the wired headset keep their fixed names |
| AudioDevice.BluetoothWins | app/src/main/java/com/example/myapplication/audio/AudioDeviceManager.kt:190-203 | a connected Bluetooth headset is chosen whatever else is plugged in, and never without the bound proxy |
| Storage.GetStorageInfo | app/src/main/java/com/example/myapplication/storage/StorageManager.kt:43-66 | used plus available is total; sizes are block counts times block size; on failure 100 MB of 1024 MB are available |
| Storage.HasEnoughStorageToStart | app/src/main/java/com/example/myapplication/storage/StorageManager.kt:71-87 | true iff at least 50 MiB are available, in bytes |
| Storage.StatusAsWritten | app/src/main/java/com/example/myapplication/storage/StorageManager.kt:92-109 | critical below 25 MB, low from 25 to below 100, sufficient from 100 |
| Storage.WarningUnreachable | app/src/main/java/com/example/myapplication/storage/StorageManager.kt:95-108 | the warning status is never returned |
| Storage.Status | app/src/main/java/com/example/myapplication/storage/StorageManager.kt:188-193 | the documented bands: critical below 25, low 25–50, warning 50–100, sufficient from 100 |
| Storage.StatusAgreesWithStartGate | app/src/main/java/com/example/myapplication/storage/StorageManager.kt:71-87 | with the documented bands a recording may start iff the status is warning or sufficient |
| Storage.MonitorCheck | app/src/main/java/com/example/myapplication/storage/StorageManager.kt:120-139 | no report iff more than 100 MB; otherwise the MB value, flagged critical iff at most 25 |
| Storage.MonitorBoundaries | app/src/main/java/com/example/myapplication/storage/StorageManager.kt:126-139 | at exactly 25 MB the monitor reports critical while the status is low; at 100 MB it warns while the status is sufficient |
| Storage.EstimatedRecordingTimeMinutes | app/src/main/java/com/example/myapplication/storage/StorageManager.kt:182-186 | never negative; zero iff at most 25 MB; otherwise the MB above the 25 MB reserve |
| Storage.FallbackBehaviour | app/src/main/java/com/example/myapplication/storage/StorageManager.kt:57-65 | the fallback lets a recording start, shows sufficient, triggers the monitor's warning and estimates 75 minutes |
| AudioRecorder.Start | app/src/main/java/com/example/myapplication/record/AndroidAudioRecorder.kt:42-65 | file and source are remembered; the file is truncated unless unwritable; success iff it opens and the platform prepares, then capturing with a fresh silence monitor |
| AudioRecorder.Stop | app/src/main/java/com/example/myapplication/record/AndroidAudioRecorder.kt:67-99 | nothing is held afterwards (not recording, no file, no monitor); an open stream finalizes the captured bytes into the file |
| AudioRecorder.Pause | app/src/main/java/com/example/myapplication/record/AndroidAudioRecorder.kt:101-108 | below API 24 nothing; otherwise a held recorder pauses and the monitor stops, unless the platform throws first |
| AudioRecorder.Resume | app/src/main/java/com/example/myapplication/record/AndroidAudioRecorder.kt:110-117 | below API 24 nothing; otherwise a held recorder resumes and a new monitor starts, even with no recorder |
| AudioRecorder.PauseResumeRestartsMonitor | app/src/main/java/com/example/myapplication/record/AndroidAudioRecorder.kt:101-117 | pause then resume returns to capturing with a monitor counting from zero |
| AudioRecorder.SwitchAudioSource | app/src/main/java/com/example/myapplication/record/AndroidAudioRecorder.kt:123-154 | false without a file; when idle only the source changes (true); when recording, true iff the pause did not throw, the file is writable and the platform prepared, a thrown pause leaves everything as it was, and otherwise the recorder keeps the file and takes the new source and is capturing exactly when the answer is true |
| AudioRecorder.SwitchDiscardsCapturedAudio | app/src/main/java/com/example/myapplication/record/AndroidAudioRecorder.kt:129-140 | a switch while recording leaves the output file empty, whatever had been captured |
| AudioRecorder.SwitchAndBack | app/src/main/java/com/example/myapplication/record/AndroidAudioRecorder.kt:123-154 | switching away and back while recording, with no fault, restores the recorder apart from a fresh silence monitor and leaves the output file empty |
| AudioRecorder.OptimalAudioSource | app/src/main/java/com/example/myapplication/record/AndroidAudioRecorder.kt:159-179 | UNPROCESSED iff a Bluetooth headset on API 24+, MIC otherwise |
| AudioRecorder.CurrentSilenceDuration | app/src/main/java/com/example/myapplication/record/AndroidAudioRecorder.kt:238-240 | the monitor's count, 0 without a monitor |
| AudioRecorder.IsCurrentlySilent | app/src/main/java/com/example/myapplication/record/AndroidAudioRecorder.kt:245-247 | true iff the silence duration is positive (false without a monitor) |
| AudioRecorder.ResetSilenceCounter | app/src/main/java/com/example/myapplication/record/AndroidAudioRecorder.kt:252-254 | the silence duration becomes 0; monitor presence and recorder state are kept |
| AudioRecorder.MonitorFollowsCapture | app/src/main/java/com/example/myapplication/record/AndroidAudioRecorder.kt:42-108 | a started recording is monitored for silence, a paused or stopped one is not |
| RecordingViewModel.ElapsedSeconds | app/src/main/java/com/example/myapplication/ui/theme/RecordingViewModel.kt:218-219 | whole seconds since the start, truncated, and 0 for less than a second or a start in the future |
| RecordingViewModel.TimerText | app/src/main/java/com/example/myapplication/ui/theme/RecordingViewModel.kt:212-212 | the label ends in `:` and two digits below 60, and is five characters below 100 minutes |
| RecordingViewModel.TimerTextRoundTrip | app/src/main/java/com/example/myapplication/ui/theme/RecordingViewModel.kt:211-212 | the label reads back as exactly the elapsed seconds |
| RecordingViewModel.RecordingNameIsStamp | app/src/main/java/com/example/myapplication/ui/theme/RecordingViewModel.kt:89-112 | a saved recording is listed as `meeting_<stamp>` |
| RecordingViewModel.StartTimer | app/src/main/java/com/example/myapplication/ui/theme/RecordingViewModel.kt:205-216 | the start instant is taken only when none is set; the ticking starts |
| RecordingViewModel.TimerTick | app/src/main/java/com/example/myapplication/ui/theme/RecordingViewModel.kt:209-215 | while recording the label shows the elapsed time; otherwise the ticking ends |
| RecordingViewModel.StartRecording | app/src/main/java/com/example/myapplication/ui/theme/RecordingViewModel.kt:88-99 | the file is remembered; success iff the recorder starts, then Recording with the timer running and the clock set to now when it was clear |
| RecordingViewModel.StopWith | app/src/main/java/com/example/myapplication/ui/theme/RecordingViewModel.kt:101-131 | from any status: Stopped, "00:00", clock, file and call flag cleared; exactly one item is appended iff the file exists and is non-empty, the old list kept as prefix |
| RecordingViewModel.StopRecording | app/src/main/java/com/example/myapplication/ui/theme/RecordingViewModel.kt:101-131 | as above, the saved item carrying the recorded time |
| RecordingViewModel.RecordedSeconds | app/src/main/java/com/example/myapplication/ui/theme/RecordingViewModel.kt:108-109 | the elapsed time, or for a paused recording the time recorded up to the pause |
| RecordingViewModel.PauseRecording | app/src/main/java/com/example/myapplication/ui/theme/RecordingViewModel.kt:133-148 | a no-op unless Recording; then Paused, timer stopped, and the elapsed milliseconds kept |
| RecordingViewModel.ResumeAsWritten | app/src/main/java/com/example/myapplication/ui/theme/RecordingViewModel.kt:150-182 | a no-op unless Paused; a failed resume shows Stopped and "00:00" but keeps the clock; otherwise Recording with the start shifted by the pause |
| RecordingViewModel.ResumeRecording | app/src/main/java/com/example/myapplication/ui/theme/RecordingViewModel.kt:150-182 | as above, but a failed resume also clears the clock |
| RecordingViewModel.ToggleRecord | app/src/main/java/com/example/myapplication/ui/theme/RecordingViewModel.kt:72-78 | Recording stops (as written, saving the time since the shifted start) and ends Stopped, Stopped starts, Paused resumes as written and leaves Paused |
| RecordingViewModel.TogglePause | app/src/main/java/com/example/myapplication/ui/theme/RecordingViewModel.kt:80-86 | Recording pauses, Paused resumes as written and leaves Paused, Stopped does nothing |
| RecordingViewModel.HandleCallStateChange | app/src/main/java/com/example/myapplication/ui/theme/RecordingViewModel.kt:283-305 | a ringing or answered call pauses a running recording with the flag raised; the end of a call resumes, as written, one paused for a call, clearing the flag; nothing else changes the state |
| RecordingViewModel.ToggleRecordFixed | app/src/main/java/com/example/myapplication/ui/theme/RecordingViewModel.kt:72-78 | the same dispatch on the corrected screen: Recording stops saving the recorded time, Paused resumes with the corrected resume |
| RecordingViewModel.TogglePauseFixed | app/src/main/java/com/example/myapplication/ui/theme/RecordingViewModel.kt:80-86 | the same dispatch on the corrected screen, Paused resuming with the corrected resume |
| RecordingViewModel.HandleCallStateChangeFixed | app/src/main/java/com/example/myapplication/ui/theme/RecordingViewModel.kt:283-305 | the same call handling on the corrected screen: only an active call on a recording screen or the end of a call on a screen paused for one changes the state |
| RecordingViewModel.FixedAgreesWithAsWritten | app/src/main/java/com/example/myapplication/ui/theme/RecordingViewModel.kt:72-86 | the corrected screen does exactly what the program does, except on a paused screen whose resume fails, where it differs only in clearing the clock |
| RecordingViewModel.ManualResumeDuringCall | app/src/main/java/com/example/myapplication/ui/theme/RecordingViewModel.kt:153-177 | a manual resume during an active call still records, with the call flag left set |
| RecordingViewModel.PauseResumeExcludesPause | app/src/main/java/com/example/myapplication/ui/theme/RecordingViewModel.kt:143-177 | pausing at `t1` and resuming at `t2` shifts the start by `t2 - t1`, so the elapsed time right after the resume is the elapsed time at the pause |
| RecordingViewModel.ElapsedExcludesPauses | app/src/main/java/com/example/myapplication/ui/theme/RecordingViewModel.kt:143-177 | after any number of pause/resume cycles the start is shifted by exactly the total paused time |
| RecordingViewModel.StepsKeepClockCleared | app/src/main/java/com/example/myapplication/ui/theme/RecordingViewModel.kt:101-131 | on the corrected screen every event (either button, a tick, a call-state change) keeps a stopped screen's clock cleared, as a stop clears it |
| RecordingViewModel.RunKeepsClockCleared | app/src/main/java/com/example/myapplication/ui/theme/RecordingViewModel.kt:101-131 | after any sequence of events the corrected screen, when stopped, has a cleared clock |
| RecordingViewModel.NewRecordingStartsAtZero | app/src/main/java/com/example/myapplication/ui/theme/RecordingViewModel.kt:205-208 | on the corrected screen, after any sequence of events from the initial state, a start from Stopped that succeeds takes the start instant now, so its timer starts at zero |
| RecordingViewModel.StaleClockAfterFailedResume | app/src/main/java/com/example/myapplication/ui/theme/RecordingViewModel.kt:178-181 | as written, a failed resume leaves a stopped screen with an uncleared clock, and the next recording's timer starts far from zero; the corrected resume starts it at zero |
| RecordingViewModel.PausedTailCountedAsWritten | app/src/main/java/com/example/myapplication/ui/theme/RecordingViewModel.kt:108-109 | as written, a recording stopped while paused is saved with the paused time counted as recorded |
| RecordingService.StatusQueriesPartition | app/src/main/java/com/example/myapplication/service/RecordingService.kt:457-459 | exactly one of recording, paused, stopped holds; paused covers both paused states |
| RecordingService.UpdateTimer | app/src/main/java/com/example/myapplication/service/RecordingService.kt:258-264 | the timer ends up as given; the state (and the notification count) changes only for a different string |
| RecordingService.UpdateTimerIdempotent | app/src/main/java/com/example/myapplication/service/RecordingService.kt:258-264 | pushing the same string twice equals pushing it once |
| RecordingService.UpdateRecordingStatus | app/src/main/java/com/example/myapplication/service/RecordingService.kt:220-253 | a call-related pause becomes PAUSED_FOR_CALL, any other status is stored as given; resuming from a pause shifts the start by the kept pause, any other start resets the clock; pausing keeps the elapsed milliseconds; ticking iff recording |
| RecordingService.SyncWithViewModelState | app/src/main/java/com/example/myapplication/service/RecordingService.kt:166-193 | recording iff the screen records, else paused iff it is paused, never PAUSED_FOR_CALL; the timer string is stored as given |
| RecordingService.SyncMirrorsScreen | app/src/main/java/com/example/myapplication/service/RecordingService.kt:166-193 | synchronizing from a screen state reproduces the screen's status and timer |
| RecordingService.StartRecordingService | app/src/main/java/com/example/myapplication/service/RecordingService.kt:198-215 | RECORDING from now with no paused time; foreground and ticking unless going foreground fails |
| RecordingService.StopRecordingService | app/src/main/java/com/example/myapplication/service/RecordingService.kt:276-283 | STOPPED, "00:00", not ticking, out of the foreground and stopped |
| RecordingService.Tick | app/src/main/java/com/example/myapplication/service/RecordingService.kt:291-302 | while recording the notification is posted again; otherwise ticking ends |
| RecordingService.SetCallback | app/src/main/java/com/example/myapplication/service/RecordingService.kt:156-161 | the screen is connected; status and timer untouched |
| RecordingService.OnDestroy | app/src/main/java/com/example/myapplication/service/RecordingService.kt:431-436 | the screen is disconnected and ticking ends |
| RecordingService.OnStartCommand | app/src/main/java/com/example/myapplication/service/RecordingService.kt:84-151 | the notification buttons are forwarded to a connected screen and change nothing (stop without a screen stops directly); the start command is `startRecordingService`, the pause and resume commands are the status updates, stop stops and the timer command sets the label ("00:00" when missing); no action or an unknown one does nothing |
| RecordingService.PauseResumeKeepsElapsed | app/src/main/java/com/example/myapplication/service/RecordingService.kt:220-253 | a pause (for a call or not) then a resume keeps the elapsed time |
| RecordingService.CommandsPauseResumeStop | app/src/main/java/com/example/myapplication/service/RecordingService.kt:84-151 | the pause and resume commands in turn leave a recording service recording with the pause excluded from the elapsed time; a second stop command changes nothing |
| RecordingService.ResumeWhileRecordingRestartsClock | app/src/main/java/com/example/myapplication/service/RecordingService.kt:132-134 | a resume command while already recording resets the elapsed time to zero |
| ForegroundService.ChunkFileNamesIndex | app/src/main/java/com/example/myapplication/record/RecordingForegroundService.kt:124-125 | a chunk's index is read back from its file name |
| ForegroundService.StartForegroundAndRecord | app/src/main/java/com/example/myapplication/record/RecordingForegroundService.kt:96-111 | ignored while recording; otherwise recording, in the foreground, entering the loop with the chunk index unchanged |
| ForegroundService.LeaveLoop | app/src/main/java/com/example/myapplication/record/RecordingForegroundService.kt:157-164 | leaving the loop stops the recorder and clears both flags and the foreground |
| ForegroundService.BeginChunk | app/src/main/java/com/example/myapplication/record/RecordingForegroundService.kt:111-134 | a stopped service leaves the loop; a call pause waits; otherwise the chunk file is named with the current index, which grows by exactly one, and a failed start leaves the loop |
| ForegroundService.WaitForChunk | app/src/main/java/com/example/myapplication/record/RecordingForegroundService.kt:137-141 | the wait is whole seconds, at most 30000 ms, the full chunk without interruption and otherwise ends within a second of it |
| ForegroundService.EndChunk | app/src/main/java/com/example/myapplication/record/RecordingForegroundService.kt:143-155 | the recorder stops; the notice names the next chunk unless paused for a call |
| ForegroundService.StopRecordingAndStopSelf | app/src/main/java/com/example/myapplication/record/RecordingForegroundService.kt:168-184 | ignored when not recording; otherwise recording ends, the loop is left and the recorder stopped |
| ForegroundService.PauseRecordingForCall | app/src/main/java/com/example/myapplication/record/RecordingForegroundService.kt:296-308 | only while recording: the call flag is set, the recorder stopped and the call notice shown |
| ForegroundService.HandleCallStateChange | app/src/main/java/com/example/myapplication/record/RecordingForegroundService.kt:273-294 | the end of a call clears the flag (and names the chunk again if it was set); ringing and answered calls take the pause path; other states change nothing |
| ForegroundService.TestPauseElapsed | app/src/main/java/com/example/myapplication/record/RecordingForegroundService.kt:78-85 | five seconds after the test pause, a pause still in force ends |
| ForegroundService.OnStartCommand | app/src/main/java/com/example/myapplication/record/RecordingForegroundService.kt:69-94 | start, stop and test-pause dispatch to their operations; anything else does nothing |
| ForegroundService.ChunksStayContiguous | app/src/main/java/com/example/myapplication/record/RecordingForegroundService.kt:124-125 | under any sequence of events the started chunks carry contiguous indices ending just below the current index |
| ForegroundService.LoopEndClearsFlags | app/src/main/java/com/example/myapplication/record/RecordingForegroundService.kt:111-164 | once the loop ends, neither recording nor the call flag is set |
| Entities.NewSession | app/src/main/java/com/example/myapplication/database/entity/RecordingEntities.kt:10-24 | a new session is active, with no paused time, chunk index 0 and no pause reason |
| Entities.NewChunk | app/src/main/java/com/example/myapplication/database/entity/RecordingEntities.kt:39-51 | a new chunk is unfinished: no end time, no duration or size, incomplete, awaiting merge |
| Entities.NewTask | app/src/main/java/com/example/myapplication/database/entity/RecordingEntities.kt:56-68 | a new task has never run: no completion, no error, no retry, with the given retry limit |
| Dao.GetActiveSessions | app/src/main/java/com/example/myapplication/database/dao/RecordingDao.kt:12-13 | exactly the active sessions, each once, most recently active first |
| Dao.GetSession | app/src/main/java/com/example/myapplication/database/dao/RecordingDao.kt:15-16 | the stored session with the id, or none iff there is none |
| Dao.GetLastActiveSession | app/src/main/java/com/example/myapplication/database/dao/RecordingDao.kt:18-19 | none iff no session is active; otherwise an active session no active session was more recently active than |
| Dao.InsertSession | app/src/main/java/com/example/myapplication/database/dao/RecordingDao.kt:21-22 | the session is stored under its id, others untouched; a replaced session's chunks are deleted by the cascade |
| Dao.UpdateSession | app/src/main/java/com/example/myapplication/database/dao/RecordingDao.kt:24-25 | overwrites a stored session with the same id; no row, no change |
| Dao.DeactivateSession | app/src/main/java/com/example/myapplication/database/dao/RecordingDao.kt:27-28 | the session becomes inactive, nothing else changes |
| Dao.UpdateSessionStatus | app/src/main/java/com/example/myapplication/database/dao/RecordingDao.kt:30-31 | status and last activity of that session only |
| Dao.UpdatePauseReason | app/src/main/java/com/example/myapplication/database/dao/RecordingDao.kt:33-34 | pause reason (null included) and last activity of that session only |
| Dao.CleanupOldSessions | app/src/main/java/com/example/myapplication/database/dao/RecordingDao.kt:36-37 | exactly the inactive sessions last active before the cutoff go, with their chunks |
| Dao.GetChunksForSession | app/src/main/java/com/example/myapplication/database/dao/RecordingDao.kt:43-44 | exactly the session's chunks, each once, by ascending index |
| Dao.GetIncompleteChunk | app/src/main/java/com/example/myapplication/database/dao/RecordingDao.kt:46-47 | none iff the session has no unfinished chunk; otherwise one of highest index |
| Dao.GetChunksNeedingMerge | app/src/main/java/com/example/myapplication/database/dao/RecordingDao.kt:49-50 | exactly the session's chunks awaiting merge, by ascending index |
| Dao.InsertChunk | app/src/main/java/com/example/myapplication/database/dao/RecordingDao.kt:52-53 | stored (replacing) under its id iff its session exists; refused otherwise |
| Dao.UpdateChunk | app/src/main/java/com/example/myapplication/database/dao/RecordingDao.kt:55-56 | overwrites the chunk with the same id, refused when its session is missing; no row, no change |
| Dao.FinalizeChunk | app/src/main/java/com/example/myapplication/database/dao/RecordingDao.kt:58-59 | the one chunk becomes complete with its end, duration and size; every other chunk is unchanged |
| Dao.MarkChunksMerged | app/src/main/java/com/example/myapplication/database/dao/RecordingDao.kt:61-62 | exactly the session's chunks stop awaiting merge |
| Dao.DeleteChunksForSession | app/src/main/java/com/example/myapplication/database/dao/RecordingDao.kt:64-65 | exactly the session's chunks go |
| Dao.GetPendingTasks | app/src/main/java/com/example/myapplication/database/dao/RecordingDao.kt:71-72 | exactly the pending and in-progress tasks, each once, oldest first |
| Dao.GetTasksForSession | app/src/main/java/com/example/myapplication/database/dao/RecordingDao.kt:74-75 | exactly the session's tasks, oldest first |
| Dao.InsertTask | app/src/main/java/com/example/myapplication/database/dao/RecordingDao.kt:77-78 | stored (replacing) under its id, others untouched |
| Dao.UpdateTask | app/src/main/java/com/example/myapplication/database/dao/RecordingDao.kt:80-81 | overwrites the task with the same id; no row, no change |
| Dao.UpdateTaskStatus | app/src/main/java/com/example/myapplication/database/dao/RecordingDao.kt:83-84 | status and completion time of that task only |
| Dao.MarkTaskFailed | app/src/main/java/com/example/myapplication/database/dao/RecordingDao.kt:86-87 | status and message set, retry count up by exactly one, completion time untouched |
| Dao.CleanupOldTasks | app/src/main/java/com/example/myapplication/database/dao/RecordingDao.kt:89-90 | exactly the completed or failed tasks with a completion time before the cutoff go |
| Dao.DeleteTasksForSession | app/src/main/java/com/example/myapplication/database/dao/RecordingDao.kt:92-93 | exactly the session's tasks go |
| Dao.FailedTaskNeverCleaned | app/src/main/java/com/example/myapplication/database/dao/RecordingDao.kt:86-90 | a task failed before ever completing survives every cleanup |
| Dao.CleanupCascades | app/src/main/java/com/example/myapplication/database/entity/RecordingEntities.kt:29-38 | no chunk of a deleted session survives the session cleanup |
| SessionPersistence.CreateSession | app/src/main/java/com/example/myapplication/session/SessionPersistenceManager.kt:52-74 | a new active session in status RECORDING with default fields, started and last active now |
| SessionPersistence.UpdateSessionStatus | app/src/main/java/com/example/myapplication/session/SessionPersistenceManager.kt:79-88 | status and last activity always; the pause reason only when given, so a null never clears one |
| SessionPersistence.AddChunk | app/src/main/java/com/example/myapplication/session/SessionPersistenceManager.kt:93-114 | an unfinished chunk under the new id iff the session exists |
| SessionPersistence.FindChunk | app/src/main/java/com/example/myapplication/session/SessionPersistenceManager.kt:121-122 | a listed chunk with the id that no earlier listed chunk shares, or none iff none has it |
| SessionPersistence.FileSize | app/src/main/java/com/example/myapplication/session/SessionPersistenceManager.kt:125-125 | the file's length in bytes when it exists, zero when missing |
| SessionPersistence.FinalizeChunkAsWritten | app/src/main/java/com/example/myapplication/session/SessionPersistenceManager.kt:119-136 | in a valid store only a chunk of session `""` can be finalized; without such a session nothing changes |
| SessionPersistence.FinalizeChunk | app/src/main/java/com/example/myapplication/session/SessionPersistenceManager.kt:119-136 | the chunk with the id becomes complete with the duration, end time now and the file's size; everything else is unchanged |
| SessionPersistence.CreateRecoveryTask | app/src/main/java/com/example/myapplication/session/SessionPersistenceManager.kt:168-189 | a new pending task that has never run, created now |
| SessionPersistence.UpdateTaskStatus | app/src/main/java/com/example/myapplication/session/SessionPersistenceManager.kt:203-215 | a failure with a message counts a retry, sets the message and keeps the completion time; any other update keeps retries and message and has a completion time (now) iff the status is finished |
| SessionPersistence.CompleteSession | app/src/main/java/com/example/myapplication/session/SessionPersistenceManager.kt:220-227 | the session is stopped and inactive, and exactly its chunks stop awaiting merge |
| SessionPersistence.Cutoff | app/src/main/java/com/example/myapplication/session/SessionPersistenceManager.kt:233-233 | for ages from -596523 to 596523 hours the cutoff is now minus the age in milliseconds; outside that range the 32-bit product wraps (see `CutoffWrapsAround`) |
| SessionPersistence.CutoffWrapsAround | app/src/main/java/com/example/myapplication/session/SessionPersistenceManager.kt:233-233 | at 596524 hours the 32-bit product wraps and the cutoff lies after now |
| SessionPersistence.Cleanup | app/src/main/java/com/example/myapplication/session/SessionPersistenceManager.kt:232-241 | exactly the stale sessions (with their chunks) and the stale tasks go |
| SessionPersistence.DeleteSession | app/src/main/java/com/example/myapplication/session/SessionPersistenceManager.kt:246-253 | exactly the session's chunks and tasks go; the session row stays, deactivated |
| SessionPersistence.DeletedSessionGoesAtCleanup | app/src/main/java/com/example/myapplication/session/SessionPersistenceManager.kt:232-253 | a deleted session's row goes at a later cleanup iff it was last active before the cutoff |
| AudioMerger.AllUsable | app/src/main/java/com/example/myapplication/audio/AudioMerger.kt:96-109 | true iff every input exists and can be read |
| AudioMerger.ValidateInputFiles | app/src/main/java/com/example/myapplication/audio/AudioMerger.kt:90-113 | false for no input; otherwise true iff every input exists and can be read (empty files allowed) |
| AudioMerger.CopyTo | app/src/main/java/com/example/myapplication/audio/AudioMerger.kt:26-36 | success only for a readable source other than the target, leaving the target equal to the source; guaranteed when the target is writable; a missing source fails with no change |
| AudioMerger.CopyOntoItselfLosesFile | app/src/main/java/com/example/myapplication/audio/AudioMerger.kt:26-36 | copying a file onto itself fails and deletes it |
| AudioMerger.MergeM4AFiles | app/src/main/java/com/example/myapplication/audio/AudioMerger.kt:54-85 | success iff the output opens and every present input reads; the output then holds the inputs' bytes in list order; no other file changes |
| AudioMerger.Merge | app/src/main/java/com/example/myapplication/audio/AudioMerger.kt:18-52 | no input fails; one input is copied; several must all be usable, and then the output holds their concatenation iff it is writable |
| AudioMerger.MergeAudioFiles | app/src/main/java/com/example/myapplication/audio/AudioMerger.kt:18-52 | the streaming merge computes exactly the merge above |
| AudioMerger.MergeWithMediaMuxer | app/src/main/java/com/example/myapplication/audio/AudioMerger.kt:145-149 | the same result as the plain merge |
| AudioMerger.ConcatLength | app/src/main/java/com/example/myapplication/audio/AudioMerger.kt:119-124 | the concatenation is as long as the inputs' lengths added up |
| AudioMerger.EstimatedMillis | app/src/main/java/com/example/myapplication/audio/AudioMerger.kt:119-124 | a whole number of seconds, within a second below the exact duration at 16384 bytes a second |
| AudioMerger.EstimateMonotone | app/src/main/java/com/example/myapplication/audio/AudioMerger.kt:119-124 | more bytes never give a shorter estimate |
| AudioMerger.EstimatedTotalDuration | app/src/main/java/com/example/myapplication/audio/AudioMerger.kt:119-124 | the inputs' total length at 16384 bytes per second, rounded down to whole seconds, in milliseconds |
| AudioMerger.EstimateOfMergedOutput | app/src/main/java/com/example/myapplication/audio/AudioMerger.kt:119-124 | the inputs' estimate equals the estimate of the file their merge produces |
| AudioMerger.CleanupTemporaryFiles | app/src/main/java/com/example/myapplication/audio/AudioMerger.kt:129-139 | exactly the listed files that can be deleted go; nothing else changes |
| AudioMerger.CleanupRemovesListed | app/src/main/java/com/example/myapplication/audio/AudioMerger.kt:129-139 | no deletable listed file remains |
| RecoveryWorker.EstimateAudioDuration | app/src/main/java/com/example/myapplication/worker/RecordingRecoveryWorker.kt:268-273 | a whole number of seconds, within a second below the file's exact duration at the assumed rate |
| RecoveryWorker.FinalizeIncompleteChunk | app/src/main/java/com/example/myapplication/worker/RecordingRecoveryWorker.kt:140-171 | always true; nothing to do iff the session has no unfinished chunk; otherwise one of highest index becomes complete, with the recovered duration |
| RecoveryWorker.FinalizeIncompleteChunkAsWritten | app/src/main/java/com/example/myapplication/worker/RecordingRecoveryWorker.kt:140-171 | as written it reports true and, with no session `""`, changes nothing |
| RecoveryWorker.Filter | app/src/main/java/com/example/myapplication/worker/RecordingRecoveryWorker.kt:185-187 | exactly the complete chunks whose file exists |
| RecoveryWorker.FilterKeepsOrder | app/src/main/java/com/example/myapplication/worker/RecordingRecoveryWorker.kt:185-187 | filtering keeps ascending index order |
| RecoveryWorker.FilterKeepsDistinct | app/src/main/java/com/example/myapplication/worker/RecordingRecoveryWorker.kt:185-187 | filtering keeps every chunk once |
| RecoveryWorker.Paths | app/src/main/java/com/example/myapplication/worker/RecordingRecoveryWorker.kt:197-197 | the chunks' file paths, position for position |
| RecoveryWorker.MergeSessionChunks | app/src/main/java/com/example/myapplication/worker/RecordingRecoveryWorker.kt:176-228 | false and no change unless the session is active and no active session is more recent; false with nothing merged only when the session is not the sole most recent active one; whenever it merges anything or succeeds, it merges exactly its complete chunks with files, once each, by ascending index, into `<dir>/<base>.m4a`, also when that merge fails; a failed merge keeps the store and leaves the files as the merger left them; only a successful merge completes the session and deletes the inputs; a failure keeps the store; a valid store stays valid |
| RecoveryWorker.NotSoleLastActive | app/src/main/java/com/example/myapplication/worker/RecordingRecoveryWorker.kt:179-183 | when `getLastActiveSession` returns no session or one with another id, the session is not the sole most recent active one |
| RecoveryWorker.MergeLastActive | app/src/main/java/com/example/myapplication/worker/RecordingRecoveryWorker.kt:185-228 | for the most recent active session, the merge makes every promise of `mergeSessionChunks`: exactly its complete chunks with files by ascending index, on failure as on success, the merger's outcome on the files, and on success the session completed and the inputs deleted |
| RecoveryWorker.MergeTwice | app/src/main/java/com/example/myapplication/worker/RecordingRecoveryWorker.kt:179-183 | a merge repeated after a successful one answers false and changes nothing |
| RecoveryWorker.CleanupSessionFiles | app/src/main/java/com/example/myapplication/worker/RecordingRecoveryWorker.kt:233-262 | always true; every deletable chunk file of the session is gone, every file that is not a chunk file of the session stays unchanged, and the session is deleted from the store |
| RecoveryWorker.RunJob | app/src/main/java/com/example/myapplication/worker/RecordingRecoveryWorker.kt:102-110 | finalize and cleanup always succeed; a merge task answers, changes the store and the files, and picks the chunks exactly as `mergeSessionChunks` promises; finalize, run as written, leaves the files and, in a valid store of generated session ids, the store unchanged; cleanup deletes the session; an unknown task type fails with no change; a valid store stays valid |
| RecoveryWorker.FinalMark | app/src/main/java/com/example/myapplication/worker/RecordingRecoveryWorker.kt:111-131 | the final status update changes only the task's row: COMPLETED after a true answer, FAILED with "Task execution failed" after a false one, FAILED with the exception's message or "Unknown error" when that update throws |
| RecoveryWorker.DoWork | app/src/main/java/com/example/myapplication/worker/RecordingRecoveryWorker.kt:91-135 | a missing input fails with no change; a status update that throws leaves the task failed with the exception's message or "Unknown error" (before the job when the in-progress mark throws, after it when the final mark does); success iff the task ends COMPLETED; a returned failure records "Task execution failed"; a finalize task changes no chunk of a valid store of generated ids; a cleanup task leaves no chunk of its session; a merge task whose in-progress mark does not throw ends with the store and files of a run that keeps every promise of `mergeSessionChunks` (from the store marked in progress), followed by the final mark; a valid store stays valid |

## Left out

- Notification building and posting, the notification channel, and the notice text's presentation: only the text of the chunk and call notices is kept.
- The Compose screen, permission requests and the playback wrapper: user interface and platform queries.
- The database singleton, the application's WorkManager setup and the worker's enqueue helpers: framework plumbing.
- The platform recorder, the audio capture stream, file streams, and the Bluetooth, telephony and broadcast registrations. Each becomes abstract state plus inputs: faults, captured bytes, device lists and call states.
- Concurrency: the atomic flags, coroutine and handler timers and `delay` loops. Every loop iteration and callback is one sequential step, and the five-second delay of the test pause is its own step.
- Floating point: the RMS level (a reading carries its `isSilent` flag), `usagePercent` and the storage description.
- Wall-clock reads, the date stamp and UUIDs become parameters.
- Logging.
- `getCurrentDevice`, `hasAudioFocus`, `getCurrentAudioSource` and `isRecording` are plain reads of model fields.
- The persistence manager's readers `getLastActiveSession`, `getSessionChunks`, `getIncompleteChunk` and `getPendingRecoveryTasks` only delegate to the DAO queries, which are modelled as `Dao.GetLastActiveSession`, `Dao.GetChunksForSession`, `Dao.GetIncompleteChunk` and `Dao.GetPendingTasks`.
- Kotlin `Long` overflow in the time and size arithmetic: those values are unbounded integers. The one `Int` product that can realistically wrap (the cleanup cutoff) is modelled.
- AudioMerger.MergeM4AFiles: the merge reads the inputs as they were before it started. An output path that is also one of the inputs is therefore not modelled exactly, because the source truncates it before reading it.
- RecoveryWorker.MergeSessionChunks: the `sortedBy { chunkIndex }` step is taken as the identity. The query already returns the chunks by ascending index, and a stable sort of a sorted list leaves it unchanged. Which of several chunks with the same index comes first is left open.
- RecoveryWorker.MergeSessionChunks: when several active sessions share the most recent activity time and one of them has no mergeable chunk, the answer is not stated. `getLastActiveSession` picks one of the tied sessions, and the model leaves that choice open. Outside ties, no mergeable chunk means the answer true and no change.
- SilenceDetector.StartMonitoring: the `SecurityException` path, which leaves a created but unstarted stream behind, is not distinguished from a failed initialization.
- RecordingViewModel.TimerText: the label is built with ASCII digits. The source formats it with `String.format` and no locale, so under a locale with other digits the label shows those digits instead.
- RecoveryWorker.DoWork: a throw from the handler's own status update, which would escape `doWork`, is not modelled. An exception inside a job is caught by the job and reported as false, which the jobs' failure answers already cover.
- Dao.GetLastActiveSession: which of several equally recent active sessions is returned is left open, as it is in SQL.

## Findings

| source | as written | input that shows it | evidently intended | confidence | as-written member | corrected member |
|---|---|---|---|---|---|---|
| app/src/main/java/com/example/myapplication/storage/StorageManager.kt:95-108 | the low test (below 100 MB) precedes the warning test (below 2 × 50 MB = 100 MB) | any amount: e.g. 60 MB is reported low, and no amount is reported as warning | the documented bands: low 25–50 MB, warning 50–100 MB | not executed | Storage.StatusAsWritten, Storage.WarningUnreachable | Storage.Status |
| app/src/main/java/com/example/myapplication/ui/theme/RecordingViewModel.kt:178-181 | a resume whose recorder throws shows Stopped but keeps `startTimeMs` | start at 1 s, pause at 5 s, resume failing at 6 s, start again at 100 s: the new recording keeps the 1 s start and its timer opens at 99 s, not 00:00 | a failed resume clears the clock like a stop does | not executed | RecordingViewModel.ResumeAsWritten, RecordingViewModel.StaleClockAfterFailedResume | RecordingViewModel.ResumeRecording, RecordingViewModel.NewRecordingStartsAtZero |
| app/src/main/java/com/example/myapplication/ui/theme/RecordingViewModel.kt:108-109 | a recording stopped while paused is saved with `now - startTimeMs`, which includes the time spent paused | start at 1 s, pause at 11 s, stop at 71 s: saved as 70 s instead of 10 s | the saved duration is the time recorded up to the pause | not executed | RecordingViewModel.StopAsWritten, RecordingViewModel.PausedTailCountedAsWritten | RecordingViewModel.StopRecording |
| app/src/main/java/com/example/myapplication/session/SessionPersistenceManager.kt:121-121 | `finalizeChunk` searches the chunks of session `""` for the id | any valid store whose session ids are non-empty and that holds an unfinished chunk: the call changes nothing, so the recovery worker's finalize never finalizes | the chunk with the given id is finalized | not executed | SessionPersistence.FinalizeChunkAsWritten, RecoveryWorker.FinalizeIncompleteChunkAsWritten | SessionPersistence.FinalizeChunk, RecoveryWorker.FinalizeIncompleteChunk |

Other behaviour of the code as written, modelled as it is and proved:

- A source switch while recording empties the recording file (`AudioRecorder.SwitchDiscardsCapturedAudio`).
- A resume starts a silence monitor even when no recorder is held (`AudioRecorder.Resume`).
- A resume command to the service while it is already recording restarts its clock (`RecordingService.ResumeWhileRecordingRestartsClock`).
- A cleanup task deletes its own task row along with the session's tasks (`RecoveryWorker.CleanupSessionFiles`).
- A failed task's retry count is never compared with its limit (`Dao.MarkTaskFailed`).
- A failed task is never cleaned up (`Dao.FailedTaskNeverCleaned`).
- The cleanup cutoff wraps for huge ages (`SessionPersistence.CutoffWrapsAround`).
- Copying a file onto itself deletes it (`AudioMerger.CopyOntoItselfLosesFile`).

=== FILE: audio_device.dfy ===
/** Which input device the recording comes from. The manager keeps the
    current device type and name, re-derives them from the connected devices
    whenever the system reports a change, and notifies only on a difference.
    Priority: Bluetooth headset, then wired headset, then USB headset (API 23
    and later), then the built-in microphone. */
module AudioDevice {
  import opened Common

  const SDK_M: int := 23
  const TYPE_WIRED_HEADSET: int := 3
  const TYPE_USB_DEVICE: int := 11
  const TYPE_USB_HEADSET: int := 22
  const BLUETOOTH_STATE_OFF: int := 10
  const PROFILE_HEADSET: int := 1

  datatype DeviceType = DeviceMic | WiredHeadset | BluetoothHeadset | UsbHeadset

  /** A connected Bluetooth headset; its name may be unavailable. */
  datatype BluetoothDevice = BluetoothDevice(name: Option<string>)

  /** An entry of `getDevices(GET_DEVICES_INPUTS)`. */
  datatype InputDevice = InputDevice(kind: int, productName: Option<string>)

  /** What the system reports at the moment of a detection. `adapterEnabled`
      is false also when the device has no Bluetooth adapter, and
      `bluetoothPermitted` false when the headset query throws a
      `SecurityException`. */
  datatype Environment = Environment(
    sdk: int,
    adapterEnabled: bool,
    bluetoothPermitted: bool,
    headsets: seq<BluetoothDevice>,
    inputs: seq<InputDevice>,
    wiredHeadsetOn: bool)

  /** The manager's state: receivers registered, whether the headset profile
      proxy is bound, and the current device. */
  datatype Manager = Manager(registered: bool, proxyBound: bool, deviceType: DeviceType, deviceName: string)

  const Initial := Manager(false, false, DeviceMic, "Device Microphone")

  /** The fixed names of the devices that have no name of their own, and the
      fallbacks used when a headset reports none. */
  predicate NameFits(t: DeviceType, name: string) {
    match t
    case DeviceMic => name == "Device Microphone"
    case WiredHeadset => name == "Wired Headset"
    case BluetoothHeadset | UsbHeadset => true
  }

  predicate IsUsb(d: InputDevice) {
    d.kind == TYPE_USB_HEADSET || d.kind == TYPE_USB_DEVICE
  }

  /** `devices.find { … }` for the USB types: the index of the first match. */
  function FindUsb(inputs: seq<InputDevice>): (r: Option<nat>)
    ensures r.Some? ==> r.value < |inputs| && IsUsb(inputs[r.value])
    ensures r.Some? ==> forall j | 0 <= j < r.value :: !IsUsb(inputs[j])
    ensures r.None? <==> forall j | 0 <= j < |inputs| :: !IsUsb(inputs[j])
  {
    if |inputs| == 0 then None
    else if IsUsb(inputs[0]) then Some(0)
    else
      match FindUsb(inputs[1..])
      case None => None
      case Some(k) => Some(k + 1)
  }

  /** `isBluetoothHeadsetConnected`: a bound proxy lists a device and the
      adapter is on; without permission the answer is false. */
  predicate BluetoothConnected(proxyBound: bool, env: Environment) {
    proxyBound && env.bluetoothPermitted && |env.headsets| > 0 && env.adapterEnabled
  }

  /** `isWiredHeadsetConnected`: from API 23 an input of the wired-headset
      type, before that the deprecated `isWiredHeadsetOn`. */
  predicate WiredConnected(env: Environment) {
    if env.sdk >= SDK_M then exists i | 0 <= i < |env.inputs| :: env.inputs[i].kind == TYPE_WIRED_HEADSET
    else env.wiredHeadsetOn
  }

  /** `determineCurrentAudioDevice`. */
  function Determine(proxyBound: bool, env: Environment): (r: (DeviceType, string))
    ensures NameFits(r.0, r.1)
    ensures r.0 == BluetoothHeadset <==> BluetoothConnected(proxyBound, env)
    ensures r.0 == BluetoothHeadset ==> r.1 == env.headsets[0].name.GetOr("Bluetooth Headset")
    ensures r.0 == WiredHeadset <==> !BluetoothConnected(proxyBound, env) && WiredConnected(env)
    ensures r.0 == UsbHeadset <==>
      !BluetoothConnected(proxyBound, env) && !WiredConnected(env) && env.sdk >= SDK_M &&
      exists i | 0 <= i < |env.inputs| :: IsUsb(env.inputs[i])
    ensures r.0 == UsbHeadset ==>
      exists i | 0 <= i < |env.inputs| ::
        IsUsb(env.inputs[i]) && r.1 == env.inputs[i].productName.GetOr("USB Headset") &&
        forall j | 0 <= j < i :: !IsUsb(env.inputs[j])
  {
    if BluetoothConnected(proxyBound, env) then
      (BluetoothHeadset, env.headsets[0].name.GetOr("Bluetooth Headset"))
    else if WiredConnected(env) then
      (WiredHeadset, "Wired Headset")
    else if env.sdk >= SDK_M && FindUsb(env.inputs).Some? then
      var i := FindUsb(env.inputs).value;
      (UsbHeadset, env.inputs[i].productName.GetOr("USB Headset"))
    else
      (DeviceMic, "Device Microphone")
  }

  datatype Detected = Detected(manager: Manager, notified: Option<(DeviceType, string)>)

  /** `detectCurrentAudioDevice`: adopt the determined device, and call
      `onDeviceChanged` only when type or name differ. */
  function Detect(m: Manager, env: Environment): (r: Detected)
    ensures (r.manager.deviceType, r.manager.deviceName) == Determine(m.proxyBound, env)
    ensures r.manager.registered == m.registered && r.manager.proxyBound == m.proxyBound
    ensures r.notified.Some? <==> (m.deviceType, m.deviceName) != Determine(m.proxyBound, env)
    ensures r.notified.Some? ==> r.notified.value == Determine(m.proxyBound, env)
  {
    var (t, n) := Determine(m.proxyBound, env);
    if t != m.deviceType || n != m.deviceName then
      Detected(m.(deviceType := t, deviceName := n), Some((t, n)))
    else
      Detected(m, None)
  }

  /** `startMonitoring`: once only; registers the receivers (`fails` when that
      throws, leaving the manager as it was) and detects the device. The
      headset proxy binds later, through `ServiceConnected`. */
  function StartMonitoring(m: Manager, env: Environment, fails: bool): (r: Detected)
    ensures m.registered || fails ==> r == Detected(m, None)
    ensures !m.registered && !fails ==>
      r.manager.registered && (r.manager.deviceType, r.manager.deviceName) == Determine(m.proxyBound, env)
  {
    if m.registered || fails then Detected(m, None)
    else Detect(m.(registered := true), env)
  }

  /** `stopMonitoring`: unregisters and drops the proxy; the last device is kept. */
  function StopMonitoring(m: Manager, fails: bool): (r: Manager)
    ensures !m.registered || fails ==> r == m
    ensures m.registered && !fails ==>
      !r.registered && !r.proxyBound && r.deviceType == m.deviceType && r.deviceName == m.deviceName
  {
    if !m.registered || fails then m
    else m.(registered := false, proxyBound := false)
  }

  /** The notifications the manager reacts to. */
  datatype Event =
    | HeadsetPlug
    | BluetoothConnectionChanged
    | AdapterStateChanged(state: int)
    | RecordingConfigChanged
    | ServiceConnected(profile: int)
    | ServiceDisconnected(profile: int)

  /** Whether an event leads to a fresh detection. */
  predicate Redetects(e: Event) {
    match e
    case AdapterStateChanged(s) => s == BLUETOOTH_STATE_OFF
    case ServiceConnected(p) => p == PROFILE_HEADSET
    case ServiceDisconnected(_) => false
    case _ => true
  }

  /** The receiver, the recording callback and the profile listener. */
  function OnEvent(m: Manager, env: Environment, e: Event): (r: Detected)
    ensures r.manager.registered == m.registered
    ensures e == ServiceConnected(PROFILE_HEADSET) ==> r.manager.proxyBound
    ensures e == ServiceDisconnected(PROFILE_HEADSET) ==> r == Detected(m.(proxyBound := false), None)
    ensures Redetects(e) ==> (r.manager.deviceType, r.manager.deviceName) == Determine(r.manager.proxyBound, env)
    ensures !Redetects(e) ==> r.notified.None? && r.manager.deviceType == m.deviceType && r.manager.deviceName == m.deviceName
  {
    match e
    case HeadsetPlug => Detect(m, env)
    case BluetoothConnectionChanged => Detect(m, env)
    case RecordingConfigChanged => Detect(m, env)
    case AdapterStateChanged(s) => if s == BLUETOOTH_STATE_OFF then Detect(m, env) else Detected(m, None)
    case ServiceConnected(p) => if p == PROFILE_HEADSET then Detect(m.(proxyBound := true), env) else Detected(m, None)
    case ServiceDisconnected(p) => if p == PROFILE_HEADSET then Detected(m.(proxyBound := false), None) else Detected(m, None)
  }

  /** Detection is idempotent: repeating it against an unchanged environment
      notifies nothing and changes nothing. */
  lemma DetectIdempotent(m: Manager, env: Environment)
    ensures Detect(Detect(m, env).manager, env) == Detected(Detect(m, env).manager, None)
  {
  }

  /** Every operation keeps the current type and name consistent: the built-in
      microphone and the wired headset always carry their fixed names. */
  lemma {:induction false} NamesStayConsistent(m: Manager, env: Environment, es: seq<Event>)
    requires NameFits(m.deviceType, m.deviceName)
    ensures NameFits(Replay(m, env, es).deviceType, Replay(m, env, es).deviceName)
    decreases |es|
  {
    if |es| > 0 {
      NamesStayConsistent(m, env, es[..|es| - 1]);
    }
  }

  function Replay(m: Manager, env: Environment, es: seq<Event>): Manager
    decreases |es|
  {
    if |es| == 0 then m else OnEvent(Replay(m, env, es[..|es| - 1]), env, es[|es| - 1]).manager
  }

  /** A Bluetooth headset outranks every other input: whenever one is
      connected through a bound proxy with the adapter on, it is chosen,
      whatever wired or USB devices are plugged in as well. */
  lemma BluetoothWins(env: Environment)
    requires env.bluetoothPermitted && env.adapterEnabled && |env.headsets| > 0
    ensures Determine(true, env).0 == BluetoothHeadset
    ensures Determine(false, env).0 != BluetoothHeadset
  {
  }
}

=== FILE: audio_focus.dfy ===
/** Audio focus for the recorder: a request for permanent focus, a listener
    that turns every kind of loss into "pause" and every kind of gain into
    "resume" (the latter only when focus was not already held), and release. */
module AudioFocus {

  const SDK_O: int := 26

  const AUDIOFOCUS_GAIN: int := 1
  const AUDIOFOCUS_GAIN_TRANSIENT: int := 2
  const AUDIOFOCUS_GAIN_TRANSIENT_MAY_DUCK: int := 3
  const AUDIOFOCUS_GAIN_TRANSIENT_EXCLUSIVE: int := 4
  const AUDIOFOCUS_LOSS: int := -1
  const AUDIOFOCUS_LOSS_TRANSIENT: int := -2
  const AUDIOFOCUS_LOSS_TRANSIENT_CAN_DUCK: int := -3
  const AUDIOFOCUS_REQUEST_GRANTED: int := 1

  predicate IsLoss(code: int) {
    code == AUDIOFOCUS_LOSS || code == AUDIOFOCUS_LOSS_TRANSIENT || code == AUDIOFOCUS_LOSS_TRANSIENT_CAN_DUCK
  }

  predicate IsGain(code: int) {
    code == AUDIOFOCUS_GAIN || code == AUDIOFOCUS_GAIN_TRANSIENT ||
    code == AUDIOFOCUS_GAIN_TRANSIENT_EXCLUSIVE || code == AUDIOFOCUS_GAIN_TRANSIENT_MAY_DUCK
  }

  /** The manager's two fields: whether focus is held, and whether an
      `AudioFocusRequest` object is kept for a later release. */
  datatype Focus = Focus(hasFocus: bool, hasRequest: bool)

  const Initial := Focus(false, false)

  /** Which of the two callbacks the listener invoked, if any. */
  datatype Callback = NoCallback | FocusLost | FocusGained

  datatype Changed = Changed(focus: Focus, callback: Callback)

  /** The focus-change listener. */
  function OnFocusChange(f: Focus, code: int): (r: Changed)
    ensures r.focus.hasRequest == f.hasRequest
    ensures IsLoss(code) ==> r == Changed(f.(hasFocus := false), FocusLost)
    ensures IsGain(code) ==> r.focus.hasFocus
    ensures r.callback == FocusGained <==> IsGain(code) && !f.hasFocus
    ensures !IsLoss(code) && !IsGain(code) ==> r == Changed(f, NoCallback)
  {
    if IsLoss(code) then Changed(f.(hasFocus := false), FocusLost)
    else if IsGain(code) then
      if !f.hasFocus then Changed(f.(hasFocus := true), FocusGained) else Changed(f, NoCallback)
    else Changed(f, NoCallback)
  }

  datatype Requested = Requested(focus: Focus, granted: bool)

  /** `requestAudioFocus`: the system's answer `result` decides whether focus
      is held; from API 26 on the request object is kept. */
  function RequestAudioFocus(f: Focus, sdk: int, result: int): (r: Requested)
    ensures r.granted == r.focus.hasFocus
    ensures r.granted <==> result == AUDIOFOCUS_REQUEST_GRANTED
    ensures sdk >= SDK_O ==> r.focus.hasRequest
    ensures sdk < SDK_O ==> r.focus.hasRequest == f.hasRequest
  {
    var granted := result == AUDIOFOCUS_REQUEST_GRANTED;
    if sdk >= SDK_O then Requested(Focus(granted, true), granted)
    else Requested(f.(hasFocus := granted), granted)
  }

  /** `abandonAudioFocus`: focus is no longer held; from API 26 on the kept
      request is released and forgotten. */
  function AbandonAudioFocus(f: Focus, sdk: int): (r: Focus)
    ensures !r.hasFocus
    ensures sdk >= SDK_O ==> !r.hasRequest
    ensures sdk < SDK_O ==> r.hasRequest == f.hasRequest
  {
    if sdk >= SDK_O then Focus(false, false) else f.(hasFocus := false)
  }

  /** A release after any request leaves focus unheld, and from API 26 on
      returns the manager to its initial state; a request made after a
      release has the same effect as one made without it. */
  lemma RequestThenAbandon(f: Focus, sdk: int, result: int)
    ensures var a := AbandonAudioFocus(RequestAudioFocus(f, sdk, result).focus, sdk);
      !a.hasFocus && (sdk >= SDK_O ==> a == Initial) && (sdk < SDK_O ==> a == f.(hasFocus := false))
    ensures RequestAudioFocus(AbandonAudioFocus(f, sdk), sdk, result) == RequestAudioFocus(f, sdk, result)
  {
  }

  /** The listener applied to a sequence of focus changes. */
  function Replay(f: Focus, codes: seq<int>): Focus
    decreases |codes|
  {
    if |codes| == 0 then f else OnFocusChange(Replay(f, codes[..|codes| - 1]), codes[|codes| - 1]).focus
  }

  /** Reference: focus is held exactly when the last recognised change was a
      gain, or, when there was none, as it was before. */
  function LastRecognised(held: bool, codes: seq<int>): bool
    decreases |codes|
  {
    if |codes| == 0 then held
    else
      var c := codes[|codes| - 1];
      if IsLoss(c) then false
      else if IsGain(c) then true
      else LastRecognised(held, codes[..|codes| - 1])
  }

  /** After any sequence of focus changes the flag agrees with the last
      recognised change; unknown codes leave it alone, and the request object
      is never touched by the listener. */
  lemma {:induction false} ReplayFollowsLastChange(f: Focus, codes: seq<int>)
    ensures Replay(f, codes).hasFocus == LastRecognised(f.hasFocus, codes)
    ensures Replay(f, codes).hasRequest == f.hasRequest
    decreases |codes|
  {
    if |codes| > 0 {
      ReplayFollowsLastChange(f, codes[..|codes| - 1]);
    }
  }

  /** Gains never stack: a second gain right after a first invokes no callback. */
  lemma GainIsIdempotent(f: Focus, a: int, b: int)
    requires IsGain(a) && IsGain(b)
    ensures OnFocusChange(OnFocusChange(f, a).focus, b) == Changed(OnFocusChange(f, a).focus, NoCallback)
  {
  }
}

=== FILE: audio_merger.dfy ===
/** The chunk merger: no input fails, one input is copied over the output,
    several inputs are validated and then their bytes are concatenated into
    the output in list order. Byte streams become whole byte strings. */
module AudioMerger {
  import opened Common

  /** 128 kbps AAC, the rate the duration estimates assume. */
  const BYTES_PER_SECOND: int := 16 * 1024

  datatype Merged = Merged(fs: Fs, ok: bool)

  /** The bytes a file contributes to a merge: its contents, nothing when
      it is missing. */
  function Contents(fs: Fs, p: Path): Bytes {
    if p in fs.files then fs.files[p] else []
  }

  /** The inputs' contents back to back, in list order. */
  function Concat(fs: Fs, inputs: seq<Path>): Bytes
    decreases |inputs|
  {
    if |inputs| == 0 then [] else Concat(fs, inputs[..|inputs| - 1]) + Contents(fs, inputs[|inputs| - 1])
  }

  /** `validateInputFiles`' loop: stops at the first input that is missing or
      unreadable; an empty input only warns. */
  function AllUsable(fs: Fs, inputs: seq<Path>): (ok: bool)
    ensures ok <==> forall i | 0 <= i < |inputs| :: fs.CanRead(inputs[i])
    decreases |inputs|
  {
    if |inputs| == 0 then true
    else if !fs.Exists(inputs[0]) then false
    else if !fs.CanRead(inputs[0]) then false
    else
      var rest := AllUsable(fs, inputs[1..]);
      assert forall i | 1 <= i < |inputs| :: inputs[i] == inputs[1..][i - 1];
      rest
  }

  /** `validateInputFiles`: false for no input, otherwise whether every
      input exists and can be read. */
  function ValidateInputFiles(fs: Fs, inputs: seq<Path>): (ok: bool)
    ensures ok <==> |inputs| > 0 && forall i | 0 <= i < |inputs| :: fs.CanRead(inputs[i])
  {
    |inputs| > 0 && AllUsable(fs, inputs)
  }

  /** Kotlin's `copyTo(target, overwrite = true)`: a missing source throws;
      an existing target is deleted first (throwing if it cannot be); then
      the source's bytes are streamed into the target. */
  function CopyTo(fs: Fs, src: Path, dst: Path): (r: Merged)
    ensures r.ok ==> fs.CanRead(src) && src != dst && r.fs == fs.(files := fs.files[dst := fs.files[src]])
    ensures fs.CanRead(src) && src != dst && dst !in fs.unwritable ==> r.ok
    ensures !fs.Exists(src) ==> r == Merged(fs, false)
    ensures forall p | p != dst :: (p in r.fs.files <==> p in fs.files)
    ensures forall p | p != dst && p in fs.files :: r.fs.files[p] == fs.files[p]
  {
    if !fs.Exists(src) then Merged(fs, false)
    else
      var (fs1, cleared) := if fs.Exists(dst) then fs.Delete(dst) else (fs, true);
      if !cleared then Merged(fs, false)
      else if !fs1.CanRead(src) then Merged(fs1, false)
      else
        var (fs2, written) := fs1.Write(dst, fs.files[src]);
        if !written then Merged(fs1, false)
        else
          assert fs2 == fs.(files := fs.files[dst := fs.files[src]]);
          Merged(fs2, true)
  }

  /** Copying a file onto itself loses it: the overwrite deletes the target,
      which is the source, before reading it. */
  lemma CopyOntoItselfLosesFile(fs: Fs, p: Path)
    requires fs.Exists(p) && p !in fs.unwritable
    ensures var r := CopyTo(fs, p, p); !r.ok && !r.fs.Exists(p)
  {
  }

  /** `mergeM4AFiles`: opens (and so truncates) the output, then appends
      every input that exists, in order; a read failure stops the merge with
      what was written so far left in the output. */
  method MergeM4AFiles(fs: Fs, inputs: seq<Path>, output: Path) returns (r: Merged)
    ensures output in fs.unwritable ==> r == Merged(fs, false)
    ensures r.ok <==> output !in fs.unwritable && forall i | 0 <= i < |inputs| :: fs.Exists(inputs[i]) ==> fs.CanRead(inputs[i])
    ensures r.ok ==> r.fs == fs.(files := fs.files[output := Concat(fs, inputs)])
    ensures output !in fs.unwritable ==> output in r.fs.files
    ensures forall p | p != output :: (p in r.fs.files <==> p in fs.files)
    ensures forall p | p != output && p in fs.files :: r.fs.files[p] == fs.files[p]
  {
    if output in fs.unwritable {
      return Merged(fs, false);
    }
    var out: Bytes := [];
    var i := 0;
    while i < |inputs|
      invariant 0 <= i <= |inputs|
      invariant out == Concat(fs, inputs[..i])
      invariant forall j | 0 <= j < i :: fs.Exists(inputs[j]) ==> fs.CanRead(inputs[j])
    {
      if fs.Exists(inputs[i]) {
        if !fs.CanRead(inputs[i]) {
          return Merged(fs.(files := fs.files[output := out]), false);
        }
        out := out + fs.files[inputs[i]];
      }
      assert inputs[..i + 1][..i] == inputs[..i];
      i := i + 1;
    }
    assert inputs[..i] == inputs;
    r := Merged(fs.(files := fs.files[output := out]), true);
  }

  /** `mergeAudioFiles`, stated directly: nothing to merge fails and writes
      nothing; one input is copied; several inputs must all exist and be
      readable, and the output then holds their concatenation. */
  function Merge(fs: Fs, inputs: seq<Path>, output: Path): (r: Merged)
    ensures |inputs| == 0 ==> r == Merged(fs, false)
    ensures |inputs| == 1 ==> r == CopyTo(fs, inputs[0], output)
    ensures |inputs| >= 2 && !ValidateInputFiles(fs, inputs) ==> r == Merged(fs, false)
    ensures |inputs| >= 2 && ValidateInputFiles(fs, inputs) ==>
      (r.ok <==> output !in fs.unwritable) &&
      (r.ok ==> r.fs == fs.(files := fs.files[output := Concat(fs, inputs)]))
    ensures r.ok ==> output in r.fs.files
  {
    if |inputs| == 0 then Merged(fs, false)
    else if |inputs| == 1 then CopyTo(fs, inputs[0], output)
    else if !ValidateInputFiles(fs, inputs) then Merged(fs, false)
    else if output in fs.unwritable then Merged(fs, false)
    else Merged(fs.(files := fs.files[output := Concat(fs, inputs)]), true)
  }

  /** `mergeAudioFiles` as the code runs it, through the streaming loop. */
  method MergeAudioFiles(fs: Fs, inputs: seq<Path>, output: Path) returns (r: Merged)
    ensures r == Merge(fs, inputs, output)
  {
    if |inputs| == 0 {
      return Merged(fs, false);
    }
    if |inputs| == 1 {
      return CopyTo(fs, inputs[0], output);
    }
    if !ValidateInputFiles(fs, inputs) {
      return Merged(fs, false);
    }
    r := MergeM4AFiles(fs, inputs, output);
  }

  /** `mergeWithMediaMuxer`: the same merge. */
  method MergeWithMediaMuxer(fs: Fs, inputs: seq<Path>, output: Path) returns (r: Merged)
    ensures r == Merge(fs, inputs, output)
  {
    r := MergeAudioFiles(fs, inputs, output);
  }

  /** The merged output is exactly as long as the inputs together. */
  function TotalLength(fs: Fs, inputs: seq<Path>): nat
    decreases |inputs|
  {
    if |inputs| == 0 then 0 else TotalLength(fs, inputs[..|inputs| - 1]) + fs.Length(inputs[|inputs| - 1])
  }

  lemma {:induction false} ConcatLength(fs: Fs, inputs: seq<Path>)
    ensures |Concat(fs, inputs)| == TotalLength(fs, inputs)
    decreases |inputs|
  {
    if |inputs| > 0 {
      ConcatLength(fs, inputs[..|inputs| - 1]);
    }
  }

  /** Milliseconds of audio in `size` bytes at the assumed rate, in whole
      seconds. */
  function EstimatedMillis(size: nat): (ms: nat)
    ensures ms % 1000 == 0
    ensures ms <= size * 1000 / BYTES_PER_SECOND < ms + 1000
  {
    (size / BYTES_PER_SECOND) * 1000
  }

  /** More bytes never make a shorter estimate. */
  lemma EstimateMonotone(a: nat, b: nat)
    requires a <= b
    ensures EstimatedMillis(a) <= EstimatedMillis(b)
  {
    assert a / BYTES_PER_SECOND <= b / BYTES_PER_SECOND;
  }

  /** `getEstimatedTotalDuration`: the estimate for the inputs' total size. */
  function EstimatedTotalDuration(fs: Fs, inputs: seq<Path>): (ms: nat)
    ensures ms % 1000 == 0
    ensures ms <= |Concat(fs, inputs)| * 1000 / BYTES_PER_SECOND < ms + 1000
  {
    ConcatLength(fs, inputs);
    EstimatedMillis(TotalLength(fs, inputs))
  }

  /** The estimate for the inputs is the estimate for the file merging them
      produces. */
  lemma EstimateOfMergedOutput(fs: Fs, inputs: seq<Path>, output: Path)
    requires |inputs| >= 2
    ensures var r := Merge(fs, inputs, output);
      r.ok ==> EstimatedMillis(r.fs.Length(output)) == EstimatedTotalDuration(fs, inputs)
  {
    ConcatLength(fs, inputs);
  }

  /** `cleanupTemporaryFiles`: every listed file that exists and can be
      deleted is deleted; nothing else changes. */
  function CleanupTemporaryFiles(fs: Fs, files: seq<Path>): (r: Fs)
    ensures r.unreadable == fs.unreadable && r.unwritable == fs.unwritable
    ensures forall p :: p in r.files <==> p in fs.files && (p !in files || p in fs.unwritable)
    ensures forall p | p in r.files :: r.files[p] == fs.files[p]
    decreases |files|
  {
    if |files| == 0 then fs
    else
      var fs1 := if fs.Exists(files[0]) then fs.Delete(files[0]).0 else fs;
      var r := CleanupTemporaryFiles(fs1, files[1..]);
      assert forall p :: p in files <==> p == files[0] || p in files[1..];
      r
  }

  /** After the cleanup no listed file remains, unless it could not be
      deleted. */
  lemma CleanupRemovesListed(fs: Fs, files: seq<Path>)
    ensures forall i | 0 <= i < |files| && files[i] !in fs.unwritable :: !CleanupTemporaryFiles(fs, files).Exists(files[i])
  {
  }
}

=== FILE: audio_recorder.dfy ===
/** The MediaRecorder wrapper: one output file and one audio source at a
    time, pause and resume from API 24 on, and a silence monitor that runs
    exactly while audio is being captured. The platform recorder is reduced
    to its state (absent, capturing, paused); what it fails at and what it
    writes are parameters. */
module AudioRecorder {
  import opened Common
  import SilenceDetector
  import AudioDevice

  const SDK_N: int := 24
  const AUDIO_SOURCE_MIC: int := 1
  const AUDIO_SOURCE_UNPROCESSED: int := 9

  /** The platform recorder held in the `recorder` field. */
  datatype Media = NoRecorder | Capturing | PausedCapture

  datatype Recorder = Recorder(
    media: Media,
    outputFile: Option<Path>,
    source: int,
    streamOpen: bool,
    detector: Option<SilenceDetector.Detector>)
  {
    /** `isRecording`: a platform recorder is held, paused or not. */
    predicate IsRecording() {
      media != NoRecorder
    }
  }

  const Idle := Recorder(NoRecorder, None, AUDIO_SOURCE_MIC, false, None)

  /** Where the platform refuses: `prepare()` or `start()` throwing. */
  datatype Faults = Faults(prepareFails: bool, pauseThrows: bool, resumeThrows: bool, detectorReady: bool)

  /** The outcome of a call that may throw: the state at the point the call
      returned or threw, the file system, and whether it returned normally. */
  datatype Outcome = Outcome(rec: Recorder, fs: Fs, ok: bool)

  /** The same for a call that does not touch the file system. */
  datatype Called = Called(rec: Recorder, ok: bool)

  /** A freshly started silence monitor. */
  function NewDetector(ready: bool): SilenceDetector.Detector {
    SilenceDetector.StartMonitoring(SilenceDetector.Fresh, ready)
  }

  /** `start(outputFile, audioSource)`: records the file and source, opens
      (and so truncates) the file, configures and starts the platform
      recorder, then starts the silence monitor. Opening throws for an
      unwritable path; `prepareFails` makes the platform throw after that. */
  function Start(r: Recorder, fs: Fs, file: Path, source: int, f: Faults): (o: Outcome)
    ensures o.rec.outputFile == Some(file) && o.rec.source == source
    ensures o.ok <==> file !in fs.unwritable && !f.prepareFails
    ensures file in fs.unwritable ==> o.fs == fs && o.rec.streamOpen == r.streamOpen
    ensures file !in fs.unwritable ==> o.fs == fs.(files := fs.files[file := []]) && o.rec.streamOpen
    ensures o.ok ==> o.rec.media == Capturing && o.rec.detector == Some(NewDetector(f.detectorReady))
    ensures !o.ok ==> o.rec.media == r.media && o.rec.detector == r.detector
  {
    var r1 := r.(outputFile := Some(file), source := source);
    var (fs1, created) := fs.Write(file, []);
    if !created then Outcome(r1, fs, false)
    else
      var r2 := r1.(streamOpen := true);
      if f.prepareFails then Outcome(r2, fs1, false)
      else Outcome(r2.(media := Capturing, detector := Some(NewDetector(f.detectorReady))), fs1, true)
  }

  /** `stop`: stops the silence monitor, stops and releases the platform
      recorder, and closes the stream, which finalizes the `captured` bytes
      into the output file. Afterwards nothing is held. `captured` is an
      input standing for whatever the platform recorder has written: the
      model does not derive it, and it lands in the file whenever a stream
      is open, also after a failed prepare (the real recorder would then
      have written nothing, which is `captured == []`). */
  function Stop(r: Recorder, fs: Fs, captured: Bytes): (o: Outcome)
    ensures o.ok && !o.rec.IsRecording()
    ensures o.rec == Idle.(source := r.source)
    ensures r.streamOpen && r.outputFile.Some? && r.outputFile.value !in fs.unwritable ==>
      o.fs == fs.(files := fs.files[r.outputFile.value := captured])
    ensures !(r.streamOpen && r.outputFile.Some?) ==> o.fs == fs
  {
    var fs1 := if r.streamOpen && r.outputFile.Some? then fs.Write(r.outputFile.value, captured).0 else fs;
    Outcome(Recorder(NoRecorder, None, r.source, false, None), fs1, true)
  }

  /** `pause`: from API 24 on, pauses the platform recorder if one is held
      and stops the silence monitor; the platform's exception, if any,
      propagates before the monitor is touched. Below API 24, nothing. */
  function Pause(r: Recorder, sdk: int, f: Faults): (o: Called)
    ensures sdk < SDK_N ==> o.rec == r && o.ok
    ensures sdk >= SDK_N && r.IsRecording() && f.pauseThrows ==> o.rec == r && !o.ok
    ensures sdk >= SDK_N && !(r.IsRecording() && f.pauseThrows) ==>
      o.ok && o.rec.detector.None? && o.rec.IsRecording() == r.IsRecording() &&
      (r.IsRecording() ==> o.rec.media == PausedCapture)
    ensures o.rec.outputFile == r.outputFile && o.rec.source == r.source && o.rec.streamOpen == r.streamOpen
  {
    if sdk < SDK_N then Called(r, true)
    else if r.IsRecording() && f.pauseThrows then Called(r, false)
    else
      var media := if r.IsRecording() then PausedCapture else NoRecorder;
      Called(r.(media := media, detector := None), true)
  }

  /** `resume`: from API 24 on, resumes the platform recorder if one is held
      and then starts a new silence monitor, even when no recorder is held. */
  function Resume(r: Recorder, sdk: int, f: Faults): (o: Called)
    ensures sdk < SDK_N ==> o.rec == r && o.ok
    ensures sdk >= SDK_N && r.IsRecording() && f.resumeThrows ==> o.rec == r && !o.ok
    ensures sdk >= SDK_N && !(r.IsRecording() && f.resumeThrows) ==>
      o.ok && o.rec.detector == Some(NewDetector(f.detectorReady)) &&
      o.rec.IsRecording() == r.IsRecording() && (r.IsRecording() ==> o.rec.media == Capturing)
    ensures o.rec.outputFile == r.outputFile && o.rec.source == r.source && o.rec.streamOpen == r.streamOpen
  {
    if sdk < SDK_N then Called(r, true)
    else if r.IsRecording() && f.resumeThrows then Called(r, false)
    else
      var media := if r.IsRecording() then Capturing else NoRecorder;
      Called(r.(media := media, detector := Some(NewDetector(f.detectorReady))), true)
  }

  /** A pause followed by a resume brings a held recorder back to capturing,
      with a silence monitor started afresh: the silent-second count does not
      carry over the pause. */
  lemma PauseResumeRestartsMonitor(r: Recorder, sdk: int, f: Faults)
    requires r.media == Capturing && sdk >= SDK_N && !f.pauseThrows && !f.resumeThrows
    ensures var o := Resume(Pause(r, sdk, f).rec, sdk, f);
      o.ok && o.rec == r.(detector := Some(NewDetector(f.detectorReady))) &&
      (f.detectorReady ==> o.rec.detector.value.silentSeconds == 0)
  {
  }

  /** `switchAudioSource`: without an output file, false. While recording,
      pause (from API 24), stop and start again on the same file with the
      new source; any exception makes the answer false. Otherwise only the
      remembered source changes. */
  function SwitchAudioSource(r: Recorder, fs: Fs, newSource: int, sdk: int, f: Faults, captured: Bytes): (o: Outcome)
    ensures r.outputFile.None? ==> o == Outcome(r, fs, false)
    ensures r.outputFile.Some? && !r.IsRecording() ==> o == Outcome(r.(source := newSource), fs, true)
    ensures r.outputFile.Some? && r.IsRecording() ==>
      (o.ok <==> (sdk < SDK_N || !f.pauseThrows) && r.outputFile.value !in fs.unwritable && !f.prepareFails)
    ensures r.outputFile.Some? && r.IsRecording() && sdk >= SDK_N && f.pauseThrows ==> o == Outcome(r, fs, false)
    ensures r.outputFile.Some? && r.IsRecording() && (sdk < SDK_N || !f.pauseThrows) ==>
      o.rec.outputFile == r.outputFile && o.rec.source == newSource && (o.ok <==> o.rec.IsRecording())
    ensures o.ok && r.IsRecording() ==>
      o.rec.media == Capturing && o.rec.source == newSource && o.rec.outputFile == r.outputFile
  {
    match r.outputFile
    case None => Outcome(r, fs, false)
    case Some(file) =>
      if !r.IsRecording() then Outcome(r.(source := newSource), fs, true)
      else
        var p := if sdk >= SDK_N then Pause(r, sdk, f) else Called(r, true);
        if !p.ok then Outcome(p.rec, fs, false)
        else
          var s := Stop(p.rec, fs, captured);
          Start(s.rec, s.fs, file, newSource, f)
  }

  /** Switching the source while recording reopens the output file, so the
      audio finalized into it by the intermediate stop is discarded: the file
      is left empty, whatever had been captured. */
  lemma SwitchDiscardsCapturedAudio(r: Recorder, fs: Fs, newSource: int, sdk: int, f: Faults, captured: Bytes)
    requires r.outputFile.Some? && r.IsRecording() && r.streamOpen
    requires r.outputFile.value !in fs.unwritable && !f.pauseThrows
    ensures var o := SwitchAudioSource(r, fs, newSource, sdk, f, captured);
      r.outputFile.value in o.fs.files && o.fs.files[r.outputFile.value] == []
  {
  }

  /** Switching away and back while recording, with nothing failing, leaves
      the recorder as it was apart from a fresh silence monitor, and an empty
      output file. */
  lemma SwitchAndBack(r: Recorder, fs: Fs, newSource: int, sdk: int, f: Faults, captured: Bytes)
    requires r.outputFile.Some? && r.media == Capturing && r.streamOpen
    requires r.outputFile.value !in fs.unwritable && !f.pauseThrows && !f.prepareFails
    ensures var o1 := SwitchAudioSource(r, fs, newSource, sdk, f, captured);
      var o2 := SwitchAudioSource(o1.rec, o1.fs, r.source, sdk, f, captured);
      o1.ok && o2.ok && o2.rec == r.(detector := Some(NewDetector(f.detectorReady))) &&
      o2.fs.files == fs.files[r.outputFile.value := []]
  {
  }

  /** `getOptimalAudioSource`: the unprocessed source for a Bluetooth headset
      from API 24 on, the microphone source in every other case. */
  function OptimalAudioSource(deviceType: AudioDevice.DeviceType, sdk: int): (s: int)
    ensures s == AUDIO_SOURCE_UNPROCESSED <==> deviceType == AudioDevice.BluetoothHeadset && sdk >= SDK_N
    ensures s == AUDIO_SOURCE_MIC || s == AUDIO_SOURCE_UNPROCESSED
  {
    match deviceType
    case BluetoothHeadset => if sdk >= SDK_N then AUDIO_SOURCE_UNPROCESSED else AUDIO_SOURCE_MIC
    case WiredHeadset => AUDIO_SOURCE_MIC
    case UsbHeadset => AUDIO_SOURCE_MIC
    case DeviceMic => AUDIO_SOURCE_MIC
  }

  /** `getCurrentSilenceDuration`: the monitor's count, 0 without a monitor. */
  function CurrentSilenceDuration(r: Recorder): (n: int)
    ensures r.detector.None? ==> n == 0
    ensures r.detector.Some? ==> n == r.detector.value.silentSeconds
  {
    match r.detector
    case None => 0
    case Some(d) => SilenceDetector.CurrentSilenceDuration(d)
  }

  /** `isCurrentlySilent`: false without a monitor. */
  function IsCurrentlySilent(r: Recorder): (b: bool)
    ensures b <==> CurrentSilenceDuration(r) > 0
  {
    match r.detector
    case None => false
    case Some(d) => SilenceDetector.IsCurrentlySilent(d)
  }

  /** `resetSilenceCounter`: clears the monitor's count, if there is a monitor. */
  function ResetSilenceCounter(r: Recorder): (o: Recorder)
    ensures CurrentSilenceDuration(o) == 0 && !IsCurrentlySilent(o)
    ensures o.detector.Some? <==> r.detector.Some?
    ensures o.media == r.media && o.outputFile == r.outputFile && o.source == r.source
  {
    match r.detector
    case None => r
    case Some(d) => r.(detector := Some(SilenceDetector.ResetSilenceCounter(d)))
  }

  /** Audio is monitored for silence exactly while it is being captured:
      started fine it is, paused it is not, and stopped nothing is held. */
  lemma MonitorFollowsCapture(r: Recorder, fs: Fs, file: Path, sdk: int, f: Faults, captured: Bytes)
    requires sdk >= SDK_N && f.detectorReady && file !in fs.unwritable && !f.prepareFails && !f.pauseThrows
    ensures var s := Start(r, fs, file, AUDIO_SOURCE_MIC, f);
      s.rec.detector.Some? && s.rec.detector.value.monitoring &&
      Pause(s.rec, sdk, f).rec.detector.None? &&
      Stop(Pause(s.rec, sdk, f).rec, s.fs, captured).rec.detector.None?
  {
  }
}

=== FILE: common.dfy ===
/** Shared vocabulary: optional values, the JVM's integer arithmetic, and the
    file system that the recorder, the merger and the recovery worker share. */
module Common {

  /** Kotlin's nullable `T?`. */
  datatype Option<+T> = None | Some(value: T) {

    /** Kotlin's elvis operator `x ?: default`. */
    function GetOr(default: T): T {
      match this
      case Some(v) => v
      case None => default
    }
  }

  function Max(a: int, b: int): int {
    if a < b then b else a
  }

  /** Kotlin's `/` on `Int` and `Long`: the quotient is truncated toward zero. */
  function Div(a: int, b: int): (q: int)
    requires b > 0
    ensures a >= 0 ==> q == a / b
    ensures a < 0 ==> q == -((-a) / b) && q <= 0
  {
    if a >= 0 then a / b else -((-a) / b)
  }

  /** Kotlin's `%`: the remainder that goes with `Div`; it carries the sign of `a`. */
  function Rem(a: int, b: int): (r: int)
    requires b > 0
    ensures Div(a, b) * b + r == a
    ensures a >= 0 ==> r == a % b
    ensures a < 0 ==> -b < r <= 0
  {
    if a >= 0 then a % b else -((-a) % b)
  }

  const INT32_MODULUS: int := 0x1_0000_0000

  /** A JVM `Int` result: the mathematical value wrapped to 32-bit two's complement. */
  function WrapInt32(x: int): (r: int)
    ensures -0x8000_0000 <= r < 0x8000_0000
    ensures (x - r) % INT32_MODULUS == 0
    ensures -0x8000_0000 <= x < 0x8000_0000 ==> r == x
  {
    var m := x % INT32_MODULUS;
    if m >= 0x8000_0000 then m - INT32_MODULUS else m
  }

  type Byte = bv8
  type Bytes = seq<Byte>
  type Path = string

  /** The path of `File(dir, name)`: the directory, a separator, the name. */
  function Join(dir: string, name: string): Path {
    dir + "/" + name
  }

  /** The part of the file system the core touches. Contents are byte strings;
      `unreadable` paths exist but cannot be opened for reading, and
      `unwritable` paths cannot be opened for writing or deleted. */
  datatype Fs = Fs(files: map<Path, Bytes>, unreadable: set<Path>, unwritable: set<Path>) {

    predicate Exists(p: Path) {
      p in files
    }

    /** `File.length()`: the size in bytes, 0 for a missing file. */
    function Length(p: Path): nat {
      if p in files then |files[p]| else 0
    }

    predicate CanRead(p: Path) {
      p in files && p !in unreadable
    }

    /** `File.delete()`: true and the file is gone, or false and nothing changed. */
    function Delete(p: Path): (r: (Fs, bool))
      ensures r.1 <==> Exists(p) && p !in unwritable
      ensures r.1 ==> r.0 == this.(files := files - {p})
      ensures !r.1 ==> r.0 == this
    {
      if p in files && p !in unwritable then (this.(files := files - {p}), true) else (this, false)
    }

    /** Writing a whole file: replaces or creates it, or fails for an unwritable path. */
    function Write(p: Path, bytes: Bytes): (r: (Fs, bool))
      ensures r.1 <==> p !in unwritable
      ensures r.1 ==> r.0 == this.(files := files[p := bytes])
      ensures !r.1 ==> r.0 == this
    {
      if p in unwritable then (this, false) else (this.(files := files[p := bytes]), true)
    }
  }
}

/** The platform constants the call-state listeners compare against. */
module Telephony {
  const CALL_STATE_IDLE: int := 0
  const CALL_STATE_RINGING: int := 1
  const CALL_STATE_OFFHOOK: int := 2

  /** A call is ringing or in progress. */
  predicate CallActive(state: int) {
    state == CALL_STATE_RINGING || state == CALL_STATE_OFFHOOK
  }
}

=== FILE: dao.dfy ===
/** The meaning of every query and update of the three DAOs over the
    database maps. Room runs SQLite with foreign keys enforced: an insert
    with `REPLACE` deletes the row it collides with before inserting (so a
    replaced session loses its chunks through the cascade), and a chunk
    whose session does not exist is refused with an exception, modelled as
    `ok == false` and no change. */
module Dao {
  import opened Common
  import opened Entities
  import opened Query

  /** The outcome of a write the foreign key can refuse. */
  datatype Written = Written(db: Db, ok: bool)

  function LastActivity(s: Session): int { s.lastActivityTime }
  function ChunkOrder(c: Chunk): int { c.chunkIndex }
  function Created(t: Task): int { t.createdTime }

  // ----- recording_sessions -----

  /** `getActiveSessions`: the active sessions, most recently active first. */
  method GetActiveSessions(db: Db) returns (r: seq<Session>)
    ensures forall s :: s in r <==> s in db.sessions.Values && s.isActive
    ensures Distinct(r) && Descending(r, LastActivity)
  {
    var rows := set s | s in db.sessions.Values && s.isActive;
    r := OrderByDescending(rows, LastActivity);
  }

  /** `getSession`. */
  function GetSession(db: Db, id: string): (r: Option<Session>)
    ensures r.Some? <==> id in db.sessions
    ensures r.Some? ==> r.value in db.sessions.Values && r.value == db.sessions[id]
  {
    if id in db.sessions then Some(db.sessions[id]) else None
  }

  /** `getLastActiveSession`: an active session no other active session was
      active after, or none when no session is active. */
  method GetLastActiveSession(db: Db) returns (r: Option<Session>)
    ensures r.None? <==> forall k | k in db.sessions :: !db.sessions[k].isActive
    ensures r.Some? ==> r.value in db.sessions.Values && r.value.isActive
    ensures r.Some? ==> forall k | k in db.sessions && db.sessions[k].isActive ::
      db.sessions[k].lastActivityTime <= r.value.lastActivityTime
  {
    var all := GetActiveSessions(db);
    if |all| == 0 {
      r := None;
      forall k | k in db.sessions
        ensures !db.sessions[k].isActive
      {
        assert db.sessions[k] in db.sessions.Values;
      }
    } else {
      r := Some(all[0]);
      assert all[0] in all;
      var top :| top in db.sessions && db.sessions[top] == all[0];
      HeadIsGreatest(all, LastActivity);
      forall k | k in db.sessions && db.sessions[k].isActive
        ensures db.sessions[k].lastActivityTime <= r.value.lastActivityTime
      {
        assert db.sessions[k] in db.sessions.Values;
        assert db.sessions[k] in all;
      }
    }
  }

  /** `insertSession` with `REPLACE`: the session is stored under its id; a
      session it replaces takes its chunks with it. */
  function InsertSession(db: Db, s: Session): (r: Db)
    ensures GetSession(r, s.sessionId) == Some(s)
    ensures forall id | id != s.sessionId :: GetSession(r, id) == GetSession(db, id)
    ensures forall k :: k in r.chunks <==>
      k in db.chunks && (db.chunks[k].sessionId != s.sessionId || s.sessionId !in db.sessions)
    ensures forall k | k in r.chunks :: r.chunks[k] == db.chunks[k]
    ensures r.tasks == db.tasks
    ensures Valid(db) ==> Valid(r)
  {
    var chunks := if s.sessionId in db.sessions then ChunksWithout(db.chunks, {s.sessionId}) else db.chunks;
    Db(db.sessions[s.sessionId := s], chunks, db.tasks)
  }

  /** `updateSession`: overwrites the stored session with the same id; no
      row, no change. */
  function UpdateSession(db: Db, s: Session): (r: Db)
    ensures s.sessionId in db.sessions ==> GetSession(r, s.sessionId) == Some(s)
    ensures s.sessionId !in db.sessions ==> r == db
    ensures forall id | id != s.sessionId :: GetSession(r, id) == GetSession(db, id)
    ensures r.sessions.Keys == db.sessions.Keys && r.chunks == db.chunks && r.tasks == db.tasks
    ensures Valid(db) ==> Valid(r)
  {
    if s.sessionId in db.sessions then db.(sessions := db.sessions[s.sessionId := s]) else db
  }

  /** `deactivateSession`. */
  function DeactivateSession(db: Db, id: string): (r: Db)
    ensures id in db.sessions ==> GetSession(r, id) == Some(db.sessions[id].(isActive := false))
    ensures id !in db.sessions ==> r == db
    ensures forall k | k != id :: GetSession(r, k) == GetSession(db, k)
    ensures r.sessions.Keys == db.sessions.Keys && r.chunks == db.chunks && r.tasks == db.tasks
    ensures Valid(db) ==> Valid(r)
  {
    if id in db.sessions then db.(sessions := db.sessions[id := db.sessions[id].(isActive := false)]) else db
  }

  /** `updateSessionStatus`: status and last activity, nothing else. */
  function UpdateSessionStatus(db: Db, id: string, status: string, timestamp: int): (r: Db)
    ensures id in db.sessions ==>
      GetSession(r, id) == Some(db.sessions[id].(status := status, lastActivityTime := timestamp))
    ensures id !in db.sessions ==> r == db
    ensures forall k | k != id :: GetSession(r, k) == GetSession(db, k)
    ensures r.sessions.Keys == db.sessions.Keys && r.chunks == db.chunks && r.tasks == db.tasks
    ensures Valid(db) ==> Valid(r)
  {
    if id in db.sessions then
      db.(sessions := db.sessions[id := db.sessions[id].(status := status, lastActivityTime := timestamp)])
    else db
  }

  /** `updatePauseReason`: the reason (null included) and last activity. */
  function UpdatePauseReason(db: Db, id: string, reason: Option<string>, timestamp: int): (r: Db)
    ensures id in db.sessions ==>
      GetSession(r, id) == Some(db.sessions[id].(pauseReason := reason, lastActivityTime := timestamp))
    ensures id !in db.sessions ==> r == db
    ensures forall k | k != id :: GetSession(r, k) == GetSession(db, k)
    ensures r.sessions.Keys == db.sessions.Keys && r.chunks == db.chunks && r.tasks == db.tasks
    ensures Valid(db) ==> Valid(r)
  {
    if id in db.sessions then
      db.(sessions := db.sessions[id := db.sessions[id].(pauseReason := reason, lastActivityTime := timestamp)])
    else db
  }

  /** The sessions `cleanupOldSessions(cutoff)` deletes. */
  predicate StaleSession(s: Session, cutoff: int) {
    !s.isActive && s.lastActivityTime < cutoff
  }

  /** `cleanupOldSessions`: deletes the inactive sessions last active before
      the cutoff, and through the cascade their chunks; tasks stay. */
  function CleanupOldSessions(db: Db, cutoff: int): (r: Db)
    ensures forall k :: k in r.sessions <==> k in db.sessions && !StaleSession(db.sessions[k], cutoff)
    ensures forall k | k in r.sessions :: r.sessions[k] == db.sessions[k]
    ensures forall k :: k in r.chunks <==>
      k in db.chunks && !(db.chunks[k].sessionId in db.sessions && StaleSession(db.sessions[db.chunks[k].sessionId], cutoff))
    ensures forall k | k in r.chunks :: r.chunks[k] == db.chunks[k]
    ensures r.tasks == db.tasks
    ensures Valid(db) ==> Valid(r)
  {
    var gone := set k | k in db.sessions && StaleSession(db.sessions[k], cutoff);
    Db(map k | k in db.sessions && k !in gone :: db.sessions[k], ChunksWithout(db.chunks, gone), db.tasks)
  }

  // ----- audio_chunks -----

  /** `getChunksForSession`: exactly the session's chunks, by ascending index. */
  method GetChunksForSession(db: Db, sessionId: string) returns (r: seq<Chunk>)
    ensures forall c :: c in r <==> c in db.chunks.Values && c.sessionId == sessionId
    ensures Distinct(r) && Ascending(r, ChunkOrder)
  {
    var rows := set c | c in db.chunks.Values && c.sessionId == sessionId;
    r := OrderBy(rows, ChunkOrder);
  }

  /** `getIncompleteChunk`: the session's unfinished chunk of highest index. */
  method GetIncompleteChunk(db: Db, sessionId: string) returns (r: Option<Chunk>)
    ensures r.None? <==> forall k | k in db.chunks :: !(db.chunks[k].sessionId == sessionId && !db.chunks[k].isComplete)
    ensures r.Some? ==> r.value in db.chunks.Values && r.value.sessionId == sessionId && !r.value.isComplete
    ensures r.Some? ==> forall k | k in db.chunks && db.chunks[k].sessionId == sessionId && !db.chunks[k].isComplete ::
      db.chunks[k].chunkIndex <= r.value.chunkIndex
  {
    var rows := set c | c in db.chunks.Values && c.sessionId == sessionId && !c.isComplete;
    var all := OrderByDescending(rows, ChunkOrder);
    if |all| == 0 {
      r := None;
      assert forall c :: c !in rows;
      forall k | k in db.chunks
        ensures !(db.chunks[k].sessionId == sessionId && !db.chunks[k].isComplete)
      {
        var c := db.chunks[k];
        assert c in db.chunks.Values;
        assert c !in rows;
      }
    } else {
      r := Some(all[0]);
      assert all[0] in all && all[0] in rows;
      var top :| top in db.chunks && db.chunks[top] == all[0];
      HeadIsGreatest(all, ChunkOrder);
      forall k | k in db.chunks && db.chunks[k].sessionId == sessionId && !db.chunks[k].isComplete
        ensures db.chunks[k].chunkIndex <= r.value.chunkIndex
      {
        assert db.chunks[k] in db.chunks.Values;
        assert db.chunks[k] in rows;
        assert db.chunks[k] in all;
      }
    }
  }

  /** `getChunksNeedingMerge`: the session's unmerged chunks, by ascending index. */
  method GetChunksNeedingMerge(db: Db, sessionId: string) returns (r: seq<Chunk>)
    ensures forall c :: c in r <==> c in db.chunks.Values && c.sessionId == sessionId && c.needsMerging
    ensures Distinct(r) && Ascending(r, ChunkOrder)
  {
    var rows := set c | c in db.chunks.Values && c.sessionId == sessionId && c.needsMerging;
    r := OrderBy(rows, ChunkOrder);
  }

  /** `insertChunk` with `REPLACE`: stored under its id, or refused by the
      foreign key when its session does not exist. */
  function InsertChunk(db: Db, c: Chunk): (r: Written)
    ensures r.ok <==> c.sessionId in db.sessions
    ensures r.ok ==> c.chunkId in r.db.chunks && r.db.chunks[c.chunkId] == c
    ensures r.ok ==> forall k | k != c.chunkId :: (k in r.db.chunks <==> k in db.chunks)
    ensures r.ok ==> forall k | k != c.chunkId && k in db.chunks :: r.db.chunks[k] == db.chunks[k]
    ensures !r.ok ==> r.db == db
    ensures r.db.sessions == db.sessions && r.db.tasks == db.tasks
    ensures Valid(db) ==> Valid(r.db)
  {
    if c.sessionId in db.sessions then Written(db.(chunks := db.chunks[c.chunkId := c]), true)
    else Written(db, false)
  }

  /** `updateChunk`: overwrites the chunk with the same id (refused when it
      would point at a missing session); no row, no change. */
  function UpdateChunk(db: Db, c: Chunk): (r: Written)
    ensures r.ok <==> c.chunkId !in db.chunks || c.sessionId in db.sessions
    ensures r.ok && c.chunkId in db.chunks ==> r.db == db.(chunks := db.chunks[c.chunkId := c])
    ensures !(r.ok && c.chunkId in db.chunks) ==> r.db == db
    ensures r.db.chunks.Keys == db.chunks.Keys
    ensures Valid(db) ==> Valid(r.db)
  {
    if c.chunkId !in db.chunks then Written(db, true)
    else if c.sessionId in db.sessions then Written(db.(chunks := db.chunks[c.chunkId := c]), true)
    else Written(db, false)
  }

  /** `finalizeChunk`: the matching chunk is complete, with its end, length
      and size recorded; every other chunk is unchanged. */
  function FinalizeChunk(db: Db, chunkId: string, endTime: int, duration: int, fileSize: int): (r: Db)
    ensures r.chunks.Keys == db.chunks.Keys
    ensures chunkId in db.chunks ==>
      r.chunks[chunkId] == db.chunks[chunkId].(isComplete := true, endTime := Some(endTime), duration := duration, fileSize := fileSize)
    ensures forall k | k in db.chunks && k != chunkId :: r.chunks[k] == db.chunks[k]
    ensures r.sessions == db.sessions && r.tasks == db.tasks
    ensures Valid(db) ==> Valid(r)
  {
    if chunkId in db.chunks then
      db.(chunks := db.chunks[chunkId := db.chunks[chunkId].(isComplete := true, endTime := Some(endTime), duration := duration, fileSize := fileSize)])
    else db
  }

  /** `markChunksMerged`: every chunk of the session, and only those, no
      longer needs merging. */
  function MarkChunksMerged(db: Db, sessionId: string): (r: Db)
    ensures r.chunks.Keys == db.chunks.Keys
    ensures forall k | k in db.chunks && db.chunks[k].sessionId == sessionId ::
      r.chunks[k] == db.chunks[k].(needsMerging := false)
    ensures forall k | k in db.chunks && db.chunks[k].sessionId != sessionId :: r.chunks[k] == db.chunks[k]
    ensures r.sessions == db.sessions && r.tasks == db.tasks
    ensures Valid(db) ==> Valid(r)
  {
    var chunks := map k | k in db.chunks ::
      if db.chunks[k].sessionId == sessionId then db.chunks[k].(needsMerging := false) else db.chunks[k];
    db.(chunks := chunks)
  }

  /** `deleteChunksForSession`. */
  function DeleteChunksForSession(db: Db, sessionId: string): (r: Db)
    ensures forall k :: k in r.chunks <==> k in db.chunks && db.chunks[k].sessionId != sessionId
    ensures forall k | k in r.chunks :: r.chunks[k] == db.chunks[k]
    ensures r.sessions == db.sessions && r.tasks == db.tasks
    ensures Valid(db) ==> Valid(r)
  {
    db.(chunks := ChunksWithout(db.chunks, {sessionId}))
  }

  // ----- recovery_tasks -----

  predicate Pending(t: Task) {
    t.status == TASK_STATUS_PENDING || t.status == TASK_STATUS_IN_PROGRESS
  }

  /** `getPendingTasks`: exactly the pending and in-progress tasks, oldest first. */
  method GetPendingTasks(db: Db) returns (r: seq<Task>)
    ensures forall t :: t in r <==> t in db.tasks.Values && Pending(t)
    ensures Distinct(r) && Ascending(r, Created)
  {
    var rows := set t | t in db.tasks.Values && Pending(t);
    r := OrderBy(rows, Created);
  }

  /** `getTasksForSession`: the session's tasks, oldest first. */
  method GetTasksForSession(db: Db, sessionId: string) returns (r: seq<Task>)
    ensures forall t :: t in r <==> t in db.tasks.Values && t.sessionId == sessionId
    ensures Distinct(r) && Ascending(r, Created)
  {
    var rows := set t | t in db.tasks.Values && t.sessionId == sessionId;
    r := OrderBy(rows, Created);
  }

  /** `insertTask` with `REPLACE`: stored under its id. */
  function InsertTask(db: Db, t: Task): (r: Db)
    ensures t.taskId in r.tasks && r.tasks[t.taskId] == t
    ensures forall k | k != t.taskId :: (k in r.tasks <==> k in db.tasks)
    ensures forall k | k != t.taskId && k in db.tasks :: r.tasks[k] == db.tasks[k]
    ensures r.sessions == db.sessions && r.chunks == db.chunks
    ensures Valid(db) ==> Valid(r)
  {
    db.(tasks := db.tasks[t.taskId := t])
  }

  /** `updateTask`: overwrites the task with the same id; no row, no change. */
  function UpdateTask(db: Db, t: Task): (r: Db)
    ensures t.taskId in db.tasks ==> r == db.(tasks := db.tasks[t.taskId := t])
    ensures t.taskId !in db.tasks ==> r == db
    ensures r.tasks.Keys == db.tasks.Keys
    ensures Valid(db) ==> Valid(r)
  {
    if t.taskId in db.tasks then db.(tasks := db.tasks[t.taskId := t]) else db
  }

  /** `updateTaskStatus`: status and completion time (null included). */
  function UpdateTaskStatus(db: Db, taskId: string, status: string, completedTime: Option<int>): (r: Db)
    ensures r.tasks.Keys == db.tasks.Keys
    ensures taskId in db.tasks ==>
      r.tasks[taskId] == db.tasks[taskId].(status := status, completedTime := completedTime)
    ensures forall k | k in db.tasks && k != taskId :: r.tasks[k] == db.tasks[k]
    ensures r.sessions == db.sessions && r.chunks == db.chunks
    ensures Valid(db) ==> Valid(r)
  {
    if taskId in db.tasks then
      db.(tasks := db.tasks[taskId := db.tasks[taskId].(status := status, completedTime := completedTime)])
    else db
  }

  /** `markTaskFailed`: status and error message, and one more retry; the
      completion time is left as it was. */
  function MarkTaskFailed(db: Db, taskId: string, status: string, errorMessage: string): (r: Db)
    ensures r.tasks.Keys == db.tasks.Keys
    ensures taskId in db.tasks ==>
      r.tasks[taskId].retryCount == db.tasks[taskId].retryCount + 1 &&
      r.tasks[taskId] == db.tasks[taskId].(status := status, errorMessage := Some(errorMessage), retryCount := r.tasks[taskId].retryCount)
    ensures forall k | k in db.tasks && k != taskId :: r.tasks[k] == db.tasks[k]
    ensures r.sessions == db.sessions && r.chunks == db.chunks
    ensures Valid(db) ==> Valid(r)
  {
    if taskId in db.tasks then
      var t := db.tasks[taskId];
      db.(tasks := db.tasks[taskId := t.(status := status, errorMessage := Some(errorMessage), retryCount := t.retryCount + 1)])
    else db
  }

  /** The tasks `cleanupOldTasks(cutoff)` deletes: finished ones whose
      completion time is known and before the cutoff (SQL's `NULL < x` is
      not true). */
  predicate StaleTask(t: Task, cutoff: int) {
    (t.status == TASK_STATUS_COMPLETED || t.status == TASK_STATUS_FAILED) &&
    t.completedTime.Some? && t.completedTime.value < cutoff
  }

  /** `cleanupOldTasks`. */
  function CleanupOldTasks(db: Db, cutoff: int): (r: Db)
    ensures forall k :: k in r.tasks <==> k in db.tasks && !StaleTask(db.tasks[k], cutoff)
    ensures forall k | k in r.tasks :: r.tasks[k] == db.tasks[k]
    ensures r.sessions == db.sessions && r.chunks == db.chunks
    ensures Valid(db) ==> Valid(r)
  {
    db.(tasks := map k | k in db.tasks && !StaleTask(db.tasks[k], cutoff) :: db.tasks[k])
  }

  /** `deleteTasksForSession`. */
  function DeleteTasksForSession(db: Db, sessionId: string): (r: Db)
    ensures forall k :: k in r.tasks <==> k in db.tasks && db.tasks[k].sessionId != sessionId
    ensures forall k | k in r.tasks :: r.tasks[k] == db.tasks[k]
    ensures r.sessions == db.sessions && r.chunks == db.chunks
    ensures Valid(db) ==> Valid(r)
  {
    db.(tasks := map k | k in db.tasks && db.tasks[k].sessionId != sessionId :: db.tasks[k])
  }

  // ----- relations between the operations -----

  /** A task that failed through `markTaskFailed`, having never completed,
      outlives every cleanup, whatever the cutoff. */
  lemma FailedTaskNeverCleaned(db: Db, taskId: string, msg: string, cutoff: int)
    requires taskId in db.tasks && db.tasks[taskId].completedTime.None?
    ensures var r := MarkTaskFailed(db, taskId, TASK_STATUS_FAILED, msg);
      taskId in CleanupOldTasks(r, cutoff).tasks
  {
  }

  /** Deleting a session row cascades: no chunk of a stale session survives a
      session cleanup, and in a valid database every surviving chunk still
      has its session. */
  lemma CleanupCascades(db: Db, cutoff: int)
    requires Valid(db)
    ensures var r := CleanupOldSessions(db, cutoff);
      forall k | k in r.chunks :: r.chunks[k].sessionId in r.sessions
  {
  }
}

=== FILE: entities.dfy ===
/** The three tables of the recording database: sessions, the audio chunks
    recorded for them, and the recovery tasks queued for them. A chunk
    belongs to a session through a foreign key with cascading delete; a task
    names its session but has no foreign key. The whole database is three
    maps keyed by primary key. */
module Entities {
  import opened Common

  const STATUS_RECORDING := "RECORDING"
  const STATUS_PAUSED := "PAUSED"
  const STATUS_STOPPED := "STOPPED"

  const PAUSE_REASON_USER := "USER"
  const PAUSE_REASON_CALL := "CALL"
  const PAUSE_REASON_AUDIO_FOCUS := "AUDIO_FOCUS"

  const TASK_TYPE_FINALIZE_CHUNK := "FINALIZE_CHUNK"
  const TASK_TYPE_MERGE_CHUNKS := "MERGE_CHUNKS"
  const TASK_TYPE_CLEANUP := "CLEANUP"

  const TASK_STATUS_PENDING := "PENDING"
  const TASK_STATUS_IN_PROGRESS := "IN_PROGRESS"
  const TASK_STATUS_COMPLETED := "COMPLETED"
  const TASK_STATUS_FAILED := "FAILED"

  const DEFAULT_MAX_RETRIES: int := 3

  datatype Session = Session(
    sessionId: string,
    startTime: int,
    status: string,
    pausedTime: int,
    lastChunkIndex: int,
    outputDirectory: string,
    baseFileName: string,
    audioSource: int,
    pauseReason: Option<string>,
    lastActivityTime: int,
    isActive: bool)

  datatype Chunk = Chunk(
    chunkId: string,
    sessionId: string,
    chunkIndex: int,
    filePath: Path,
    startTime: int,
    endTime: Option<int>,
    duration: int,
    fileSize: int,
    isComplete: bool,
    needsMerging: bool)

  datatype Task = Task(
    taskId: string,
    sessionId: string,
    taskType: string,
    status: string,
    createdTime: int,
    completedTime: Option<int>,
    errorMessage: Option<string>,
    retryCount: int,
    maxRetries: int)

  /** A session built with only its required fields; `now` is the clock
      reading the `lastActivityTime` default takes. */
  function NewSession(sessionId: string, startTime: int, status: string, outputDirectory: string,
                      baseFileName: string, audioSource: int, now: int): (s: Session)
    ensures s.sessionId == sessionId && s.status == status && s.startTime == startTime
    ensures s.isActive && s.pausedTime == 0 && s.lastChunkIndex == 0 && s.pauseReason.None?
    ensures s.lastActivityTime == now
  {
    Session(sessionId, startTime, status, 0, 0, outputDirectory, baseFileName, audioSource, None, now, true)
  }

  /** A chunk still being recorded: not finished, not merged, no end. */
  predicate Unfinished(c: Chunk) {
    !c.isComplete && c.needsMerging && c.endTime.None? && c.duration == 0 && c.fileSize == 0
  }

  function NewChunk(chunkId: string, sessionId: string, chunkIndex: int, filePath: Path, startTime: int): (c: Chunk)
    ensures Unfinished(c)
    ensures c.chunkId == chunkId && c.sessionId == sessionId && c.chunkIndex == chunkIndex && c.filePath == filePath
  {
    Chunk(chunkId, sessionId, chunkIndex, filePath, startTime, None, 0, 0, false, true)
  }

  /** A task that has never run: no completion, no error, no retries. */
  predicate Untried(t: Task) {
    t.completedTime.None? && t.errorMessage.None? && t.retryCount == 0
  }

  function NewTask(taskId: string, sessionId: string, taskType: string, status: string, now: int, maxRetries: int): (t: Task)
    ensures Untried(t) && t.createdTime == now && t.maxRetries == maxRetries
    ensures t.taskId == taskId && t.sessionId == sessionId && t.taskType == taskType && t.status == status
  {
    Task(taskId, sessionId, taskType, status, now, None, None, 0, maxRetries)
  }

  datatype Db = Db(sessions: map<string, Session>, chunks: map<string, Chunk>, tasks: map<string, Task>)

  const EmptyDb := Db(map[], map[], map[])

  /** Every row is stored under its own primary key, and every chunk's
      session exists (the foreign key). */
  predicate Valid(db: Db) {
    (forall k | k in db.sessions :: db.sessions[k].sessionId == k) &&
    (forall k | k in db.chunks :: db.chunks[k].chunkId == k) &&
    (forall k | k in db.tasks :: db.tasks[k].taskId == k) &&
    (forall k | k in db.chunks :: db.chunks[k].sessionId in db.sessions)
  }

  /** The cascade: the chunks that survive deleting the sessions `gone`. */
  function ChunksWithout(chunks: map<string, Chunk>, gone: set<string>): (r: map<string, Chunk>)
    ensures forall k :: k in r <==> k in chunks && chunks[k].sessionId !in gone
    ensures forall k | k in r :: r[k] == chunks[k]
  {
    map k | k in chunks && chunks[k].sessionId !in gone :: chunks[k]
  }
}

=== FILE: foreground_service.dfy ===
/** The chunked background recorder: while recording, a loop records one
    file after another, each for up to 30 seconds, naming each file with a
    running chunk index; a phone call stops the current chunk and holds the
    loop until the call ends. The coroutine is cut into its observable steps
    (begin a chunk, end a chunk, leave the loop) that run in sequence with
    the intent and call-state callbacks. */
module ForegroundService {
  import opened Common
  import opened Text
  import opened Telephony
  import AudioRecorder

  const CHUNK_MILLIS: int := 30000
  const ACTION_START := "com.example.myapplication.action.START_RECORDING"
  const ACTION_STOP := "com.example.myapplication.action.STOP_RECORDING"
  const ACTION_TEST_PAUSE := "com.example.myapplication.action.TEST_PAUSE"

  /** Where the recording coroutine is: not running, at the top of the loop,
      or inside a chunk's wait. */
  datatype Phase = NotLooping | BetweenChunks | InChunk

  /** A chunk file the loop started, with the index in its name. */
  datatype Chunk = Chunk(file: Path, index: int)

  datatype Svc = Svc(
    isRecording: bool,
    isPausedForCall: bool,
    chunkIndex: int,
    phase: Phase,
    foreground: bool,
    running: bool,
    notice: string,
    chunks: seq<Chunk>,
    recorder: AudioRecorder.Recorder)

  const Created := Svc(false, false, 0, NotLooping, false, true, "", [], AudioRecorder.Idle)

  /** The inputs of a step: the `yyyyMMdd_HHmmss` stamp, the app's external
      files directory, the recorder's faults and the audio a stopped chunk
      holds. */
  datatype Env = Env(stamp: string, filesDir: string, faults: AudioRecorder.Faults, captured: Bytes)

  datatype Out = Out(svc: Svc, fs: Fs)

  function RecordingNotice(chunkIndex: int): string {
    "Recording — chunk " + LongString(chunkIndex + 1)
  }

  const CALL_NOTICE := "Paused - Phone call"

  /** The chunk file `meeting_<stamp>_<index>.m4a` under `recordings`. */
  function ChunkFile(env: Env, index: int): Path {
    Join(Join(env.filesDir, "recordings"), "meeting_" + env.stamp + "_" + LongString(index) + ".m4a")
  }

  /** Reads the chunk index back out of a chunk file's path. */
  function ChunkIndexOf(p: Path): Option<int> {
    var name := SubstringBeforeLast(SubstringAfterLast(p, '/'), '.');
    var digits := SubstringAfterLast(name, '_');
    if 1 <= |digits| && AllDigits(digits) then Some(ParseDecimal(digits)) else None
  }

  /** A chunk's index can be read back from its file name, whatever the
      directory and the stamp hold, as long as the stamp has no separator. */
  lemma ChunkFileNamesIndex(env: Env, index: nat)
    requires '/' !in env.stamp
    ensures ChunkIndexOf(ChunkFile(env, index)) == Some(index)
  {
    var d := DecimalString(index);
    var prefix := "meeting_" + env.stamp;
    var stem := prefix + ['_'] + d;
    var name := stem + ['.'] + "m4a";
    ChunkFileShape(env, index);
    SplitAtLast(Join(env.filesDir, "recordings"), '/', name);
    SplitAtLast(stem, '.', "m4a");
    DigitsHaveNo(d, '_');
    SplitAtLast(prefix, '_', d);
    ParseDecimalString(index);
  }

  /** A chunk file is its directory, a separator and a name holding no
      separator, built from the stamp and the index around `_` and `.`. */
  lemma ChunkFileShape(env: Env, index: nat)
    requires '/' !in env.stamp
    ensures var stem := ("meeting_" + env.stamp) + ['_'] + DecimalString(index);
      var name := stem + ['.'] + "m4a";
      '/' !in name && '.' !in "m4a" &&
      ChunkFile(env, index) == Join(env.filesDir, "recordings") + ['/'] + name
  {
    var d := DecimalString(index);
    DigitsHaveNo(d, '/');
    assert '/' !in "meeting_" && '/' !in "_" && '/' !in ".m4a";
    var name := "meeting_" + env.stamp + "_" + d + ".m4a";
    assert '/' !in name;
    assert name == (("meeting_" + env.stamp) + ['_'] + d) + ['.'] + "m4a";
  }

  /** `startForegroundAndRecord`: ignored while recording; otherwise goes to
      the foreground and launches the loop. */
  function StartForegroundAndRecord(s: Svc): (r: Svc)
    ensures s.isRecording ==> r == s
    ensures !s.isRecording ==>
      r.isRecording && r.foreground && r.phase == BetweenChunks &&
      r.chunkIndex == s.chunkIndex && r.chunks == s.chunks && r.notice == RecordingNotice(s.chunkIndex)
  {
    if s.isRecording then s
    else s.(isRecording := true, foreground := true, notice := RecordingNotice(s.chunkIndex), phase := BetweenChunks)
  }

  /** The `finally` block: the recorder is stopped, both flags drop, and the
      service leaves the foreground. */
  function LeaveLoop(s: Svc, fs: Fs, env: Env): (r: Out)
    ensures !r.svc.isRecording && !r.svc.isPausedForCall && !r.svc.foreground
    ensures r.svc.phase == NotLooping && !r.svc.recorder.IsRecording()
    ensures r.svc.chunkIndex == s.chunkIndex && r.svc.chunks == s.chunks
  {
    var o := AudioRecorder.Stop(s.recorder, fs, env.captured);
    Out(s.(recorder := o.rec, isRecording := false, isPausedForCall := false, foreground := false, phase := NotLooping), o.fs)
  }

  /** Whether the recorder starts on the next chunk file. */
  predicate ChunkStarts(s: Svc, fs: Fs, env: Env) {
    AudioRecorder.Start(s.recorder, fs, ChunkFile(env, s.chunkIndex), AudioRecorder.AUDIO_SOURCE_MIC, env.faults).ok
  }

  /** The top of the loop. Stopped: the loop ends. Paused for a call: it
      keeps waiting. Otherwise the next chunk file is named with the current
      index, the index advances by one, and the recorder is started on it; a
      recorder that fails to start ends the loop. */
  function BeginChunk(s: Svc, fs: Fs, env: Env): (r: Out)
    requires s.phase == BetweenChunks
    ensures !s.isRecording ==> r == LeaveLoop(s, fs, env)
    ensures s.isRecording && s.isPausedForCall ==> r == Out(s, fs)
    ensures s.isRecording && !s.isPausedForCall ==>
      r.svc.chunkIndex == s.chunkIndex + 1 && r.svc.chunks == s.chunks + [Chunk(ChunkFile(env, s.chunkIndex), s.chunkIndex)]
    ensures s.isRecording && !s.isPausedForCall ==>
      (ChunkStarts(s, fs, env) ==> r.svc.phase == InChunk && r.svc.recorder.IsRecording() && r.svc.isRecording) &&
      (!ChunkStarts(s, fs, env) ==> r.svc.phase == NotLooping && !r.svc.isRecording)
  {
    if !s.isRecording then LeaveLoop(s, fs, env)
    else if s.isPausedForCall then Out(s, fs)
    else
      var file := ChunkFile(env, s.chunkIndex);
      var s1 := s.(chunkIndex := s.chunkIndex + 1, chunks := s.chunks + [Chunk(file, s.chunkIndex)]);
      var o := AudioRecorder.Start(s1.recorder, fs, file, AudioRecorder.AUDIO_SOURCE_MIC, env.faults);
      var s2 := s1.(recorder := o.rec);
      if !o.ok then LeaveLoop(s2, o.fs, env)
      else Out(s2.(phase := InChunk), o.fs)
  }

  /** The chunk's wait: one-second steps while the chunk is shorter than 30
      seconds and recording goes on unpaused. `interruptMs`, if any, is the
      instant after the chunk began from which the stop or the call is
      seen by the loop condition. */
  method WaitForChunk(interruptMs: Option<nat>) returns (waited: int)
    ensures waited % 1000 == 0 && 0 <= waited <= CHUNK_MILLIS
    ensures interruptMs.None? ==> waited == CHUNK_MILLIS
    ensures interruptMs.Some? && waited < CHUNK_MILLIS ==> interruptMs.value <= waited
    ensures interruptMs.Some? && waited > 0 ==> waited - 1000 < interruptMs.value
  {
    waited := 0;
    while waited < CHUNK_MILLIS && !(interruptMs.Some? && interruptMs.value <= waited)
      invariant waited % 1000 == 0 && 0 <= waited <= CHUNK_MILLIS
      invariant interruptMs.Some? && waited > 0 ==> waited - 1000 < interruptMs.value
      decreases CHUNK_MILLIS - waited
    {
      waited := waited + 1000;
    }
  }

  /** After the wait: the recorder is stopped (the chunk file receives its
      audio), and unless paused for a call the notice names the next chunk. */
  function EndChunk(s: Svc, fs: Fs, env: Env): (r: Out)
    requires s.phase == InChunk
    ensures r.svc.phase == BetweenChunks && !r.svc.recorder.IsRecording()
    ensures r.svc.chunkIndex == s.chunkIndex && r.svc.chunks == s.chunks
    ensures r.svc.isRecording == s.isRecording && r.svc.isPausedForCall == s.isPausedForCall
    ensures !s.isPausedForCall ==> r.svc.notice == RecordingNotice(s.chunkIndex)
    ensures s.isPausedForCall ==> r.svc.notice == s.notice
  {
    var o := AudioRecorder.Stop(s.recorder, fs, env.captured);
    var s1 := s.(recorder := o.rec, phase := BetweenChunks);
    Out(if !s.isPausedForCall then s1.(notice := RecordingNotice(s.chunkIndex)) else s1, o.fs)
  }

  /** `stopRecordingAndStopSelf`: ignored when not recording; otherwise the
      loop is cancelled (its `finally` runs), the recorder is stopped and the
      service stops itself. */
  function StopRecordingAndStopSelf(s: Svc, fs: Fs, env: Env): (r: Out)
    ensures !s.isRecording ==> r == Out(s, fs)
    ensures s.isRecording ==>
      !r.svc.isRecording && !r.svc.isPausedForCall && !r.svc.foreground && !r.svc.running &&
      r.svc.phase == NotLooping && !r.svc.recorder.IsRecording()
    ensures r.svc.chunkIndex == s.chunkIndex && r.svc.chunks == s.chunks
  {
    if !s.isRecording then Out(s, fs)
    else
      var o := AudioRecorder.Stop(s.recorder, fs, env.captured);
      var l := LeaveLoop(s.(isRecording := false, recorder := o.rec), o.fs, env);
      Out(l.svc.(running := false), l.fs)
  }

  /** `pauseRecordingForCall`: only while recording; raises the flag, stops
      the current chunk's recorder and shows the call notice. */
  function PauseRecordingForCall(s: Svc, fs: Fs, env: Env): (r: Out)
    ensures !s.isRecording ==> r == Out(s, fs)
    ensures s.isRecording ==>
      r.svc.isPausedForCall && r.svc.notice == CALL_NOTICE && !r.svc.recorder.IsRecording()
    ensures r.svc.isRecording == s.isRecording && r.svc.phase == s.phase
    ensures r.svc.chunkIndex == s.chunkIndex && r.svc.chunks == s.chunks
  {
    if !s.isRecording then Out(s, fs)
    else
      var o := AudioRecorder.Stop(s.recorder, fs, env.captured);
      Out(s.(isPausedForCall := true, recorder := o.rec, notice := CALL_NOTICE), o.fs)
  }

  /** `handleCallStateChange`: the end of a call clears the flag (and names
      the next chunk); ringing and an answered call both take the pause path. */
  function HandleCallStateChange(s: Svc, fs: Fs, env: Env, state: int): (r: Out)
    ensures state == CALL_STATE_IDLE ==> !r.svc.isPausedForCall && r.fs == fs
    ensures state == CALL_STATE_IDLE && s.isPausedForCall ==>
      r.svc == s.(isPausedForCall := false, notice := RecordingNotice(s.chunkIndex))
    ensures state == CALL_STATE_IDLE && !s.isPausedForCall ==> r.svc == s
    ensures CallActive(state) ==> r == PauseRecordingForCall(s, fs, env)
    ensures state != CALL_STATE_IDLE && !CallActive(state) ==> r == Out(s, fs)
  {
    if state == CALL_STATE_IDLE then
      if s.isPausedForCall then Out(s.(isPausedForCall := false, notice := RecordingNotice(s.chunkIndex)), fs)
      else Out(s, fs)
    else if CallActive(state) then PauseRecordingForCall(s, fs, env)
    else Out(s, fs)
  }

  /** The test action's delayed half: five seconds later, a pause still in
      force is lifted. */
  function TestPauseElapsed(s: Svc): (r: Svc)
    ensures !r.isPausedForCall
    ensures s.isPausedForCall ==> r.notice == RecordingNotice(s.chunkIndex)
    ensures !s.isPausedForCall ==> r == s
  {
    if s.isPausedForCall then s.(isPausedForCall := false, notice := RecordingNotice(s.chunkIndex)) else s
  }

  /** `onStartCommand`. */
  function OnStartCommand(s: Svc, fs: Fs, env: Env, action: Option<string>): (r: Out)
    ensures action == Some(ACTION_START) ==> r == Out(StartForegroundAndRecord(s), fs)
    ensures action == Some(ACTION_STOP) ==> r == StopRecordingAndStopSelf(s, fs, env)
    ensures action == Some(ACTION_TEST_PAUSE) ==> r == PauseRecordingForCall(s, fs, env)
    ensures action.None? ==> r == Out(s, fs)
  {
    match action
    case None => Out(s, fs)
    case Some(a) =>
      if a == ACTION_START then Out(StartForegroundAndRecord(s), fs)
      else if a == ACTION_STOP then StopRecordingAndStopSelf(s, fs, env)
      else if a == ACTION_TEST_PAUSE then PauseRecordingForCall(s, fs, env)
      else Out(s, fs)
  }

  /** Every step the service can take. */
  datatype Event =
    | Intent(action: Option<string>)
    | CallState(state: int)
    | TestPauseOver
    | LoopTop
    | ChunkWaitOver

  function Apply(s: Svc, fs: Fs, env: Env, e: Event): Out {
    match e
    case Intent(a) => OnStartCommand(s, fs, env, a)
    case CallState(st) => HandleCallStateChange(s, fs, env, st)
    case TestPauseOver => Out(TestPauseElapsed(s), fs)
    case LoopTop => if s.phase == BetweenChunks then BeginChunk(s, fs, env) else Out(s, fs)
    case ChunkWaitOver => if s.phase == InChunk then EndChunk(s, fs, env) else Out(s, fs)
  }

  function Run(s: Svc, fs: Fs, env: Env, es: seq<Event>): Out
    decreases |es|
  {
    if |es| == 0 then Out(s, fs)
    else
      var o := Run(s, fs, env, es[..|es| - 1]);
      Apply(o.svc, o.fs, env, es[|es| - 1])
  }

  /** The chunks started so far carry the indices `base`, `base + 1`, … in
      order, and the next index is the one after the last. */
  predicate Contiguous(s: Svc, base: int) {
    s.chunkIndex == base + |s.chunks| &&
    forall j | 0 <= j < |s.chunks| :: s.chunks[j].index == base + j
  }

  /** Whatever happens — intents, calls, chunks begun and ended, stops — the
      chunk indices stay contiguous from where they started: no index is
      skipped or reused. */
  lemma {:induction false} ChunksStayContiguous(s: Svc, fs: Fs, env: Env, es: seq<Event>)
    requires Contiguous(s, s.chunkIndex - |s.chunks|)
    ensures Contiguous(Run(s, fs, env, es).svc, s.chunkIndex - |s.chunks|)
    decreases |es|
  {
    if |es| > 0 {
      ChunksStayContiguous(s, fs, env, es[..|es| - 1]);
      var o := Run(s, fs, env, es[..|es| - 1]);
      var base := s.chunkIndex - |s.chunks|;
      var e := es[|es| - 1];
      if e == LoopTop && o.svc.phase == BetweenChunks && o.svc.isRecording && !o.svc.isPausedForCall {
        var r := BeginChunk(o.svc, o.fs, env);
        assert forall j | 0 <= j < |o.svc.chunks| :: r.svc.chunks[j] == o.svc.chunks[j];
      }
    }
  }

  /** Once the loop has been left, by a stop, a failed start or cancellation,
      neither flag is left raised. */
  lemma LoopEndClearsFlags(s: Svc, fs: Fs, env: Env)
    requires s.phase == BetweenChunks && !s.isRecording
    ensures var r := BeginChunk(s, fs, env).svc;
      r.phase == NotLooping && !r.isRecording && !r.isPausedForCall
  {
  }
}

=== FILE: format_duration.dfy ===
/** The duration label of a saved recording in the recordings list. */
module DurationFormat {
  import opened Common
  import opened Text

  /** `formatDuration(sec)`: `"<m>m <s>s"` when there is at least one whole
      minute, otherwise `"<s>s"`, using Kotlin's truncating `/` and `%`. */
  function FormatDuration(sec: int): (r: string)
    ensures 2 <= |r| && r[|r| - 1] == 's'
    ensures 'm' in r <==> sec >= 60
  {
    var m := Div(sec, 60);
    var s := Rem(sec, 60);
    NoUnitLetters(s);
    if m > 0 then
      var r := LongString(m) + "m " + LongString(s) + "s";
      assert r[|LongString(m)|] == 'm';
      NoUnitLetters(m);
      r
    else
      LongString(s) + "s"
  }

  /** Rendered numbers never contain the unit letters or the separator. */
  lemma NoUnitLetters(x: int)
    ensures 'm' !in LongString(x) && 's' !in LongString(x) && ' ' !in LongString(x)
  {
    if x < 0 {
      DigitsHaveNo(DecimalString(-x), 'm');
      DigitsHaveNo(DecimalString(-x), 's');
      DigitsHaveNo(DecimalString(-x), ' ');
    } else {
      DigitsHaveNo(DecimalString(x), 'm');
      DigitsHaveNo(DecimalString(x), 's');
      DigitsHaveNo(DecimalString(x), ' ');
    }
  }

  /** Reads a label of the form `"<m>m <s>s"` or `"<s>s"` back as seconds. */
  function ParseDuration(r: string): Option<int> {
    if |r| == 0 || r[|r| - 1] != 's' then None else ParseBody(r[..|r| - 1])
  }

  /** A label without its final `s`: minutes and seconds around the first
      `m`, or seconds alone. */
  function ParseBody(body: string): Option<int> {
    if 'm' in body then
      var k := IndexOf(body, 'm');
      ParseParts(body[..k], body[k + 1..])
    else if 1 <= |body| && AllDigits(body) then Some(ParseDecimal(body))
    else None
  }

  /** The minutes and, after a space, the seconds. */
  function ParseParts(mins: string, rest: string): Option<int> {
    if 2 <= |rest| && rest[0] == ' ' && 1 <= |mins| && AllDigits(mins) && AllDigits(rest[1..])
    then Some(60 * ParseDecimal(mins) + ParseDecimal(rest[1..]))
    else None
  }

  /** Under a minute the label is just the seconds. */
  lemma FormatShort(sec: int)
    requires 0 <= sec < 60
    ensures FormatDuration(sec) == DecimalString(sec) + "s"
  {
    assert Div(sec, 60) == 0;
    assert Rem(sec, 60) == sec;
  }

  /** From one minute on, the label is whole minutes then the remaining seconds. */
  lemma FormatLong(sec: int)
    requires 60 <= sec
    ensures FormatDuration(sec) == DecimalString(sec / 60) + "m " + DecimalString(sec % 60) + "s"
    ensures (sec / 60) * 60 + sec % 60 == sec && 0 <= sec % 60 < 60
  {
    assert Div(sec, 60) == sec / 60 > 0;
    assert Rem(sec, 60) == sec % 60;
  }

  /** Every non-negative duration can be read back from its label: minutes
      times sixty plus seconds is the original count. */
  lemma {:induction false} FormatDurationRoundTrip(sec: int)
    requires 0 <= sec
    ensures ParseDuration(FormatDuration(sec)) == Some(sec)
  {
    if sec < 60 {
      FormatShort(sec);
      ParseShortLabel(sec);
    } else {
      var m, n := sec / 60, sec % 60;
      FormatLong(sec);
      ReadBack(m, n);
      ParseLongText(DecimalString(m), DecimalString(n));
      assert 60 * m + n == sec;
    }
  }

  /** A seconds-only label reads back as its number. */
  lemma ParseShortLabel(n: nat)
    ensures ParseDuration(DecimalString(n) + "s") == Some(n)
  {
    ParseDecimalString(n);
    ParseShortParts(DecimalString(n));
  }

  lemma ParseShortParts(ds: string)
    requires 1 <= |ds| && AllDigits(ds)
    ensures ParseDuration(ds + ['s']) == Some(ParseDecimal(ds))
  {
    var r := ds + ['s'];
    assert r[..|r| - 1] == ds;
    DigitsHaveNo(ds, 'm');
  }

  /** Both numbers read back from their digits. */
  lemma ReadBack(m: nat, n: nat)
    ensures 60 * ParseDecimal(DecimalString(m)) + ParseDecimal(DecimalString(n)) == 60 * m + n
  {
    ParseDecimalString(m);
    ParseDecimalString(n);
  }

  /** Any two digit strings around `m ` and before `s` read back as their
      values. */
  lemma ParseLongText(ms: string, ds: string)
    requires 1 <= |ms| && AllDigits(ms) && 1 <= |ds| && AllDigits(ds)
    ensures ParseDuration(ms + "m " + ds + "s") == Some(60 * ParseDecimal(ms) + ParseDecimal(ds))
  {
    var x := ParseDuration(ms + ['m'] + ([' '] + ds) + ['s']);
    ParseLongParts(ms, ds);
    assert x == Some(60 * ParseDecimal(ms) + ParseDecimal(ds));
    LongLabelShape(ms, ds);
  }

  lemma LongLabelShape(ms: string, ds: string)
    ensures ParseDuration(ms + "m " + ds + "s") == ParseDuration(ms + ['m'] + ([' '] + ds) + ['s'])
  {
    assert ms + "m " + ds + "s" == ms + ['m'] + ([' '] + ds) + ['s'];
  }

  lemma ParseLongParts(ms: string, ds: string)
    requires 1 <= |ms| && AllDigits(ms) && 1 <= |ds| && AllDigits(ds)
    ensures ParseDuration(ms + ['m'] + ([' '] + ds) + ['s']) == Some(60 * ParseDecimal(ms) + ParseDecimal(ds))
  {
    DigitsHaveNo(ms, 'm');
    DropUnit(ms + ['m'] + ([' '] + ds));
    SplitAtMinutes(ms, [' '] + ds);
    ParseSpacedSeconds(ms, ds);
  }

  /** The final `s` is dropped and the rest parsed as a body. */
  lemma DropUnit(body: string)
    ensures ParseDuration(body + ['s']) == ParseBody(body)
  {
    var r := body + ['s'];
    assert r[..|r| - 1] == body;
  }

  /** A body splits at its first `m`. */
  lemma SplitAtMinutes(ms: string, rest: string)
    requires 'm' !in ms
    ensures ParseBody(ms + ['m'] + rest) == ParseParts(ms, rest)
  {
    SplitAtFirst(ms, 'm', rest);
  }

  /** Minutes, a space and seconds give minutes times sixty plus seconds. */
  lemma ParseSpacedSeconds(ms: string, ds: string)
    requires 1 <= |ms| && AllDigits(ms) && 1 <= |ds| && AllDigits(ds)
    ensures ParseParts(ms, [' '] + ds) == Some(60 * ParseDecimal(ms) + ParseDecimal(ds))
  {
    assert ([' '] + ds)[1..] == ds;
  }
}

=== FILE: query.dfy ===
/** The result lists of `SELECT … ORDER BY key`: every selected row once, in
    key order. SQL leaves the order of rows with equal keys open, so the
    queries are methods that may pick any order among ties. */
module Query {

  predicate Ascending<T>(xs: seq<T>, key: T -> int) {
    forall i, j | 0 <= i < j < |xs| :: key(xs[i]) <= key(xs[j])
  }

  predicate Descending<T>(xs: seq<T>, key: T -> int) {
    forall i, j | 0 <= i < j < |xs| :: key(xs[i]) >= key(xs[j])
  }

  predicate Distinct<T(==)>(xs: seq<T>) {
    forall i, j | 0 <= i < j < |xs| :: xs[i] != xs[j]
  }

  /** A finite non-empty set has an element of least key. */
  lemma {:induction false} Least<T>(s: set<T>, key: T -> int) returns (m: T)
    requires s != {}
    ensures m in s && forall y | y in s :: key(m) <= key(y)
    decreases |s|
  {
    var x :| x in s;
    if s == {x} {
      m := x;
    } else {
      var n := Least(s - {x}, key);
      m := if key(x) <= key(n) then x else n;
    }
  }

  /** `ORDER BY key ASC` over the selected rows `s`. */
  method OrderBy<T(==)>(s: set<T>, key: T -> int) returns (xs: seq<T>)
    ensures forall x :: x in xs <==> x in s
    ensures Distinct(xs) && Ascending(xs, key)
  {
    xs := [];
    var rest := s;
    while rest != {}
      invariant forall x :: x in s <==> x in xs || x in rest
      invariant forall x | x in xs :: x !in rest
      invariant Distinct(xs) && Ascending(xs, key)
      invariant forall i, y | 0 <= i < |xs| && y in rest :: key(xs[i]) <= key(y)
      decreases |rest|
    {
      ghost var least := Least(rest, key);
      var m :| m in rest && forall y | y in rest :: key(m) <= key(y);
      xs := xs + [m];
      rest := rest - {m};
    }
  }

  /** `ORDER BY key DESC` over the selected rows `s`. */
  method OrderByDescending<T(==)>(s: set<T>, key: T -> int) returns (xs: seq<T>)
    ensures forall x :: x in xs <==> x in s
    ensures Distinct(xs) && Descending(xs, key)
  {
    xs := OrderBy(s, x => -key(x));
  }

  /** The head of a descending list has the greatest key of the list. */
  lemma HeadIsGreatest<T>(xs: seq<T>, key: T -> int)
    requires |xs| > 0 && Descending(xs, key)
    ensures forall y | y in xs :: key(y) <= key(xs[0])
  {
    forall y | y in xs
      ensures key(y) <= key(xs[0])
    {
      var j :| 0 <= j < |xs| && xs[j] == y;
      if j > 0 {
        assert key(xs[0]) >= key(xs[j]);
      }
    }
  }
}

=== FILE: recording_service.dfy ===
/** The lock-screen service that mirrors the recording status in a
    notification: its own four-valued status with a call-specific pause, a
    timer string pushed from the screen, a start instant shifted by pauses,
    and intents that it either handles itself or forwards to the screen. The
    notification is reduced to a count of the times it was posted. */
module RecordingService {
  import opened Common
  import RecordingViewModel

  datatype RecordingStatus = Stopped | Recording | Paused | PausedForCall

  datatype Service = Service(
    status: RecordingStatus,
    timer: string,
    startTime: int,
    pausedTime: int,
    ticking: bool,
    foreground: bool,
    running: bool,
    hasCallback: bool,
    notifications: nat)
  {
    predicate IsRecording() { status == Recording }
    predicate IsPaused() { status == Paused || status == PausedForCall }
    predicate IsStopped() { status == Stopped }
  }

  const Created := Service(Stopped, "00:00", 0, 0, false, false, true, false, 0)

  /** Exactly one of the three status queries holds, and "paused" covers
      both kinds of pause. */
  lemma StatusQueriesPartition(s: Service)
    ensures s.IsRecording() <==> !s.IsPaused() && !s.IsStopped()
    ensures s.IsPaused() ==> !s.IsStopped()
    ensures s.IsPaused() <==> s.status in {Paused, PausedForCall}
  {
  }

  /** `updateNotification`: one more post. */
  function Notify(s: Service): Service {
    s.(notifications := s.notifications + 1)
  }

  /** `updateTimer`: stores and posts only a different string. */
  function UpdateTimer(s: Service, timer: string): (r: Service)
    ensures r.timer == timer
    ensures s.timer == timer ==> r == s
    ensures s.timer != timer ==> r == s.(timer := timer, notifications := s.notifications + 1)
  {
    if s.timer != timer then Notify(s.(timer := timer)) else s
  }

  /** Pushing the same timer string twice is the same as pushing it once. */
  lemma UpdateTimerIdempotent(s: Service, timer: string)
    ensures UpdateTimer(UpdateTimer(s, timer), timer) == UpdateTimer(s, timer)
  {
  }

  /** `updateRecordingStatus(status, callRelated)`. A call-related pause is
      stored as the call-specific pause. Entering Recording from either pause
      shifts the start instant by the pause; entering it from anything else,
      Recording included, restarts the clock. Entering a pause keeps the
      elapsed milliseconds. */
  function UpdateRecordingStatus(s: Service, status: RecordingStatus, callRelated: bool, now: int): (r: Service)
    ensures r.status == (if callRelated && status == Paused then PausedForCall else status)
    ensures r.status == Recording && s.IsPaused() ==> r.startTime == now - s.pausedTime && r.pausedTime == s.pausedTime
    ensures r.status == Recording && !s.IsPaused() ==> r.startTime == now && r.pausedTime == 0
    ensures r.IsPaused() ==> r.pausedTime == now - s.startTime && r.startTime == s.startTime
    ensures r.status == Stopped ==> r.startTime == s.startTime && r.pausedTime == s.pausedTime
    ensures r.ticking <==> r.status == Recording
    ensures r.notifications == s.notifications + 1 && r.timer == s.timer
  {
    var newStatus := if callRelated && status == Paused then PausedForCall else status;
    var s1 := s.(status := newStatus);
    var s2 :=
      match newStatus
      case Recording =>
        if s.IsPaused() then s1.(startTime := now - s.pausedTime, ticking := true)
        else s1.(startTime := now, pausedTime := 0, ticking := true)
      case Paused => s1.(pausedTime := now - s.startTime, ticking := false)
      case PausedForCall => s1.(pausedTime := now - s.startTime, ticking := false)
      case Stopped => s1.(ticking := false);
    Notify(s2)
  }

  /** `syncWithViewModelState`: the screen's flags decide the status, never
      the call-specific pause; the timer string is taken as given. */
  function SyncWithViewModelState(s: Service, isRecording: bool, isPaused: bool, currentTimer: string): (r: Service)
    ensures r.status != PausedForCall
    ensures r.IsRecording() <==> isRecording
    ensures r.IsPaused() <==> !isRecording && isPaused
    ensures r.timer == currentTimer && (r.ticking <==> isRecording)
    ensures r.startTime == s.startTime && r.pausedTime == s.pausedTime
  {
    var status := if isRecording then Recording else if isPaused then Paused else Stopped;
    Notify(s.(status := status, timer := currentTimer, ticking := isRecording))
  }

  /** Synchronizing from the screen's state reproduces the screen's status,
      whatever the service showed before. */
  lemma SyncMirrorsScreen(s: Service, vm: RecordingViewModel.VM)
    ensures var r := SyncWithViewModelState(s, vm.status == RecordingViewModel.Recording,
                                            vm.status == RecordingViewModel.Paused, vm.timerText);
      (r.IsRecording() <==> vm.status == RecordingViewModel.Recording) &&
      (r.IsPaused() <==> vm.status == RecordingViewModel.Paused) &&
      (r.IsStopped() <==> vm.status == RecordingViewModel.Stopped) &&
      r.timer == vm.timerText
  {
  }

  /** `startRecordingService`: Recording with a fresh clock, then the
      foreground notification and the ticking, unless going foreground
      throws (`foregroundFails`), which is logged and swallowed. */
  function StartRecordingService(s: Service, now: int, foregroundFails: bool): (r: Service)
    ensures r.status == Recording && r.startTime == now && r.pausedTime == 0
    ensures r.foreground <==> s.foreground || !foregroundFails
    ensures r.ticking <==> s.ticking || !foregroundFails
    ensures r.timer == s.timer
  {
    var s1 := s.(status := Recording, startTime := now, pausedTime := 0);
    if foregroundFails then s1 else s1.(foreground := true, ticking := true)
  }

  /** `stopRecordingService`: Stopped, timer reset, no ticking, out of the
      foreground, and the service stops itself. */
  function StopRecordingService(s: Service): (r: Service)
    ensures r.IsStopped() && r.timer == "00:00" && !r.ticking && !r.foreground && !r.running
    ensures r.startTime == s.startTime && r.pausedTime == s.pausedTime && r.hasCallback == s.hasCallback
  {
    s.(status := Stopped, timer := "00:00", ticking := false, foreground := false, running := false)
  }

  /** One run of the ticking runnable: re-posts the notification while
      recording, and stops rescheduling itself otherwise. */
  function Tick(s: Service): (r: Service)
    ensures s.ticking && s.IsRecording() ==> r == s.(notifications := s.notifications + 1)
    ensures !(s.ticking && s.IsRecording()) ==> r == s.(ticking := false)
  {
    if s.ticking && s.IsRecording() then Notify(s) else s.(ticking := false)
  }

  /** `setCallback` and `onDestroy`: the screen connects; the service goes
      away, dropping its ticking and the screen's callback. */
  function SetCallback(s: Service): (r: Service)
    ensures r.hasCallback && r.status == s.status && r.timer == s.timer
  {
    s.(hasCallback := true)
  }

  function OnDestroy(s: Service): (r: Service)
    ensures !r.hasCallback && !r.ticking && r.status == s.status
  {
    s.(hasCallback := false, ticking := false)
  }

  const ACTION_PAUSE_RESUME := "action_pause_resume"
  const ACTION_STOP := "action_stop"
  const COMMAND_START_RECORDING := "start_recording"
  const COMMAND_PAUSE_RECORDING := "pause_recording"
  const COMMAND_RESUME_RECORDING := "resume_recording"
  const COMMAND_STOP_RECORDING := "stop_recording"
  const COMMAND_UPDATE_TIMER := "update_timer"

  /** Which screen callback, if any, an intent was forwarded to. */
  datatype Forwarded = NotForwarded | PauseResumeRequested | StopRequested

  datatype Handled = Handled(service: Service, forwarded: Forwarded)

  /** `onStartCommand`: the notification's buttons are forwarded to the
      screen (Stop falls back to stopping directly when no screen is
      connected); the commands act on the service; anything else is ignored. */
  function OnStartCommand(s: Service, action: Option<string>, timerExtra: Option<string>, now: int, foregroundFails: bool): (r: Handled)
    ensures action == Some(ACTION_PAUSE_RESUME) ==>
      r.service == s && (r.forwarded == PauseResumeRequested <==> s.hasCallback)
    ensures action == Some(ACTION_STOP) && s.hasCallback ==> r == Handled(s, StopRequested)
    ensures action == Some(ACTION_STOP) && !s.hasCallback ==> r == Handled(StopRecordingService(s), NotForwarded)
    ensures action == Some(COMMAND_START_RECORDING) ==>
      r == Handled(StartRecordingService(s, now, foregroundFails), NotForwarded) &&
      r.service.IsRecording() && r.service.startTime == now
    ensures action == Some(COMMAND_PAUSE_RECORDING) ==>
      r == Handled(UpdateRecordingStatus(s, Paused, false, now), NotForwarded) && r.service.status == Paused
    ensures action == Some(COMMAND_RESUME_RECORDING) ==>
      r == Handled(UpdateRecordingStatus(s, Recording, false, now), NotForwarded) && r.service.status == Recording
    ensures action == Some(COMMAND_STOP_RECORDING) ==> r.service.IsStopped() && !r.service.running
    ensures action == Some(COMMAND_UPDATE_TIMER) ==> r.service.timer == timerExtra.GetOr("00:00")
    ensures r.forwarded != NotForwarded ==> r.service == s
    ensures action.None? ==> r == Handled(s, NotForwarded)
    ensures action.Some? && action.value !in {ACTION_PAUSE_RESUME, ACTION_STOP, COMMAND_START_RECORDING,
      COMMAND_PAUSE_RECORDING, COMMAND_RESUME_RECORDING, COMMAND_STOP_RECORDING, COMMAND_UPDATE_TIMER} ==>
      r == Handled(s, NotForwarded)
  {
    match action
    case None => Handled(s, NotForwarded)
    case Some(a) =>
      if a == ACTION_PAUSE_RESUME then
        Handled(s, if s.hasCallback then PauseResumeRequested else NotForwarded)
      else if a == ACTION_STOP then
        if s.hasCallback then Handled(s, StopRequested) else Handled(StopRecordingService(s), NotForwarded)
      else if a == COMMAND_START_RECORDING then Handled(StartRecordingService(s, now, foregroundFails), NotForwarded)
      else if a == COMMAND_PAUSE_RECORDING then Handled(UpdateRecordingStatus(s, Paused, false, now), NotForwarded)
      else if a == COMMAND_RESUME_RECORDING then Handled(UpdateRecordingStatus(s, Recording, false, now), NotForwarded)
      else if a == COMMAND_STOP_RECORDING then Handled(StopRecordingService(s), NotForwarded)
      else if a == COMMAND_UPDATE_TIMER then Handled(UpdateTimer(s, timerExtra.GetOr("00:00")), NotForwarded)
      else Handled(s, NotForwarded)
  }

  /** Pausing at `t1`, for a call or not, and resuming at `t2` shifts the
      start instant by the pause: the elapsed time right after the resume is
      the elapsed time at the pause. */
  lemma PauseResumeKeepsElapsed(s: Service, callRelated: bool, t1: int, t2: int)
    requires s.IsRecording()
    ensures var p := UpdateRecordingStatus(s, Paused, callRelated, t1);
      var r := UpdateRecordingStatus(p, Recording, false, t2);
      p.IsPaused() && (p.status == PausedForCall <==> callRelated) &&
      r.IsRecording() && t2 - r.startTime == t1 - s.startTime
  {
  }

  /** The pause and resume commands, sent in turn to a recording service,
      leave it recording with the paused time excluded; a second stop command
      changes nothing further. */
  lemma CommandsPauseResumeStop(s: Service, t1: int, t2: int, t3: int)
    requires s.IsRecording()
    ensures var p := OnStartCommand(s, Some(COMMAND_PAUSE_RECORDING), None, t1, false).service;
      var r := OnStartCommand(p, Some(COMMAND_RESUME_RECORDING), None, t2, false).service;
      var stopped := OnStartCommand(r, Some(COMMAND_STOP_RECORDING), None, t3, false).service;
      p.IsPaused() && r.IsRecording() && t2 - r.startTime == t1 - s.startTime &&
      stopped.IsStopped() && OnStartCommand(stopped, Some(COMMAND_STOP_RECORDING), None, t3, false).service == stopped
  {
    PauseResumeKeepsElapsed(s, false, t1, t2);
  }

  /** A resume command while already recording restarts the clock: the
      elapsed time drops to zero. */
  lemma ResumeWhileRecordingRestartsClock(s: Service, now: int)
    requires s.IsRecording()
    ensures var r := OnStartCommand(s, Some(COMMAND_RESUME_RECORDING), None, now, false).service;
      r.IsRecording() && now - r.startTime == 0 && r.pausedTime == 0
  {
  }
}

=== FILE: recovery_worker.dfy ===
/** The background recovery worker: a task names a session and a job
    (finalize the interrupted chunk, merge the session's chunks, or clean the
    session up); the worker marks the task in progress, runs the job and
    marks the task completed or failed. */
module RecoveryWorker {
  import opened Common
  import opened Entities
  import Dao
  import Query
  import SessionPersistence
  import AudioMerger

  const TASK_EXECUTION_FAILED := "Task execution failed"
  const UNKNOWN_ERROR := "Unknown error"

  /** The work request's input data; a key may be absent. */
  datatype WorkInput = WorkInput(taskId: Option<string>, sessionId: Option<string>, taskType: Option<string>)

  predicate Given(input: WorkInput) {
    input.taskId.Some? && input.sessionId.Some? && input.taskType.Some?
  }

  datatype WorkResult = Success | Failure

  datatype Worked = Worked(db: Db, fs: Fs, result: WorkResult)

  /** `estimateAudioDuration`: the file's length at the assumed bit rate. */
  function EstimateAudioDuration(fs: Fs, p: Path): (ms: nat)
    ensures ms % 1000 == 0
    ensures ms <= fs.Length(p) * 1000 / AudioMerger.BYTES_PER_SECOND < ms + 1000
  {
    AudioMerger.EstimatedMillis(fs.Length(p))
  }

  /** The duration an interrupted chunk is finalized with: the estimate for
      a non-empty file, 0 for a missing or empty one. */
  function RecoveredDuration(fs: Fs, p: Path): int {
    if fs.Exists(p) && fs.Length(p) > 0 then EstimateAudioDuration(fs, p) else 0
  }

  /** `finalizeIncompleteChunk`, with the chunk finalized by its id: the
      session's unfinished chunk of highest index, if any, is finalized with
      the recovered duration. The answer is always true. */
  method FinalizeIncompleteChunk(db: Db, fs: Fs, sessionId: string, now: int) returns (r: Db, ok: bool, finalized: Option<string>)
    ensures ok
    ensures finalized.None? <==> forall k | k in db.chunks :: !(db.chunks[k].sessionId == sessionId && !db.chunks[k].isComplete)
    ensures finalized.None? ==> r == db
    ensures Valid(db) && finalized.Some? ==> finalized.value in db.chunks
    ensures Valid(db) && finalized.Some? ==>
      var c := db.chunks[finalized.value];
      r == SessionPersistence.FinalizeChunk(db, fs, c.chunkId, RecoveredDuration(fs, c.filePath), now) &&
      c.sessionId == sessionId && !c.isComplete && r.chunks[c.chunkId].isComplete &&
      forall k | k in db.chunks && db.chunks[k].sessionId == sessionId && !db.chunks[k].isComplete ::
        db.chunks[k].chunkIndex <= c.chunkIndex
  {
    var incomplete := Dao.GetIncompleteChunk(db, sessionId);
    ok := true;
    match incomplete {
      case None =>
        r, finalized := db, None;
      case Some(c) =>
        ghost var k :| k in db.chunks && db.chunks[k] == c;
        if Valid(db) {
          assert k == c.chunkId;
        }
        r := SessionPersistence.FinalizeChunk(db, fs, c.chunkId, RecoveredDuration(fs, c.filePath), now);
        finalized := Some(c.chunkId);
    }
  }

  /** `finalizeIncompleteChunk` as written, through the lookup under the
      empty session id: in a valid store without such a session it reports
      success and changes nothing, so the interrupted chunk stays unfinished
      and no merge will take it. */
  method FinalizeIncompleteChunkAsWritten(db: Db, fs: Fs, sessionId: string, now: int) returns (r: Db, ok: bool)
    ensures ok
    ensures Valid(db) && "" !in db.sessions ==> r == db
    ensures Valid(db) ==> Valid(r)
  {
    var incomplete := Dao.GetIncompleteChunk(db, sessionId);
    ok := true;
    match incomplete {
      case None =>
        r := db;
      case Some(c) =>
        var duration := RecoveredDuration(fs, c.filePath);
        r := SessionPersistence.FinalizeChunkAsWritten(db, fs, c.chunkId, duration, now);
    }
  }

  /** The chunks a merge takes: complete, with their file present. */
  predicate Mergeable(fs: Fs, c: Chunk) {
    c.isComplete && fs.Exists(c.filePath)
  }

  function Filter(fs: Fs, xs: seq<Chunk>): (r: seq<Chunk>)
    ensures forall c :: c in r <==> c in xs && Mergeable(fs, c)
    decreases |xs|
  {
    if |xs| == 0 then []
    else
      var rest := Filter(fs, xs[1..]);
      assert forall c :: c in xs <==> c == xs[0] || c in xs[1..];
      if Mergeable(fs, xs[0]) then [xs[0]] + rest else rest
  }

  /** Filtering keeps the list's ascending index order. */
  lemma {:induction false} FilterKeepsOrder(fs: Fs, xs: seq<Chunk>)
    requires Query.Ascending(xs, Dao.ChunkOrder)
    ensures Query.Ascending(Filter(fs, xs), Dao.ChunkOrder)
    decreases |xs|
  {
    if |xs| > 0 {
      FilterKeepsOrder(fs, xs[1..]);
      var rest := Filter(fs, xs[1..]);
      HeadBelowTail(xs);
      if Mergeable(fs, xs[0]) {
        ConsAscending(xs[0], rest);
      }
    }
  }

  /** In an ascending list the head's index bounds every later chunk's. */
  lemma HeadBelowTail(xs: seq<Chunk>)
    requires |xs| > 0 && Query.Ascending(xs, Dao.ChunkOrder)
    ensures forall c | c in xs[1..] :: xs[0].chunkIndex <= c.chunkIndex
  {
    forall c | c in xs[1..]
      ensures xs[0].chunkIndex <= c.chunkIndex
    {
      var j :| 0 <= j < |xs[1..]| && xs[1..][j] == c;
      assert xs[j + 1] == c;
    }
  }

  /** A chunk placed before an ascending list whose indices it does not
      exceed keeps the list ascending. */
  lemma ConsAscending(x: Chunk, rest: seq<Chunk>)
    requires Query.Ascending(rest, Dao.ChunkOrder)
    requires forall c | c in rest :: x.chunkIndex <= c.chunkIndex
    ensures Query.Ascending([x] + rest, Dao.ChunkOrder)
  {
    var r := [x] + rest;
    forall i, j | 0 <= i < j < |r|
      ensures Dao.ChunkOrder(r[i]) <= Dao.ChunkOrder(r[j])
    {
      assert r[j] == rest[j - 1] && rest[j - 1] in rest;
      if i > 0 {
        assert r[i] == rest[i - 1];
      }
    }
  }

  /** Filtering keeps the list free of repeats. */
  lemma {:induction false} FilterKeepsDistinct(fs: Fs, xs: seq<Chunk>)
    requires Query.Distinct(xs)
    ensures Query.Distinct(Filter(fs, xs))
    decreases |xs|
  {
    if |xs| > 0 {
      assert Query.Distinct(xs[1..]) by {
        forall i, j | 0 <= i < j < |xs[1..]| ensures xs[1..][i] != xs[1..][j] {
          assert xs[1..][i] == xs[i + 1] && xs[1..][j] == xs[j + 1];
        }
      }
      FilterKeepsDistinct(fs, xs[1..]);
      var rest := Filter(fs, xs[1..]);
      forall j | 0 <= j < |xs[1..]|
        ensures xs[1..][j] != xs[0]
      {
        assert xs[1..][j] == xs[j + 1];
      }
      if Mergeable(fs, xs[0]) {
        var r := [xs[0]] + rest;
        forall i, j | 0 <= i < j < |r|
          ensures r[i] != r[j]
        {
          assert r[j] == rest[j - 1] && rest[j - 1] in rest;
          if i > 0 {
            assert r[i] == rest[i - 1];
          }
        }
      }
    }
  }

  function Paths(xs: seq<Chunk>): (r: seq<Path>)
    ensures |r| == |xs| && forall i | 0 <= i < |xs| :: r[i] == xs[i].filePath
  {
    seq(|xs|, i requires 0 <= i < |xs| => xs[i].filePath)
  }

  /** The merged file: `<outputDirectory>/<baseFileName>.m4a`. */
  function MergedFile(s: Session): Path {
    Join(s.outputDirectory, s.baseFileName + ".m4a")
  }

  /** A merge run's outcome; `chunks` are the chunks merged, in merge order. */
  datatype MergeRun = MergeRun(db: Db, fs: Fs, ok: bool, chunks: seq<Chunk>) {
    function Inputs(): seq<Path> { Paths(chunks) }
  }

  /** The session with the id is active and more recent than every other
      active session, so the last-active query can only return it. */
  predicate SoleLastActive(db: Db, sessionId: string) {
    exists k | k in db.sessions ::
      db.sessions[k].sessionId == sessionId && db.sessions[k].isActive &&
      forall k2 | k2 in db.sessions && db.sessions[k2].isActive && k2 != k ::
        db.sessions[k2].lastActivityTime < db.sessions[k].lastActivityTime
  }

  /** When the last-active query returns no session or another one, the
      session is not the sole most recent active one. */
  lemma NotSoleLastActive(db: Db, sessionId: string, last: Option<Session>)
    requires last.None? <==> forall k | k in db.sessions :: !db.sessions[k].isActive
    requires last.Some? ==> last.value in db.sessions.Values && last.value.isActive
    requires last.Some? ==> forall k | k in db.sessions && db.sessions[k].isActive ::
      db.sessions[k].lastActivityTime <= last.value.lastActivityTime
    requires last.None? || last.value.sessionId != sessionId
    ensures !SoleLastActive(db, sessionId)
  {
  }

  /** What a run of `mergeSessionChunks` promises, from the store and files
      it started with. Only the last active session can be merged. Its
      complete chunks with a file, by ascending index, are merged into its
      merged file (none: nothing to do, true). Only a successful merge
      completes the session and deletes the chunk files; a failure keeps the
      store and leaves the files as the failed merge left them. */
  predicate MergePromise(db: Db, fs: Fs, sessionId: string, now: int, r: MergeRun) {
    MergeChoice(db, fs, sessionId, r) && MergeEffect(db, fs, sessionId, now, r) && MergeSelection(db, fs, sessionId, r)
  }

  /** Which session can be merged: a failure without inputs means the
      session was not the sole most recent active one, and a success means
      it was active and no active session is more recent. */
  predicate MergeChoice(db: Db, fs: Fs, sessionId: string, r: MergeRun) {
    (!r.ok && |r.Inputs()| == 0 ==> !SoleLastActive(db, sessionId)) &&
    ((forall k | k in db.sessions :: !(db.sessions[k].isActive && db.sessions[k].sessionId == sessionId)) ==>
      r == MergeRun(db, fs, false, [])) &&
    (r.ok ==> exists k | k in db.sessions ::
      db.sessions[k].sessionId == sessionId && db.sessions[k].isActive &&
      forall k2 | k2 in db.sessions && db.sessions[k2].isActive ::
        db.sessions[k2].lastActivityTime <= db.sessions[k].lastActivityTime)
  }

  /** What a merge does to the store and the files. */
  predicate MergeEffect(db: Db, fs: Fs, sessionId: string, now: int, r: MergeRun) {
    (Valid(db) ==> Valid(r.db)) &&
    (!r.ok ==> r.db == db) &&
    (r.ok && |r.Inputs()| == 0 ==> r.db == db && r.fs == fs) &&
    (|r.Inputs()| > 0 ==> sessionId in db.sessions || !Valid(db)) &&
    (Valid(db) && r.ok && |r.Inputs()| > 0 ==>
      r.db == SessionPersistence.CompleteSession(db, sessionId, now) &&
      !r.db.sessions[sessionId].isActive && r.db.sessions[sessionId].status == STATUS_STOPPED) &&
    (Valid(db) && |r.Inputs()| > 0 ==>
      (var m := AudioMerger.Merge(fs, r.Inputs(), MergedFile(db.sessions[sessionId]));
       r.ok == m.ok && r.fs == (if m.ok then AudioMerger.CleanupTemporaryFiles(m.fs, r.Inputs()) else m.fs)))
  }

  /** Which chunks a merge takes: the session's complete chunks with a file,
      each once, by ascending index, and all of them whenever the merge
      was attempted: a run that merged something or succeeded. A failing
      merge therefore fails over the whole selection, never over part of it. */
  predicate MergeSelection(db: Db, fs: Fs, sessionId: string, r: MergeRun) {
    (forall c | c in r.chunks :: c in db.chunks.Values && c.sessionId == sessionId && Mergeable(fs, c)) &&
    Query.Ascending(r.chunks, Dao.ChunkOrder) && Query.Distinct(r.chunks) &&
    (sessionId in db.sessions && db.sessions[sessionId].isActive && (r.ok || |r.chunks| > 0) ==>
      forall k | k in db.chunks && db.chunks[k].sessionId == sessionId && Mergeable(fs, db.chunks[k]) :: db.chunks[k] in r.chunks)
  }

  /** `mergeSessionChunks`. */
  method MergeSessionChunks(db: Db, fs: Fs, sessionId: string, now: int) returns (r: MergeRun)
    ensures MergePromise(db, fs, sessionId, now, r)
  {
    var last := Dao.GetLastActiveSession(db);
    if last.None? || last.value.sessionId != sessionId {
      NotSoleLastActive(db, sessionId, last);
      return MergeRun(db, fs, false, []);
    }
    r := MergeLastActive(db, fs, last.value, now);
  }

  /** The rest of `mergeSessionChunks`, once `session` has been found as the
      last active session. */
  method MergeLastActive(db: Db, fs: Fs, session: Session, now: int) returns (r: MergeRun)
    requires session in db.sessions.Values && session.isActive
    requires forall k | k in db.sessions && db.sessions[k].isActive ::
      db.sessions[k].lastActivityTime <= session.lastActivityTime
    ensures MergePromise(db, fs, session.sessionId, now, r)
  {
    var sessionId := session.sessionId;
    ghost var key :| key in db.sessions && db.sessions[key] == session;
    var all := Dao.GetChunksForSession(db, sessionId);
    // `sortedBy { it.chunkIndex }` is a stable sort of a list already in
    // ascending index order, so it returns the list unchanged.
    var chunks := Filter(fs, all);
    if |chunks| == 0 {
      return MergeRun(db, fs, true, []);
    }
    FilterKeepsOrder(fs, all);
    FilterKeepsDistinct(fs, all);
    var inputs := Paths(chunks);
    var m := AudioMerger.MergeAudioFiles(fs, inputs, MergedFile(session));
    if Valid(db) {
      assert key == sessionId;
    }
    if m.ok {
      var db1 := SessionPersistence.CompleteSession(db, sessionId, now);
      var fs1 := AudioMerger.CleanupTemporaryFiles(m.fs, inputs);
      r := MergeRun(db1, fs1, true, chunks);
    } else {
      r := MergeRun(db, m.fs, false, chunks);
    }
  }

  /** A merge that merged something cannot be repeated: the session it
      completed is no longer active, so the second run answers false and
      changes nothing. */
  method MergeTwice(db: Db, fs: Fs, sessionId: string, t1: int, t2: int) returns (first: MergeRun, second: MergeRun)
    ensures Valid(db) && first.ok && |first.chunks| > 0 ==> !second.ok && second.db == first.db && second.fs == first.fs
  {
    first := MergeSessionChunks(db, fs, sessionId, t1);
    second := MergeSessionChunks(first.db, first.fs, sessionId, t2);
    if Valid(db) && first.ok && |first.chunks| > 0 {
      assert !first.db.sessions[sessionId].isActive;
      assert Valid(first.db);
    }
  }

  /** `cleanupSessionFiles`: deletes every chunk file of the session that
      exists (a file that cannot be deleted only warns), then deletes the
      session's records. The answer is always true. */
  method CleanupSessionFiles(db: Db, fs: Fs, sessionId: string) returns (r: Db, rfs: Fs, ok: bool)
    ensures ok
    ensures r == SessionPersistence.DeleteSession(db, sessionId)
    ensures forall k | k in db.chunks && db.chunks[k].sessionId == sessionId && db.chunks[k].filePath !in fs.unwritable ::
      !rfs.Exists(db.chunks[k].filePath)
    ensures forall p | p in rfs.files :: p in fs.files && rfs.files[p] == fs.files[p]
    ensures forall p | p in fs.files && (forall k | k in db.chunks && db.chunks[k].sessionId == sessionId :: db.chunks[k].filePath != p) ::
      p in rfs.files
  {
    var chunks := Dao.GetChunksForSession(db, sessionId);
    var paths := Paths(chunks);
    forall i | 0 <= i < |paths|
      ensures exists k | k in db.chunks :: db.chunks[k].sessionId == sessionId && db.chunks[k].filePath == paths[i]
    {
      assert chunks[i] in chunks;
      var k :| k in db.chunks && db.chunks[k] == chunks[i];
    }
    forall k | k in db.chunks && db.chunks[k].sessionId == sessionId
      ensures db.chunks[k].filePath in paths
    {
      assert db.chunks[k] in db.chunks.Values;
      assert db.chunks[k] in chunks;
      var i :| 0 <= i < |chunks| && chunks[i] == db.chunks[k];
      assert paths[i] == db.chunks[k].filePath;
    }
    rfs := AudioMerger.CleanupTemporaryFiles(fs, paths);
    r := SessionPersistence.DeleteSession(db, sessionId);
    ok := true;
  }

  /** What the task's job reported; `merged` lists the chunks a merge job
      merged and is empty for the other jobs. */
  datatype JobResult = JobResult(db: Db, fs: Fs, ok: bool, merged: seq<Chunk>)

  /** `doWork`'s dispatch on the task type; an unknown type is a failure.
      The finalize job runs as written, so in a store whose sessions all
      have generated ids it finalizes nothing. */
  method RunJob(db: Db, fs: Fs, sessionId: string, taskType: string, now: int) returns (j: JobResult)
    ensures taskType == TASK_TYPE_FINALIZE_CHUNK ==> j.ok && j.fs == fs
    ensures taskType == TASK_TYPE_FINALIZE_CHUNK && Valid(db) && "" !in db.sessions ==> j.db == db
    ensures taskType == TASK_TYPE_MERGE_CHUNKS ==> MergePromise(db, fs, sessionId, now, MergeRun(j.db, j.fs, j.ok, j.merged))
    ensures taskType == TASK_TYPE_CLEANUP ==> j.ok && j.db == SessionPersistence.DeleteSession(db, sessionId)
    ensures taskType != TASK_TYPE_FINALIZE_CHUNK && taskType != TASK_TYPE_MERGE_CHUNKS && taskType != TASK_TYPE_CLEANUP ==>
      j == JobResult(db, fs, false, [])
    ensures Valid(db) ==> Valid(j.db)
  {
    if taskType == TASK_TYPE_FINALIZE_CHUNK {
      var r, ok := FinalizeIncompleteChunkAsWritten(db, fs, sessionId, now);
      j := JobResult(r, fs, ok, []);
    } else if taskType == TASK_TYPE_MERGE_CHUNKS {
      var m := MergeSessionChunks(db, fs, sessionId, now);
      j := JobResult(m.db, m.fs, m.ok, m.chunks);
    } else if taskType == TASK_TYPE_CLEANUP {
      var r, rfs, ok := CleanupSessionFiles(db, fs, sessionId);
      j := JobResult(r, rfs, ok, []);
    } else {
      j := JobResult(db, fs, false, []);
    }
  }

  /** Which of `doWork`'s own status updates throws, with the exception's
      message (which may be null). The jobs catch their own exceptions and
      answer false, so only these updates can reach the worker's handler. The
      throwing update writes nothing; the handler's own update succeeds. */
  datatype Thrown = NoThrow | AtInProgress(message: Option<string>) | AtFinalStatus(message: Option<string>)

  /** The task's status after its job answered `ok`: completed, or failed with
      "Task execution failed"; when that write throws, failed with the
      exception's message, written by the handler. */
  function FinalMark(db: Db, taskId: string, ok: bool, thrown: Thrown, now: int): (r: Db)
    ensures r.sessions == db.sessions && r.chunks == db.chunks && r.tasks.Keys == db.tasks.Keys
    ensures taskId in db.tasks ==>
      r.tasks[taskId].status == (if ok && !thrown.AtFinalStatus? then TASK_STATUS_COMPLETED else TASK_STATUS_FAILED)
    ensures taskId in db.tasks && !(ok && !thrown.AtFinalStatus?) ==>
      r.tasks[taskId].errorMessage == Some(if thrown.AtFinalStatus? then thrown.message.GetOr(UNKNOWN_ERROR) else TASK_EXECUTION_FAILED)
    ensures Valid(db) ==> Valid(r)
  {
    if thrown.AtFinalStatus? then
      SessionPersistence.UpdateTaskStatus(db, taskId, TASK_STATUS_FAILED, Some(thrown.message.GetOr(UNKNOWN_ERROR)), now)
    else if ok then SessionPersistence.UpdateTaskStatus(db, taskId, TASK_STATUS_COMPLETED, None, now)
    else SessionPersistence.UpdateTaskStatus(db, taskId, TASK_STATUS_FAILED, Some(TASK_EXECUTION_FAILED), now)
  }

  /** `doWork`. A missing input key fails at once and touches nothing.
      Otherwise the task is marked in progress, the job runs, and the task
      is marked completed on success or failed, with a message, on failure.
      When a status update throws, the task is marked failed with the
      exception's message instead; a throw at the in-progress mark comes
      before the job, a throw at the final mark after it. */
  method DoWork(db: Db, fs: Fs, input: WorkInput, now: int, thrown: Thrown) returns (w: Worked)
    ensures !Given(input) ==> w == Worked(db, fs, Failure)
    ensures Given(input) && thrown.AtInProgress? ==>
      w == Worked(SessionPersistence.UpdateTaskStatus(db, input.taskId.value, TASK_STATUS_FAILED,
                                                       Some(thrown.message.GetOr(UNKNOWN_ERROR)), now), fs, Failure)
    ensures w.result == Success ==>
      (thrown.NoThrow? && Given(input) && input.taskType.value in {TASK_TYPE_FINALIZE_CHUNK, TASK_TYPE_MERGE_CHUNKS, TASK_TYPE_CLEANUP})
    ensures thrown.NoThrow? && Given(input) && input.taskType.value in {TASK_TYPE_FINALIZE_CHUNK, TASK_TYPE_CLEANUP} ==>
      w.result == Success
    ensures Given(input) && input.taskId.value in w.db.tasks ==>
      (w.result == Success <==> w.db.tasks[input.taskId.value].status == TASK_STATUS_COMPLETED)
    ensures Given(input) && input.taskId.value in w.db.tasks && w.result == Failure && thrown.NoThrow? ==>
      w.db.tasks[input.taskId.value].errorMessage == Some(TASK_EXECUTION_FAILED)
    ensures Given(input) && input.taskId.value in w.db.tasks && !thrown.NoThrow? ==>
      w.db.tasks[input.taskId.value].errorMessage == Some(thrown.message.GetOr(UNKNOWN_ERROR))
    ensures Given(input) && input.taskType.value == TASK_TYPE_FINALIZE_CHUNK ==>
      w.fs == fs && (Valid(db) && "" !in db.sessions ==> w.db.chunks == db.chunks && w.db.sessions == db.sessions)
    ensures Given(input) && input.taskType.value == TASK_TYPE_MERGE_CHUNKS && !thrown.AtInProgress? ==>
      exists m: MergeRun ::
        MergePromise(SessionPersistence.UpdateTaskStatus(db, input.taskId.value, TASK_STATUS_IN_PROGRESS, None, now),
                     fs, input.sessionId.value, now, m) &&
        w == Worked(FinalMark(m.db, input.taskId.value, m.ok, thrown, now), m.fs,
                    if m.ok && thrown.NoThrow? then Success else Failure)
    ensures Given(input) && input.taskType.value == TASK_TYPE_CLEANUP && !thrown.AtInProgress? ==>
      forall k | k in w.db.chunks :: w.db.chunks[k].sessionId != input.sessionId.value
    ensures Valid(db) ==> Valid(w.db)
  {
    if !Given(input) {
      return Worked(db, fs, Failure);
    }
    var taskId, sessionId, taskType := input.taskId.value, input.sessionId.value, input.taskType.value;
    if thrown.AtInProgress? {
      var failed := SessionPersistence.UpdateTaskStatus(db, taskId, TASK_STATUS_FAILED, Some(thrown.message.GetOr(UNKNOWN_ERROR)), now);
      return Worked(failed, fs, Failure);
    }
    var db1 := SessionPersistence.UpdateTaskStatus(db, taskId, TASK_STATUS_IN_PROGRESS, None, now);
    var j := RunJob(db1, fs, sessionId, taskType, now);
    w := Worked(FinalMark(j.db, taskId, j.ok, thrown, now), j.fs, if j.ok && thrown.NoThrow? then Success else Failure);
    if taskType == TASK_TYPE_MERGE_CHUNKS {
      assert MergePromise(db1, fs, sessionId, now, MergeRun(j.db, j.fs, j.ok, j.merged));
    }
  }
}

=== FILE: session_persistence.dfy ===
/** The persistence manager: the session, chunk and task operations the
    recorder and the recovery worker use, each a composition of DAO calls.
    Generated ids and clock readings are parameters. Its four readers
    (`getLastActiveSession`, `getSessionChunks`, `getIncompleteChunk`,
    `getPendingRecoveryTasks`) return the DAO query unchanged and are the
    `Dao` methods of the same names. */
module SessionPersistence {
  import opened Common
  import opened Entities
  import Dao

  /** `createSession`: a new active session in the RECORDING status under
      the generated id, started and last active now. */
  function CreateSession(db: Db, sessionId: string, baseFileName: string, outputDirectory: string,
                         audioSource: int, now: int): (r: Db)
    ensures sessionId in r.sessions
    ensures r.sessions[sessionId] == NewSession(sessionId, now, STATUS_RECORDING, outputDirectory, baseFileName, audioSource, now)
    ensures r.sessions[sessionId].status == STATUS_RECORDING && r.sessions[sessionId].isActive
    ensures forall k | k != sessionId :: Dao.GetSession(r, k) == Dao.GetSession(db, k)
    ensures sessionId !in db.sessions ==> r.chunks == db.chunks
    ensures r.tasks == db.tasks
    ensures Valid(db) ==> Valid(r)
  {
    Dao.InsertSession(db, NewSession(sessionId, now, STATUS_RECORDING, outputDirectory, baseFileName, audioSource, now))
  }

  /** `updateSessionStatus`: status and last activity always; the pause
      reason only when one is given, so a missing reason never clears a
      stored one. */
  function UpdateSessionStatus(db: Db, sessionId: string, status: string, pauseReason: Option<string>, now: int): (r: Db)
    ensures r.sessions.Keys == db.sessions.Keys && r.chunks == db.chunks && r.tasks == db.tasks
    ensures sessionId in db.sessions ==>
      r.sessions[sessionId].status == status && r.sessions[sessionId].lastActivityTime == now
    ensures sessionId in db.sessions && pauseReason.None? ==>
      r.sessions[sessionId] == db.sessions[sessionId].(status := status, lastActivityTime := now)
    ensures sessionId in db.sessions && pauseReason.Some? ==>
      r.sessions[sessionId] == db.sessions[sessionId].(status := status, lastActivityTime := now, pauseReason := pauseReason)
    ensures sessionId !in db.sessions ==> r == db
    ensures forall k | k != sessionId :: Dao.GetSession(r, k) == Dao.GetSession(db, k)
    ensures Valid(db) ==> Valid(r)
  {
    var r1 := Dao.UpdateSessionStatus(db, sessionId, status, now);
    if pauseReason.Some? then Dao.UpdatePauseReason(r1, sessionId, pauseReason, now) else r1
  }

  /** `addChunk`: a new unfinished chunk under the generated id, or the
      foreign key's refusal when the session does not exist. */
  function AddChunk(db: Db, chunkId: string, sessionId: string, chunkIndex: int, filePath: Path, now: int): (r: Dao.Written)
    ensures r.ok <==> sessionId in db.sessions
    ensures r.ok ==> (chunkId in r.db.chunks && Unfinished(r.db.chunks[chunkId]) &&
                      r.db.chunks[chunkId] == NewChunk(chunkId, sessionId, chunkIndex, filePath, now))
    ensures !r.ok ==> r.db == db
    ensures Valid(db) ==> Valid(r.db)
  {
    Dao.InsertChunk(db, NewChunk(chunkId, sessionId, chunkIndex, filePath, now))
  }

  /** Kotlin's `find`: the first chunk of the list with the id. */
  function FindChunk(xs: seq<Chunk>, chunkId: string): (r: Option<Chunk>)
    ensures r.Some? ==> r.value in xs && r.value.chunkId == chunkId
    ensures r.None? <==> forall i | 0 <= i < |xs| :: xs[i].chunkId != chunkId
    ensures r.Some? ==> exists i | 0 <= i < |xs| :: xs[i] == r.value && forall j | 0 <= j < i :: xs[j].chunkId != chunkId
  {
    if |xs| == 0 then None
    else if xs[0].chunkId == chunkId then Some(xs[0])
    else FindChunk(xs[1..], chunkId)
  }

  /** The size a finalized chunk records: the file's length, 0 when missing. */
  function FileSize(fs: Fs, p: Path): (n: nat)
    ensures n == 0 <==> !fs.Exists(p) || fs.files[p] == []
    ensures fs.Exists(p) ==> n == |fs.files[p]|
  {
    if fs.Exists(p) then fs.Length(p) else 0
  }

  /** `finalizeChunk` as written: the chunk is looked up among the chunks of
      the session with the empty id. A chunk of any other session is never
      found, so nothing changes; and in a valid database without a session
      of empty id (every session has a generated id) nothing ever does. */
  method FinalizeChunkAsWritten(db: Db, fs: Fs, chunkId: string, duration: int, now: int) returns (r: Db)
    ensures chunkId !in db.chunks ==> r == db
    ensures Valid(db) && chunkId in db.chunks && db.chunks[chunkId].sessionId != "" ==> r == db
    ensures Valid(db) && "" !in db.sessions ==> r == db
    ensures Valid(db) && chunkId in db.chunks && db.chunks[chunkId].sessionId == "" ==>
      r == Dao.FinalizeChunk(db, chunkId, now, duration, FileSize(fs, db.chunks[chunkId].filePath))
    ensures Valid(db) ==> Valid(r)
  {
    var xs := Dao.GetChunksForSession(db, "");
    if Valid(db) && chunkId in db.chunks && db.chunks[chunkId].sessionId == "" {
      assert db.chunks[chunkId] in db.chunks.Values;
      assert db.chunks[chunkId] in xs;
    }
    var found := FindChunk(xs, chunkId);
    match found {
      case None =>
        r := db;
      case Some(c) =>
        var k :| k in db.chunks && db.chunks[k] == c;
        r := Dao.FinalizeChunk(db, chunkId, now, duration, FileSize(fs, c.filePath));
        if chunkId !in db.chunks {
          assert r == db;
        }
    }
  }

  /** `finalizeChunk` as evidently intended: the chunk with the id, whatever
      its session, becomes complete with its end, length and file size. */
  function FinalizeChunk(db: Db, fs: Fs, chunkId: string, duration: int, now: int): (r: Db)
    ensures r.chunks.Keys == db.chunks.Keys
    ensures chunkId in db.chunks ==>
      r.chunks[chunkId].isComplete && r.chunks[chunkId].duration == duration &&
      r.chunks[chunkId].endTime == Some(now) &&
      r.chunks[chunkId].fileSize == FileSize(fs, db.chunks[chunkId].filePath) &&
      r.chunks[chunkId].filePath == db.chunks[chunkId].filePath &&
      r.chunks[chunkId].sessionId == db.chunks[chunkId].sessionId &&
      r.chunks[chunkId].chunkIndex == db.chunks[chunkId].chunkIndex &&
      r.chunks[chunkId].needsMerging == db.chunks[chunkId].needsMerging
    ensures forall k | k in db.chunks && k != chunkId :: r.chunks[k] == db.chunks[k]
    ensures r.sessions == db.sessions && r.tasks == db.tasks
    ensures Valid(db) ==> Valid(r)
  {
    if chunkId in db.chunks then Dao.FinalizeChunk(db, chunkId, now, duration, FileSize(fs, db.chunks[chunkId].filePath))
    else db
  }

  /** `createRecoveryTask`: a new pending task that has never run, created
      now, under the generated id. */
  function CreateRecoveryTask(db: Db, taskId: string, sessionId: string, taskType: string, maxRetries: int, now: int): (r: Db)
    ensures taskId in r.tasks && r.tasks[taskId].status == TASK_STATUS_PENDING && Untried(r.tasks[taskId])
    ensures r.tasks[taskId] == NewTask(taskId, sessionId, taskType, TASK_STATUS_PENDING, now, maxRetries)
    ensures forall k | k != taskId :: (k in r.tasks <==> k in db.tasks)
    ensures r.sessions == db.sessions && r.chunks == db.chunks
    ensures Valid(db) ==> Valid(r)
  {
    Dao.InsertTask(db, NewTask(taskId, sessionId, taskType, TASK_STATUS_PENDING, now, maxRetries))
  }

  predicate Finished(status: string) {
    status == TASK_STATUS_COMPLETED || status == TASK_STATUS_FAILED
  }

  /** `updateTaskStatus`: a failure with a message counts a retry and keeps
      the completion time; any other update stamps the completion time
      exactly when the status is a finished one (and clears it otherwise). */
  function UpdateTaskStatus(db: Db, taskId: string, status: string, errorMessage: Option<string>, now: int): (r: Db)
    ensures r.tasks.Keys == db.tasks.Keys
    ensures taskId in db.tasks ==> r.tasks[taskId].status == status
    ensures taskId in db.tasks && status == TASK_STATUS_FAILED && errorMessage.Some? ==>
      r.tasks[taskId].retryCount == db.tasks[taskId].retryCount + 1 &&
      r.tasks[taskId].errorMessage == errorMessage &&
      r.tasks[taskId].completedTime == db.tasks[taskId].completedTime
    ensures taskId in db.tasks && !(status == TASK_STATUS_FAILED && errorMessage.Some?) ==>
      r.tasks[taskId].retryCount == db.tasks[taskId].retryCount &&
      r.tasks[taskId].errorMessage == db.tasks[taskId].errorMessage &&
      (r.tasks[taskId].completedTime.Some? <==> Finished(status)) &&
      (Finished(status) ==> r.tasks[taskId].completedTime == Some(now))
    ensures taskId in db.tasks ==> r.tasks[taskId].maxRetries == db.tasks[taskId].maxRetries
    ensures forall k | k in db.tasks && k != taskId :: r.tasks[k] == db.tasks[k]
    ensures r.sessions == db.sessions && r.chunks == db.chunks
    ensures Valid(db) ==> Valid(r)
  {
    if status == TASK_STATUS_FAILED && errorMessage.Some? then
      Dao.MarkTaskFailed(db, taskId, status, errorMessage.value)
    else
      Dao.UpdateTaskStatus(db, taskId, status, if Finished(status) then Some(now) else None)
  }

  /** `completeSession`: the session is stopped and inactive, and its
      chunks, only its, no longer need merging. */
  function CompleteSession(db: Db, sessionId: string, now: int): (r: Db)
    ensures r.sessions.Keys == db.sessions.Keys && r.chunks.Keys == db.chunks.Keys && r.tasks == db.tasks
    ensures sessionId in db.sessions ==>
      r.sessions[sessionId] == db.sessions[sessionId].(status := STATUS_STOPPED, lastActivityTime := now, isActive := false)
    ensures forall k | k in db.sessions && k != sessionId :: r.sessions[k] == db.sessions[k]
    ensures forall k | k in db.chunks && db.chunks[k].sessionId == sessionId ::
      r.chunks[k] == db.chunks[k].(needsMerging := false)
    ensures forall k | k in db.chunks && db.chunks[k].sessionId != sessionId :: r.chunks[k] == db.chunks[k]
    ensures Valid(db) ==> Valid(r)
  {
    var r1 := Dao.UpdateSessionStatus(db, sessionId, STATUS_STOPPED, now);
    var r2 := Dao.DeactivateSession(r1, sessionId);
    Dao.MarkChunksMerged(r2, sessionId)
  }

  /** The cutoff of `cleanup(maxAgeHours)`: `maxAgeHours * 60 * 60` is
      computed in 32-bit `Int` arithmetic, and only then widened to `Long`
      by the multiplication by 1000. */
  function Cutoff(now: int, maxAgeHours: int): (c: int)
    requires -0x8000_0000 <= maxAgeHours < 0x8000_0000
    ensures -596523 <= maxAgeHours <= 596523 ==> c == now - maxAgeHours * 3600000
  {
    now - WrapInt32(WrapInt32(maxAgeHours * 60) * 60) * 1000
  }

  /** Past 596523 hours the 32-bit product wraps around: a cutoff meant to
      lie far in the past lies in the future instead. */
  lemma CutoffWrapsAround(now: int)
    ensures Cutoff(now, 596524) > now
  {
  }

  /** `cleanup`: the stale sessions (with their chunks) and the stale tasks
      go, everything else stays. */
  function Cleanup(db: Db, maxAgeHours: int, now: int): (r: Db)
    requires -0x8000_0000 <= maxAgeHours < 0x8000_0000
    ensures forall k :: k in r.sessions <==> k in db.sessions && !Dao.StaleSession(db.sessions[k], Cutoff(now, maxAgeHours))
    ensures forall k :: k in r.tasks <==> k in db.tasks && !Dao.StaleTask(db.tasks[k], Cutoff(now, maxAgeHours))
    ensures forall k | k in r.sessions :: r.sessions[k] == db.sessions[k]
    ensures forall k | k in r.tasks :: r.tasks[k] == db.tasks[k]
    ensures Valid(db) ==> Valid(r)
  {
    var cutoff := Cutoff(now, maxAgeHours);
    Dao.CleanupOldTasks(Dao.CleanupOldSessions(db, cutoff), cutoff)
  }

  /** `deleteSession`: the session's chunks and tasks are deleted, but the
      session row itself is only deactivated. */
  function DeleteSession(db: Db, sessionId: string): (r: Db)
    ensures forall k | k in r.chunks :: r.chunks[k].sessionId != sessionId
    ensures forall k | k in r.tasks :: r.tasks[k].sessionId != sessionId
    ensures forall k :: k in r.chunks <==> k in db.chunks && db.chunks[k].sessionId != sessionId
    ensures forall k :: k in r.tasks <==> k in db.tasks && db.tasks[k].sessionId != sessionId
    ensures r.sessions.Keys == db.sessions.Keys
    ensures sessionId in db.sessions ==> r.sessions[sessionId] == db.sessions[sessionId].(isActive := false)
    ensures forall k | k in db.sessions && k != sessionId :: r.sessions[k] == db.sessions[k]
    ensures Valid(db) ==> Valid(r)
  {
    var r1 := Dao.DeleteChunksForSession(db, sessionId);
    var r2 := Dao.DeleteTasksForSession(r1, sessionId);
    Dao.DeactivateSession(r2, sessionId)
  }

  /** A deleted session's row goes only at a later cleanup whose cutoff lies
      after its last activity. */
  lemma DeletedSessionGoesAtCleanup(db: Db, sessionId: string, maxAgeHours: int, now: int)
    requires -0x8000_0000 <= maxAgeHours < 0x8000_0000
    requires sessionId in db.sessions
    ensures var r := Cleanup(DeleteSession(db, sessionId), maxAgeHours, now);
      sessionId !in r.sessions <==> db.sessions[sessionId].lastActivityTime < Cutoff(now, maxAgeHours)
  {
  }
}

=== FILE: silence_detector.dfy ===
/** The silence monitor that runs beside a capture: a consecutive-silence
    counter sampled once a second, with a warning once ten silent seconds have
    accumulated and at most one warning per five-second window. The level
    computation itself is abstracted to the `isSilent` flag of a reading. */
module SilenceDetector {
  import opened Common

  const SILENCE_WARNING_SECONDS: int := 10
  const WARNING_COOLDOWN_MS: int := 5000

  datatype Detector = Detector(
    monitoring: bool,
    hasAudioRecord: bool,
    silentSeconds: int,
    lastWarningTime: int)

  /** A detector as constructed, before `startMonitoring`. */
  const Fresh := Detector(false, false, 0, 0)

  /** One pass of the sampling loop: the `read` result (a count of samples,
      or a non-positive error code), whether the samples were below the
      silence threshold, and the clock at the time. */
  datatype Reading = Reading(readResult: int, isSilent: bool, now: int)

  /** What one pass reports: the new detector and the warning, if one fired,
      carrying the silent-second count handed to `onSilenceDetected`. */
  datatype Sampled = Sampled(detector: Detector, warning: Option<int>)

  /** `startMonitoring`: ignored while monitoring; otherwise opens the
      capture stream (`initialized` says whether it came up) and, if it did,
      starts from a zero counter. */
  function StartMonitoring(d: Detector, initialized: bool): (r: Detector)
    ensures d.monitoring ==> r == d
    ensures !d.monitoring ==> (r.monitoring <==> initialized)
    ensures r.monitoring && !d.monitoring ==> r.silentSeconds == 0 && r.lastWarningTime == 0
  {
    if d.monitoring then d
    else if !initialized then d.(hasAudioRecord := false)
    else Detector(true, true, 0, 0)
  }

  /** `cleanup`: stops monitoring, releases the stream and zeroes the counters. */
  function Cleanup(d: Detector): (r: Detector)
    ensures !r.monitoring && !r.hasAudioRecord
    ensures r.silentSeconds == 0 && r.lastWarningTime == 0
  {
    Detector(false, false, 0, 0)
  }

  /** `stopMonitoring`: ignored when not monitoring, otherwise `cleanup`. */
  function StopMonitoring(d: Detector): (r: Detector)
    ensures !d.monitoring ==> r == d
    ensures d.monitoring ==> r == Cleanup(d)
  {
    if !d.monitoring then d else Cleanup(d)
  }

  /** `resetSilenceCounter`: zeroes the counter and the warning clock only. */
  function ResetSilenceCounter(d: Detector): (r: Detector)
    ensures r.monitoring == d.monitoring && r.hasAudioRecord == d.hasAudioRecord
    ensures r.silentSeconds == 0 && r.lastWarningTime == 0
  {
    d.(silentSeconds := 0, lastWarningTime := 0)
  }

  predicate IsCurrentlySilent(d: Detector) {
    d.silentSeconds > 0
  }

  function CurrentSilenceDuration(d: Detector): int {
    d.silentSeconds
  }

  /** One iteration of `monitorAudioLevels`. A failed read changes nothing; a
      loud reading clears the counter and the warning clock; a silent one
      counts one more second and may fire the warning. */
  function Step(d: Detector, x: Reading): (r: Sampled)
    ensures !d.monitoring || x.readResult <= 0 ==> r == Sampled(d, None)
    ensures d.monitoring && x.readResult > 0 && x.isSilent ==>
      r.detector.silentSeconds == d.silentSeconds + 1
    ensures d.monitoring && x.readResult > 0 && !x.isSilent ==>
      r.detector == d.(silentSeconds := 0, lastWarningTime := 0) && r.warning == None
    ensures r.warning.Some? <==>
      d.monitoring && x.readResult > 0 && x.isSilent &&
      d.silentSeconds + 1 >= SILENCE_WARNING_SECONDS && x.now - d.lastWarningTime > WARNING_COOLDOWN_MS
    ensures r.warning.Some? ==>
      r.warning.value == r.detector.silentSeconds && r.detector.lastWarningTime == x.now
    ensures d.monitoring && x.readResult > 0 && x.isSilent && r.warning.None? ==>
      r.detector == d.(silentSeconds := d.silentSeconds + 1)
    ensures d.monitoring && x.readResult > 0 && x.isSilent && r.warning.Some? ==>
      r.detector == d.(silentSeconds := d.silentSeconds + 1, lastWarningTime := x.now)
    ensures r.warning.None? ==>
      r.detector.lastWarningTime == d.lastWarningTime || r.detector.lastWarningTime == 0
    ensures r.detector.monitoring == d.monitoring && r.detector.hasAudioRecord == d.hasAudioRecord
  {
    if !d.monitoring || x.readResult <= 0 then Sampled(d, None)
    else if x.isSilent then
      var count := d.silentSeconds + 1;
      if count >= SILENCE_WARNING_SECONDS && x.now - d.lastWarningTime > WARNING_COOLDOWN_MS then
        Sampled(d.(silentSeconds := count, lastWarningTime := x.now), Some(count))
      else
        Sampled(d.(silentSeconds := count), None)
    else
      Sampled(d.(silentSeconds := 0, lastWarningTime := 0), None)
  }

  /** The detector after a sequence of loop iterations. */
  function Run(d: Detector, xs: seq<Reading>): Detector
    decreases |xs|
  {
    if |xs| == 0 then d else Step(Run(d, xs[..|xs| - 1]), xs[|xs| - 1]).detector
  }

  /** Reference count: the silent readings at the end of the sequence, skipping
      failed reads, up to the last loud one. */
  function TrailingSilence(xs: seq<Reading>): nat
    decreases |xs|
  {
    if |xs| == 0 then 0
    else
      var last := xs[|xs| - 1];
      if last.readResult <= 0 then TrailingSilence(xs[..|xs| - 1])
      else if last.isSilent then TrailingSilence(xs[..|xs| - 1]) + 1
      else 0
  }

  /** Whether a successful, loud reading occurs in the sequence. */
  predicate HeardSound(xs: seq<Reading>) {
    exists i | 0 <= i < |xs| :: xs[i].readResult > 0 && !xs[i].isSilent
  }

  /** The counter is the length of the current silent stretch: after a loud
      reading it is exactly the trailing silence, before any it adds to the
      starting count. Monitoring is never switched off by the loop. */
  lemma {:induction false} CounterIsTrailingSilence(d: Detector, xs: seq<Reading>)
    requires d.monitoring
    ensures Run(d, xs).monitoring
    ensures Run(d, xs).silentSeconds ==
      (if HeardSound(xs) then TrailingSilence(xs) else d.silentSeconds + TrailingSilence(xs))
    decreases |xs|
  {
    if |xs| > 0 {
      var init := xs[..|xs| - 1];
      var last := xs[|xs| - 1];
      CounterIsTrailingSilence(d, init);
      assert forall i | 0 <= i < |init| :: init[i] == xs[i];
      if last.readResult > 0 && !last.isSilent {
        assert HeardSound(xs);
      } else {
        assert HeardSound(xs) <==> HeardSound(init) by {
          if HeardSound(xs) {
            var i :| 0 <= i < |xs| && xs[i].readResult > 0 && !xs[i].isSilent;
            assert i < |init|;
          }
        }
      }
    }
  }

  /** Counting from a freshly started detector, the counter equals the
      trailing silence, so a warning can fire only after ten consecutive
      silent seconds. */
  lemma StartedCounterIsTrailingSilence(xs: seq<Reading>)
    ensures Run(StartMonitoring(Fresh, true), xs).silentSeconds == TrailingSilence(xs)
  {
    CounterIsTrailingSilence(StartMonitoring(Fresh, true), xs);
  }

  /** No reading is loud: each is silent or a failed read. */
  predicate Quiet(xs: seq<Reading>, until: int) {
    forall i | 0 <= i < |xs| :: (xs[i].isSilent || xs[i].readResult <= 0) && xs[i].now <= until
  }

  /** Quiet readings within five seconds of the warning clock leave it alone. */
  lemma {:induction false} QuietKeepsWarningClock(d: Detector, xs: seq<Reading>)
    requires Quiet(xs, d.lastWarningTime + WARNING_COOLDOWN_MS)
    ensures Run(d, xs).lastWarningTime == d.lastWarningTime
    decreases |xs|
  {
    if |xs| > 0 {
      var init := xs[..|xs| - 1];
      assert forall i | 0 <= i < |init| :: init[i] == xs[i];
      QuietKeepsWarningClock(d, init);
    }
  }

  /** Cool-down: once a warning fires at time `t`, no reading of a run of
      silent (or failed) readings up to `t + 5000` fires another. */
  lemma WarningCooldown(d: Detector, x: Reading, ys: seq<Reading>)
    requires Step(d, x).warning.Some?
    requires Quiet(ys, x.now + WARNING_COOLDOWN_MS)
    ensures forall k | 0 <= k < |ys| :: Step(Run(Step(d, x).detector, ys[..k]), ys[k]).warning.None?
  {
    var w := Step(d, x).detector;
    forall k | 0 <= k < |ys|
      ensures Step(Run(w, ys[..k]), ys[k]).warning.None?
    {
      assert forall i | 0 <= i < k :: ys[..k][i] == ys[i];
      QuietKeepsWarningClock(w, ys[..k]);
    }
  }
}

=== FILE: storage.dfy ===
/** Free-space checks for recording: the start gate, the status shown to the
    user, the periodic monitor's decision and the remaining-time estimate. All
    sizes are whole mebibytes obtained with Kotlin's truncating `Long` division. */
module Storage {
  import opened Common

  const MB_TO_BYTES: int := 1024 * 1024
  const MIN_STORAGE_TO_START_MB: int := 50
  const LOW_STORAGE_WARNING_MB: int := 100
  const CRITICAL_STORAGE_MB: int := 25
  const MONITORING_INTERVAL_MS: int := 10000

  datatype StorageInfo = StorageInfo(totalBytes: int, availableBytes: int, usedBytes: int) {
    function AvailableMB(): int {
      Div(availableBytes, MB_TO_BYTES)
    }
    function TotalMB(): int {
      Div(totalBytes, MB_TO_BYTES)
    }
    function UsedMB(): int {
      Div(usedBytes, MB_TO_BYTES)
    }
  }

  /** A `StatFs` reading of the recordings directory. */
  datatype StatFs = StatFs(blockSize: nat, blockCount: nat, availableBlocks: nat)

  /** The defaults reported when the file system cannot be queried. */
  const FallbackInfo := StorageInfo(1024 * MB_TO_BYTES, 100 * MB_TO_BYTES, 924 * MB_TO_BYTES)

  /** `getStorageInfo`: sizes from the block counts, or the fallback when the
      query throws (`stat` is `None`). */
  function GetStorageInfo(stat: Option<StatFs>): (r: StorageInfo)
    ensures r.totalBytes == r.availableBytes + r.usedBytes
    ensures stat.None? ==> r.AvailableMB() == 100 && r.TotalMB() == 1024 && r.UsedMB() == 924
    ensures stat.Some? ==>
      r.availableBytes == stat.value.availableBlocks * stat.value.blockSize &&
      r.totalBytes == stat.value.blockCount * stat.value.blockSize
  {
    match stat
    case None => FallbackInfo
    case Some(s) =>
      var total := s.blockCount * s.blockSize;
      var available := s.availableBlocks * s.blockSize;
      StorageInfo(total, available, total - available)
  }

  /** `hasEnoughStorageToStart`: at least 50 whole MB free. */
  function HasEnoughStorageToStart(stat: Option<StatFs>): (r: bool)
    ensures r <==> GetStorageInfo(stat).availableBytes >= MIN_STORAGE_TO_START_MB * MB_TO_BYTES
  {
    GetStorageInfo(stat).AvailableMB() >= MIN_STORAGE_TO_START_MB
  }

  datatype StorageStatus = Sufficient | Warning | Low | Critical

  /** `getStorageStatus` as written: the "low" test (below 100 MB) comes
      before the "warning" test (below twice 50 MB, also 100 MB). */
  function StatusAsWritten(availableMB: int): (r: StorageStatus)
    ensures r == Critical <==> availableMB < CRITICAL_STORAGE_MB
    ensures r == Low <==> CRITICAL_STORAGE_MB <= availableMB < LOW_STORAGE_WARNING_MB
    ensures r == Sufficient <==> availableMB >= LOW_STORAGE_WARNING_MB
  {
    if availableMB < CRITICAL_STORAGE_MB then Critical
    else if availableMB < LOW_STORAGE_WARNING_MB then Low
    else if availableMB < MIN_STORAGE_TO_START_MB * 2 then Warning
    else Sufficient
  }

  /** The warning level can never be reported: every amount below 100 MB is
      already classified low or critical. */
  lemma WarningUnreachable(availableMB: int)
    ensures StatusAsWritten(availableMB) != Warning
  {
  }

  /** The bands the status levels are documented with: critical below 25 MB,
      low from 25 to 50 MB, warning from 50 to 100 MB, sufficient above. */
  function Status(availableMB: int): (r: StorageStatus)
    ensures r == Critical <==> availableMB < CRITICAL_STORAGE_MB
    ensures r == Low <==> CRITICAL_STORAGE_MB <= availableMB < MIN_STORAGE_TO_START_MB
    ensures r == Warning <==> MIN_STORAGE_TO_START_MB <= availableMB < LOW_STORAGE_WARNING_MB
    ensures r == Sufficient <==> availableMB >= LOW_STORAGE_WARNING_MB
  {
    if availableMB < CRITICAL_STORAGE_MB then Critical
    else if availableMB < MIN_STORAGE_TO_START_MB then Low
    else if availableMB < LOW_STORAGE_WARNING_MB then Warning
    else Sufficient
  }

  /** With the documented bands, the status is never worse than "warning"
      exactly when recording may start, so the display and the start gate
      agree. */
  lemma StatusAgreesWithStartGate(stat: Option<StatFs>)
    ensures HasEnoughStorageToStart(stat) <==>
      Status(GetStorageInfo(stat).AvailableMB()) in {Warning, Sufficient}
  {
  }

  /** What one pass of the storage monitor reports to its callback: the
      available MB and whether the level is critical; nothing above 100 MB. */
  function MonitorCheck(info: StorageInfo): (r: Option<(int, bool)>)
    ensures r.None? <==> info.AvailableMB() > LOW_STORAGE_WARNING_MB
    ensures r.Some? ==> r.value.0 == info.AvailableMB()
    ensures r.Some? ==> (r.value.1 <==> info.AvailableMB() <= CRITICAL_STORAGE_MB)
  {
    var mb := info.AvailableMB();
    if mb <= CRITICAL_STORAGE_MB then Some((mb, true))
    else if mb <= LOW_STORAGE_WARNING_MB then Some((mb, false))
    else None
  }

  /** The monitor and the status disagree at the boundaries: at exactly 25 MB
      the monitor calls the level critical while the status does not, and at
      exactly 100 MB the monitor warns while the status reports sufficient. */
  lemma MonitorBoundaries()
    ensures MonitorCheck(StorageInfo(0, 25 * MB_TO_BYTES, 0)) == Some((25, true))
    ensures StatusAsWritten(25) == Low && Status(25) == Low
    ensures MonitorCheck(StorageInfo(0, 100 * MB_TO_BYTES, 0)) == Some((100, false))
    ensures StatusAsWritten(100) == Sufficient
  {
    assert StorageInfo(0, 25 * MB_TO_BYTES, 0).AvailableMB() == 25;
    assert StorageInfo(0, 100 * MB_TO_BYTES, 0).AvailableMB() == 100;
  }

  /** `getEstimatedRecordingTimeMinutes`: one minute per MB above the
      critical reserve, never negative. */
  function EstimatedRecordingTimeMinutes(stat: Option<StatFs>): (r: int)
    ensures r >= 0
    ensures r == 0 <==> GetStorageInfo(stat).AvailableMB() <= CRITICAL_STORAGE_MB
    ensures r > 0 ==> r + CRITICAL_STORAGE_MB == GetStorageInfo(stat).AvailableMB()
  {
    Max(GetStorageInfo(stat).AvailableMB() - CRITICAL_STORAGE_MB, 0)
  }

  /** When the file system cannot be queried, the fallback still lets a
      recording start, shows as sufficient under the code as written, and
      triggers the monitor's non-critical warning. */
  lemma FallbackBehaviour()
    ensures HasEnoughStorageToStart(None)
    ensures StatusAsWritten(GetStorageInfo(None).AvailableMB()) == Sufficient
    ensures MonitorCheck(GetStorageInfo(None)) == Some((100, false))
    ensures EstimatedRecordingTimeMinutes(None) == 75
  {
  }
}

=== FILE: text.dfy ===
/** Decimal rendering of integers as the JVM prints them (`"$n"`, `%d`, `%02d`)
    and the parser that reads them back. */
module Text {
  import opened Common

  predicate IsDigit(c: char) {
    '0' <= c <= '9'
  }

  predicate AllDigits(s: string) {
    forall i | 0 <= i < |s| :: IsDigit(s[i])
  }

  function DigitChar(d: nat): (c: char)
    requires d < 10
    ensures IsDigit(c)
  {
    "0123456789"[d]
  }

  function DigitValue(c: char): (d: nat)
    requires IsDigit(c)
    ensures d < 10
  {
    (c as int) - ('0' as int)
  }

  lemma DigitRoundTrip(d: nat)
    requires d < 10
    ensures DigitValue(DigitChar(d)) == d
  {
  }

  /** The shortest base-10 rendering of a non-negative number. */
  function DecimalString(n: nat): (s: string)
    ensures 1 <= |s|
    ensures AllDigits(s)
    decreases n
  {
    if n < 10 then [DigitChar(n)] else DecimalString(n / 10) + [DigitChar(n % 10)]
  }

  /** Reads a string of digits back as a number. */
  function ParseDecimal(s: string): nat
    requires AllDigits(s)
    decreases |s|
  {
    if |s| == 0 then 0 else 10 * ParseDecimal(s[..|s| - 1]) + DigitValue(s[|s| - 1])
  }

  lemma {:induction false} ParseDecimalString(n: nat)
    ensures ParseDecimal(DecimalString(n)) == n
    decreases n
  {
    var s := DecimalString(n);
    if n < 10 {
      DigitRoundTrip(n);
      assert s[..0] == [];
    } else {
      DigitRoundTrip(n % 10);
      assert s[..|s| - 1] == DecimalString(n / 10);
      ParseDecimalString(n / 10);
    }
  }

  /** Java's `%02d` for a non-negative value: at least two digits, zero-padded. */
  function ZeroPad2(n: nat): (s: string)
    ensures AllDigits(s) && 2 <= |s|
    ensures n < 100 ==> |s| == 2
    ensures ParseDecimal(s) == n
  {
    ParseDecimalString(n);
    if n < 10 then
      var s := "0" + DecimalString(n);
      assert s[..1] == "0" && s[1] == DigitChar(n);
      DigitRoundTrip(n);
      s
    else
      DecimalString(n)
  }

  /** Kotlin's string template `"$x"` for a `Long`. */
  function LongString(x: int): (s: string)
    ensures x >= 0 ==> s == DecimalString(x)
    ensures x < 0 ==> s == "-" + DecimalString(-x)
  {
    if x < 0 then "-" + DecimalString(-x) else DecimalString(x)
  }

  /** The position of the first occurrence of `c` in `s`. */
  function IndexOf(s: string, c: char): (i: nat)
    requires c in s
    ensures i < |s| && s[i] == c
    ensures c !in s[..i]
  {
    if s[0] == c then 0 else
      assert s == [s[0]] + s[1..];
      var k := IndexOf(s[1..], c);
      assert s[..k + 1] == [s[0]] + s[1..][..k];
      1 + k
  }

  /** `c` splits `a + [c] + b` exactly after `a` when `a` does not contain it. */
  lemma IndexOfAfterPrefix(a: string, c: char, b: string)
    requires c !in a
    ensures IndexOf(a + [c] + b, c) == |a|
  {
    var s := a + [c] + b;
    assert s[|a|] == c;
  }

  /** Splitting `a + [c] + b` at its first `c` gives back `a` and `b`. */
  lemma SplitAtFirst(a: string, c: char, b: string)
    requires c !in a
    ensures c in a + [c] + b
    ensures IndexOf(a + [c] + b, c) == |a|
    ensures (a + [c] + b)[..|a|] == a && (a + [c] + b)[|a| + 1..] == b
  {
    IndexOfAfterPrefix(a, c, b);
  }

  /** The position of the last occurrence of `c` in `s`, if any. */
  function LastIndexOf(s: string, c: char): (r: Option<nat>)
    ensures r.None? <==> c !in s
    ensures r.Some? ==> r.value < |s| && s[r.value] == c && c !in s[r.value + 1..]
    decreases |s|
  {
    if |s| == 0 then None
    else if s[|s| - 1] == c then Some(|s| - 1)
    else
      var r := LastIndexOf(s[..|s| - 1], c);
      assert r.Some? ==> s[r.value + 1..] == s[..|s| - 1][r.value + 1..] + [s[|s| - 1]];
      assert r.None? ==> s == s[..|s| - 1] + [s[|s| - 1]];
      r
  }

  /** `c` found last in `a + [c] + b` sits right after `a` when `b` does not
      contain it. */
  lemma {:induction false} LastIndexAfter(a: string, c: char, b: string)
    requires c !in b
    ensures LastIndexOf(a + [c] + b, c) == Some(|a|)
    decreases |b|
  {
    var s := a + [c] + b;
    if |b| > 0 {
      assert s[..|s| - 1] == a + [c] + b[..|b| - 1];
      assert s[|s| - 1] == b[|b| - 1];
      LastIndexAfter(a, c, b[..|b| - 1]);
    } else {
      assert s == a + [c];
    }
  }

  /** Splitting at the last `c` when the tail holds none gives back both halves. */
  lemma SplitAtLast(a: string, c: char, b: string)
    requires c !in b
    ensures SubstringAfterLast(a + [c] + b, c) == b
    ensures SubstringBeforeLast(a + [c] + b, c) == a
  {
    LastIndexAfter(a, c, b);
    var s := a + [c] + b;
    assert s[|a| + 1..] == b;
    assert s[..|a|] == a;
  }

  /** Kotlin's `substringAfterLast(c)`: the text after the last `c`, or the
      whole string when there is none. */
  function SubstringAfterLast(s: string, c: char): string {
    match LastIndexOf(s, c)
    case None => s
    case Some(i) => s[i + 1..]
  }

  /** Kotlin's `substringBeforeLast(c)`: the text before the last `c`, or the
      whole string when there is none. */
  function SubstringBeforeLast(s: string, c: char): string {
    match LastIndexOf(s, c)
    case None => s
    case Some(i) => s[..i]
  }

  lemma DigitsHaveNo(s: string, c: char)
    requires AllDigits(s) && !IsDigit(c)
    ensures c !in s
  {
  }
}

=== FILE: view_model.dfy ===
/** The recording screen's state holder: Stopped, Recording and Paused, the
    call-pause flag, the on-screen timer kept as a start instant shifted
    forward by every pause, and the list of saved recordings. Each user
    action, timer tick and call-state callback is one step; the clock, the
    SDK level, the telephony state and the recorder's behaviour are inputs. */
module RecordingViewModel {
  import opened Common
  import opened Text
  import opened Telephony
  import AudioRecorder

  const SDK_N: int := 24

  datatype Status = Stopped | Recording | Paused

  /** A saved recording as listed on screen. */
  datatype RecordingItem = RecordingItem(file: Path, name: string, date: int, durationSec: int)

  datatype VM = VM(
    status: Status,
    timerText: string,
    recordings: seq<RecordingItem>,
    currentFile: Option<Path>,
    startTimeMs: int,
    pausedTimeMs: int,
    isPausedForCall: bool,
    timerRunning: bool,
    callNoticeShown: bool,
    recorder: AudioRecorder.Recorder)

  const Initial := VM(Stopped, "00:00", [], None, 0, 0, false, false, false, AudioRecorder.Idle)

  /** One step's inputs: the clock, the SDK level, the telephony state (`None`
      when there is no telephony service), the recordings directory, the
      `yyyyMMdd_HHmmss` stamp, the recorder's faults, and the audio the
      recorder has captured into its file by the time it is stopped. */
  datatype Env = Env(
    now: int,
    sdk: int,
    callState: Option<int>,
    dir: string,
    stamp: string,
    faults: AudioRecorder.Faults,
    captured: Bytes)

  /** A step's result: the new state, the file system, and whether the step
      returned normally (false when an exception escaped it). */
  datatype Stepped = Stepped(vm: VM, fs: Fs, ok: bool)

  /** `elapsedSeconds`: whole seconds since the (shifted) start, never negative. */
  function ElapsedSeconds(vm: VM, now: int): (s: nat)
    ensures now - vm.startTimeMs >= 0 ==> s * 1000 <= now - vm.startTimeMs < s * 1000 + 1000
    ensures now - vm.startTimeMs < 1000 ==> s == 0
  {
    Max(Div(now - vm.startTimeMs, 1000), 0)
  }

  /** The timer label, `%02d:%02d` of minutes and seconds. */
  function TimerText(secs: nat): (t: string)
    ensures |t| >= 5 && t[|t| - 3] == ':'
    ensures AllDigits(t[|t| - 2..]) && ParseDecimal(t[|t| - 2..]) < 60
    ensures secs < 6000 ==> |t| == 5
  {
    var mm := ZeroPad2(secs / 60);
    var ss := ZeroPad2(secs % 60);
    var t := mm + ":" + ss;
    assert t[|t| - 3] == ':';
    assert t[|t| - 2..] == ss;
    t
  }

  /** Reads a timer label back as seconds. */
  function ParseTimer(t: string): Option<nat> {
    if ':' !in t then None
    else
      var k := IndexOf(t, ':');
      var mm := t[..k];
      var ss := t[k + 1..];
      if AllDigits(mm) && AllDigits(ss) && |ss| == 2 && ParseDecimal(ss) < 60
      then Some(60 * ParseDecimal(mm) + ParseDecimal(ss))
      else None
  }

  /** The label shows exactly the elapsed seconds: minutes and seconds read
      back give the count it was made from. */
  lemma {:induction false} TimerTextRoundTrip(secs: nat)
    ensures ParseTimer(TimerText(secs)) == Some(secs)
  {
    var mm := ZeroPad2(secs / 60);
    var ss := ZeroPad2(secs % 60);
    assert TimerText(secs) == mm + [':'] + ss;
    ParseTimerSplit(mm, ss);
  }

  /** Two digit strings around a colon read back as minutes and seconds. */
  lemma ParseTimerSplit(mm: string, ss: string)
    requires AllDigits(mm) && AllDigits(ss) && |ss| == 2 && ParseDecimal(ss) < 60
    ensures ParseTimer(mm + [':'] + ss) == Some(60 * ParseDecimal(mm) + ParseDecimal(ss))
  {
    DigitsHaveNo(mm, ':');
    SplitAtFirst(mm, ':', ss);
    var t := mm + [':'] + ss;
    var k := IndexOf(t, ':');
    assert k == |mm|;
    assert t[..k] == mm && t[k + 1..] == ss;
  }

  /** The recording's file: `meeting_<stamp>.m4a` in the recordings directory. */
  function RecordingFile(env: Env): Path {
    Join(env.dir, "meeting_" + env.stamp + ".m4a")
  }

  /** `File.nameWithoutExtension`: the last path segment up to its last dot. */
  function NameWithoutExtension(p: Path): string {
    SubstringBeforeLast(SubstringAfterLast(p, '/'), '.')
  }

  /** The name listed for a recording is `meeting_<stamp>`, whatever the
      directory and however many dots the stamp holds. */
  lemma RecordingNameIsStamp(env: Env)
    requires '/' !in env.stamp
    ensures NameWithoutExtension(RecordingFile(env)) == "meeting_" + env.stamp
  {
    var name := "meeting_" + env.stamp + ".m4a";
    assert '/' !in "meeting_" && '/' !in ".m4a";
    assert '/' !in name;
    LastIndexAfter(env.dir, '/', name);
    assert RecordingFile(env) == env.dir + ['/'] + name;
    assert SubstringAfterLast(RecordingFile(env), '/') == name;
    assert name == ("meeting_" + env.stamp) + ['.'] + "m4a";
    LastIndexAfter("meeting_" + env.stamp, '.', "m4a");
  }

  /** `startTimer`: the start instant is taken now only if none is set; the
      ticking loop is launched. */
  function StartTimer(vm: VM, now: int): (r: VM)
    ensures vm.startTimeMs == 0 ==> r.startTimeMs == now
    ensures vm.startTimeMs != 0 ==> r.startTimeMs == vm.startTimeMs
    ensures r.timerRunning && r.status == vm.status
  {
    vm.(startTimeMs := if vm.startTimeMs == 0 then now else vm.startTimeMs, timerRunning := true)
  }

  /** One pass of the ticking loop: while recording it shows the elapsed
      time; otherwise the loop ends. */
  function TimerTick(vm: VM, now: int): (r: VM)
    ensures vm.timerRunning && vm.status == Recording ==>
      ParseTimer(r.timerText) == Some(ElapsedSeconds(vm, now)) && r == vm.(timerText := r.timerText)
    ensures !(vm.timerRunning && vm.status == Recording) ==> r == vm.(timerRunning := false)
  {
    if vm.timerRunning && vm.status == Recording then
      TimerTextRoundTrip(ElapsedSeconds(vm, now));
      vm.(timerText := TimerText(ElapsedSeconds(vm, now)))
    else vm.(timerRunning := false)
  }

  /** `startRecording`: remembers the new file, starts the recorder on it,
      and only if that returns shows Recording and starts the timer. The
      recorder's exception is not caught. */
  function StartRecording(vm: VM, fs: Fs, env: Env): (r: Stepped)
    ensures r.vm.currentFile == Some(RecordingFile(env))
    ensures r.ok <==> AudioRecorder.Start(vm.recorder, fs, RecordingFile(env), AudioRecorder.AUDIO_SOURCE_MIC, env.faults).ok
    ensures r.ok ==> r.vm.status == Recording && r.vm.timerRunning && r.vm.recorder.IsRecording()
    ensures !r.ok ==> r.vm.status == vm.status && r.vm.startTimeMs == vm.startTimeMs
    ensures r.ok && vm.startTimeMs == 0 ==> r.vm.startTimeMs == env.now
    ensures r.vm.recordings == vm.recordings && r.vm.pausedTimeMs == vm.pausedTimeMs
  {
    var file := RecordingFile(env);
    var o := AudioRecorder.Start(vm.recorder, fs, file, AudioRecorder.AUDIO_SOURCE_MIC, env.faults);
    var vm1 := vm.(currentFile := Some(file), recorder := o.rec);
    if !o.ok then Stepped(vm1, o.fs, false)
    else Stepped(StartTimer(vm1.(status := Recording), env.now), o.fs, true)
  }

  /** The duration saved with a recording stopped at `now`, as written: the
      time since the shifted start, which for a paused recording also counts
      the time since the pause. */
  function SavedSecondsAsWritten(vm: VM, now: int): nat {
    ElapsedSeconds(vm, now)
  }

  /** The recorded time: the elapsed time while recording, the time recorded
      up to the pause while paused. */
  function RecordedSeconds(vm: VM, now: int): (s: nat)
    ensures vm.status != Paused ==> s == ElapsedSeconds(vm, now)
    ensures vm.status == Paused && vm.pausedTimeMs >= 0 ==>
      s * 1000 <= vm.pausedTimeMs < s * 1000 + 1000
  {
    if vm.status == Paused then Max(Div(vm.pausedTimeMs, 1000), 0) else ElapsedSeconds(vm, now)
  }

  /** `stopRecording` with the saved duration computed by `seconds`. */
  function StopWith(vm: VM, fs: Fs, env: Env, seconds: nat): (r: Stepped)
    ensures r.ok && r.vm.status == Stopped && r.vm.timerText == "00:00"
    ensures r.vm.startTimeMs == 0 && r.vm.pausedTimeMs == 0
    ensures r.vm.currentFile.None? && !r.vm.isPausedForCall && !r.vm.timerRunning
    ensures !r.vm.recorder.IsRecording()
    ensures |vm.recordings| <= |r.vm.recordings| <= |vm.recordings| + 1
    ensures r.vm.recordings[..|vm.recordings|] == vm.recordings
    ensures |r.vm.recordings| == |vm.recordings| + 1 <==>
      vm.currentFile.Some? && r.fs.Exists(vm.currentFile.value) && r.fs.Length(vm.currentFile.value) > 0
    ensures |r.vm.recordings| == |vm.recordings| + 1 ==>
      r.vm.recordings[|vm.recordings|] ==
        RecordingItem(vm.currentFile.value, NameWithoutExtension(vm.currentFile.value), env.now, seconds)
  {
    var o := AudioRecorder.Stop(vm.recorder, fs, env.captured);
    var saved :=
      if vm.currentFile.Some? && o.fs.Exists(vm.currentFile.value) && o.fs.Length(vm.currentFile.value) > 0
      then vm.recordings + [RecordingItem(vm.currentFile.value, NameWithoutExtension(vm.currentFile.value), env.now, seconds)]
      else vm.recordings;
    assert saved[..|vm.recordings|] == vm.recordings;
    var vm1 := vm.(timerRunning := false, recorder := o.rec, recordings := saved,
                   status := Stopped, timerText := "00:00");
    var vm2 := if vm1.isPausedForCall then vm1.(isPausedForCall := false, callNoticeShown := false) else vm1;
    Stepped(vm2.(currentFile := None, startTimeMs := 0, pausedTimeMs := 0), o.fs, true)
  }

  function StopAsWritten(vm: VM, fs: Fs, env: Env): Stepped {
    StopWith(vm, fs, env, SavedSecondsAsWritten(vm, env.now))
  }

  /** `stopRecording`, saving the recorded time. */
  function StopRecording(vm: VM, fs: Fs, env: Env): (r: Stepped)
    ensures r.ok && r.vm.status == Stopped && r.vm.timerText == "00:00"
    ensures r.vm.startTimeMs == 0 && r.vm.pausedTimeMs == 0 && r.vm.currentFile.None? && !r.vm.isPausedForCall
    ensures |r.vm.recordings| == |vm.recordings| + 1 ==>
      r.vm.recordings[|vm.recordings|].durationSec == RecordedSeconds(vm, env.now)
  {
    StopWith(vm, fs, env, RecordedSeconds(vm, env.now))
  }

  /** `pauseRecording`: only from Recording. Cancels the timer, pauses the
      recorder from API 24 on (its exception swallowed), and keeps the
      elapsed milliseconds in `pausedTimeMs`. */
  function PauseRecording(vm: VM, env: Env): (r: VM)
    ensures vm.status != Recording ==> r == vm
    ensures vm.status == Recording ==>
      r.status == Paused && r.pausedTimeMs == env.now - vm.startTimeMs && !r.timerRunning &&
      r.startTimeMs == vm.startTimeMs && r.isPausedForCall == vm.isPausedForCall &&
      r.currentFile == vm.currentFile && r.recordings == vm.recordings
  {
    if vm.status != Recording then vm
    else
      var rec := if env.sdk >= SDK_N then AudioRecorder.Pause(vm.recorder, env.sdk, env.faults).rec else vm.recorder;
      vm.(timerRunning := false, recorder := rec, pausedTimeMs := env.now - vm.startTimeMs, status := Paused)
  }

  /** `resumeRecording` as written: only from Paused. A call-pause flag is
      cleared if no call is active (no telephony service counts as idle). The
      recorder resumes from API 24 on; if that throws the screen shows
      Stopped and "00:00" but the start instant, the paused time and the file
      are left as they were. */
  function ResumeAsWritten(vm: VM, env: Env): (r: VM)
    ensures vm.status != Paused ==> r == vm
    ensures vm.status == Paused ==>
      (r.isPausedForCall <==> vm.isPausedForCall && env.callState.GetOr(CALL_STATE_IDLE) != CALL_STATE_IDLE)
    ensures vm.status == Paused && ResumeFails(vm, env) ==>
      r.status == Stopped && r.timerText == "00:00" && r.startTimeMs == vm.startTimeMs
    ensures vm.status == Paused && !ResumeFails(vm, env) ==>
      r.status == Recording && r.timerRunning &&
      r.startTimeMs == (if env.now - vm.pausedTimeMs == 0 then env.now else env.now - vm.pausedTimeMs)
  {
    if vm.status != Paused then vm
    else
      var vm1 :=
        if vm.isPausedForCall && env.callState.GetOr(CALL_STATE_IDLE) == CALL_STATE_IDLE
        then vm.(isPausedForCall := false, callNoticeShown := false)
        else vm;
      if ResumeFails(vm, env) then vm1.(status := Stopped, timerText := "00:00")
      else
        var rec := if env.sdk >= SDK_N then AudioRecorder.Resume(vm.recorder, env.sdk, env.faults).rec else vm.recorder;
        StartTimer(vm1.(recorder := rec, status := Recording, startTimeMs := env.now - vm.pausedTimeMs), env.now)
  }

  /** The recorder's `resume` throws. */
  predicate ResumeFails(vm: VM, env: Env) {
    env.sdk >= SDK_N && !AudioRecorder.Resume(vm.recorder, env.sdk, env.faults).ok
  }

  /** `resumeRecording` with the failure path also clearing the clock, as
      `stopRecording` does, so that the next recording starts from zero. */
  function ResumeRecording(vm: VM, env: Env): (r: VM)
    ensures vm.status != Paused ==> r == vm
    ensures vm.status == Paused && ResumeFails(vm, env) ==>
      r.status == Stopped && r.timerText == "00:00" && r.startTimeMs == 0 && r.pausedTimeMs == 0
    ensures vm.status == Paused && !ResumeFails(vm, env) ==> r == ResumeAsWritten(vm, env)
  {
    var r := ResumeAsWritten(vm, env);
    if vm.status == Paused && ResumeFails(vm, env) then r.(startTimeMs := 0, pausedTimeMs := 0) else r
  }

  /** `toggleRecord`: Recording stops, Stopped starts, Paused resumes. */
  function ToggleRecord(vm: VM, fs: Fs, env: Env): (r: Stepped)
    ensures vm.status == Recording ==> r == StopAsWritten(vm, fs, env) && r.vm.status == Stopped
    ensures vm.status == Stopped ==> r == StartRecording(vm, fs, env)
    ensures vm.status == Paused ==> r == Stepped(ResumeAsWritten(vm, env), fs, true) && r.vm.status != Paused
  {
    match vm.status
    case Recording => StopAsWritten(vm, fs, env)
    case Stopped => StartRecording(vm, fs, env)
    case Paused => Stepped(ResumeAsWritten(vm, env), fs, true)
  }

  /** `togglePause`: nothing when stopped. */
  function TogglePause(vm: VM, env: Env): (r: VM)
    ensures vm.status == Stopped ==> r == vm
    ensures vm.status == Recording ==> r == PauseRecording(vm, env) && r.status == Paused
    ensures vm.status == Paused ==> r == ResumeAsWritten(vm, env) && r.status != Paused
  {
    match vm.status
    case Recording => PauseRecording(vm, env)
    case Paused => ResumeAsWritten(vm, env)
    case Stopped => vm
  }

  /** `handleCallStateChange`: a ringing or answered call pauses a running
      recording and raises the flag; the end of a call resumes a recording
      that the call had paused. */
  function HandleCallStateChange(vm: VM, env: Env, state: int): (r: VM)
    ensures CallActive(state) && vm.status == Recording ==>
      r.status == Paused && r.isPausedForCall && r.callNoticeShown
    ensures state == CALL_STATE_IDLE && vm.isPausedForCall && vm.status == Paused ==>
      r == ResumeAsWritten(vm.(isPausedForCall := false, callNoticeShown := false), env)
    ensures state == CALL_STATE_IDLE && vm.isPausedForCall && vm.status == Paused && !ResumeFails(vm, env) ==>
      r.status == Recording && !r.isPausedForCall
    ensures r != vm ==>
      (CallActive(state) && vm.status == Recording) || (state == CALL_STATE_IDLE && vm.isPausedForCall && vm.status == Paused)
  {
    if state == CALL_STATE_IDLE then
      if vm.isPausedForCall && vm.status == Paused then
        TogglePause(vm.(isPausedForCall := false, callNoticeShown := false), env)
      else vm
    else if CallActive(state) then
      if vm.status == Recording then
        TogglePause(vm.(isPausedForCall := true), env).(callNoticeShown := true)
      else vm
    else vm
  }

  /** The corrected screen: the same three entry points, with a stop that
      saves the recorded time and a failed resume that clears the clock. */
  function ToggleRecordFixed(vm: VM, fs: Fs, env: Env): (r: Stepped)
    ensures vm.status == Recording ==> r == StopRecording(vm, fs, env)
    ensures vm.status == Stopped ==> r == StartRecording(vm, fs, env)
    ensures vm.status == Paused ==> r == Stepped(ResumeRecording(vm, env), fs, true) && r.vm.status != Paused
  {
    match vm.status
    case Recording => StopRecording(vm, fs, env)
    case Stopped => StartRecording(vm, fs, env)
    case Paused => Stepped(ResumeRecording(vm, env), fs, true)
  }

  function TogglePauseFixed(vm: VM, env: Env): (r: VM)
    ensures vm.status == Stopped ==> r == vm
    ensures vm.status == Recording ==> r == PauseRecording(vm, env)
    ensures vm.status == Paused ==> r == ResumeRecording(vm, env) && r.status != Paused
  {
    match vm.status
    case Recording => PauseRecording(vm, env)
    case Paused => ResumeRecording(vm, env)
    case Stopped => vm
  }

  function HandleCallStateChangeFixed(vm: VM, env: Env, state: int): (r: VM)
    ensures state == CALL_STATE_IDLE && vm.isPausedForCall && vm.status == Paused ==>
      r == ResumeRecording(vm.(isPausedForCall := false, callNoticeShown := false), env)
    ensures r != vm ==>
      (CallActive(state) && vm.status == Recording) || (state == CALL_STATE_IDLE && vm.isPausedForCall && vm.status == Paused)
  {
    if state == CALL_STATE_IDLE then
      if vm.isPausedForCall && vm.status == Paused then
        TogglePauseFixed(vm.(isPausedForCall := false, callNoticeShown := false), env)
      else vm
    else if CallActive(state) then
      if vm.status == Recording then
        TogglePauseFixed(vm.(isPausedForCall := true), env).(callNoticeShown := true)
      else vm
    else vm
  }

  /** The corrected screen behaves as the program does except on a paused
      screen whose resume fails, where it differs only in clearing the clock. */
  lemma FixedAgreesWithAsWritten(vm: VM, fs: Fs, env: Env, state: int)
    ensures !(vm.status == Paused && ResumeFails(vm, env)) ==>
      ToggleRecordFixed(vm, fs, env) == ToggleRecord(vm, fs, env) &&
      TogglePauseFixed(vm, env) == TogglePause(vm, env) &&
      HandleCallStateChangeFixed(vm, env, state) == HandleCallStateChange(vm, env, state)
    ensures vm.status == Paused && ResumeFails(vm, env) ==>
      ToggleRecordFixed(vm, fs, env).vm == ToggleRecord(vm, fs, env).vm.(startTimeMs := 0, pausedTimeMs := 0) &&
      TogglePauseFixed(vm, env) == TogglePause(vm, env).(startTimeMs := 0, pausedTimeMs := 0)
  {
  }

  /** A manual resume during an active call still resumes the recording, but
      the call-pause flag stays raised. */
  lemma ManualResumeDuringCall(vm: VM, env: Env)
    requires vm.status == Paused && vm.isPausedForCall && !ResumeFails(vm, env)
    requires env.callState.Some? && CallActive(env.callState.value)
    ensures TogglePause(vm, env).status == Recording && TogglePause(vm, env).isPausedForCall
  {
  }

  /** Pausing at `t1` and resuming at `t2` moves the start instant forward by
      exactly the pause: the elapsed time right after the resume equals the
      elapsed time at the pause. */
  lemma PauseResumeExcludesPause(vm: VM, env1: Env, env2: Env)
    requires vm.status == Recording && 0 < vm.startTimeMs <= env1.now <= env2.now
    requires env1.sdk == env2.sdk && !ResumeFails(PauseRecording(vm, env1), env2)
    ensures var r := ResumeAsWritten(PauseRecording(vm, env1), env2);
      r.status == Recording && r.startTimeMs == vm.startTimeMs + (env2.now - env1.now) &&
      env2.now - r.startTimeMs == env1.now - vm.startTimeMs
  {
  }

  /** A recording session driven from Recording by a sequence of pauses, each
      given as a (pause instant, resume instant) pair. */
  function PauseCycles(vm: VM, env: Env, pauses: seq<(int, int)>): VM
    decreases |pauses|
  {
    if |pauses| == 0 then vm
    else
      var p := pauses[|pauses| - 1];
      var before := PauseCycles(vm, env, pauses[..|pauses| - 1]);
      ResumeAsWritten(PauseRecording(before, env.(now := p.0)), env.(now := p.1))
  }

  /** The total time spent paused. */
  function PausedTotal(pauses: seq<(int, int)>): int
    decreases |pauses|
  {
    if |pauses| == 0 then 0 else PausedTotal(pauses[..|pauses| - 1]) + (pauses[|pauses| - 1].1 - pauses[|pauses| - 1].0)
  }

  /** The instants are in order, starting no earlier than `from`. */
  predicate Chronological(from: int, pauses: seq<(int, int)>) {
    (forall i | 0 <= i < |pauses| :: pauses[i].0 <= pauses[i].1) &&
    (forall i | 0 < i < |pauses| :: pauses[i - 1].1 <= pauses[i].0) &&
    (|pauses| > 0 ==> from <= pauses[0].0)
  }

  /** The timer never counts paused time: after any number of pause/resume
      cycles, the time shown at `now` is the time since the start minus all
      the time spent paused. */
  lemma {:induction false} ElapsedExcludesPauses(vm: VM, env: Env, pauses: seq<(int, int)>)
    requires vm.status == Recording && vm.startTimeMs > 0
    requires Chronological(vm.startTimeMs, pauses)
    requires env.sdk < SDK_N || !env.faults.resumeThrows
    ensures PauseCycles(vm, env, pauses).status == Recording
    ensures PauseCycles(vm, env, pauses).startTimeMs == vm.startTimeMs + PausedTotal(pauses)
    ensures PausedTotal(pauses) >= 0
    ensures |pauses| > 0 ==> PauseCycles(vm, env, pauses).startTimeMs <= pauses[|pauses| - 1].1
    decreases |pauses|
  {
    if |pauses| > 0 {
      var init := pauses[..|pauses| - 1];
      var p := pauses[|pauses| - 1];
      assert Chronological(vm.startTimeMs, init);
      ElapsedExcludesPauses(vm, env, init);
      var before := PauseCycles(vm, env, init);
      var paused := PauseRecording(before, env.(now := p.0));
      assert !ResumeFails(paused, env.(now := p.1));
    }
  }

  /** The clock of a stopped screen is clear. */
  predicate ClockCleared(vm: VM) {
    vm.status == Stopped ==> vm.startTimeMs == 0 && vm.pausedTimeMs == 0
  }

  /** What drives the screen: its two buttons, a timer tick and a call-state
      callback. */
  datatype Event = ToggleRecordPressed | TogglePausePressed | Tick | CallStateChanged(state: int)

  /** One event on the corrected screen, with the step's inputs `env`. */
  function StepFixed(s: Stepped, e: Event, env: Env): Stepped {
    match e
    case ToggleRecordPressed => ToggleRecordFixed(s.vm, s.fs, env)
    case TogglePausePressed => Stepped(TogglePauseFixed(s.vm, env), s.fs, true)
    case Tick => Stepped(TimerTick(s.vm, env.now), s.fs, true)
    case CallStateChanged(state) => Stepped(HandleCallStateChangeFixed(s.vm, env, state), s.fs, true)
  }

  /** The corrected screen after a sequence of events from the initial state. */
  function RunFixed(fs: Fs, events: seq<(Event, Env)>): Stepped
    decreases |events|
  {
    if |events| == 0 then Stepped(Initial, fs, true)
    else
      var e := events[|events| - 1];
      StepFixed(RunFixed(fs, events[..|events| - 1]), e.0, e.1)
  }

  /** Every event on the corrected screen keeps a stopped screen's clock clear. */
  lemma StepsKeepClockCleared(s: Stepped, e: Event, env: Env)
    requires ClockCleared(s.vm)
    ensures ClockCleared(StepFixed(s, e, env).vm)
  {
  }

  /** Whatever happened before, a stopped corrected screen has a clear clock. */
  lemma {:induction false} RunKeepsClockCleared(fs: Fs, events: seq<(Event, Env)>)
    ensures ClockCleared(RunFixed(fs, events).vm)
    decreases |events|
  {
    if |events| > 0 {
      var e := events[|events| - 1];
      RunKeepsClockCleared(fs, events[..|events| - 1]);
      StepsKeepClockCleared(RunFixed(fs, events[..|events| - 1]), e.0, e.1);
    }
  }

  /** So on the corrected screen every new recording starts its timer at
      zero, whatever events came before. */
  lemma NewRecordingStartsAtZero(fs: Fs, events: seq<(Event, Env)>, env: Env)
    ensures var s := RunFixed(fs, events);
      var started := ToggleRecordFixed(s.vm, s.fs, env);
      s.vm.status == Stopped && started.ok ==>
        started.vm.status == Recording && started.vm.startTimeMs == env.now && ElapsedSeconds(started.vm, env.now) == 0
  {
    RunKeepsClockCleared(fs, events);
  }

  const Faultless := AudioRecorder.Faults(false, false, false, true)
  const ResumeThrows := AudioRecorder.Faults(false, false, true, true)
  const Writable := Fs(map[], {}, {})

  function At(now: int, faults: AudioRecorder.Faults): Env {
    Env(now, 30, None, "/rec", "20240101_000000", faults, [1])
  }

  /** As written, a failed resume leaves the old start instant behind: a
      recording started at 1 s, paused at 5 s and failed to resume at 6 s
      makes the next recording, started at 100 s, show 99 s at once. */
  lemma StaleClockAfterFailedResume()
    ensures var s1 := StartRecording(Initial, Writable, At(1000, Faultless));
      var p := PauseRecording(s1.vm, At(5000, Faultless));
      var failed := ResumeAsWritten(p, At(6000, ResumeThrows));
      var s2 := StartRecording(failed, s1.fs, At(100000, Faultless));
      s1.ok && failed.status == Stopped && !ClockCleared(failed) && s2.ok && ElapsedSeconds(s2.vm, 100000) == 99 &&
      ElapsedSeconds(StartRecording(ResumeRecording(p, At(6000, ResumeThrows)), s1.fs, At(100000, Faultless)).vm, 100000) == 0
  {
    var s1 := StartRecording(Initial, Writable, At(1000, Faultless));
    assert s1.vm.startTimeMs == 1000;
    var p := PauseRecording(s1.vm, At(5000, Faultless));
    assert p.recorder.media == AudioRecorder.PausedCapture;
    assert ResumeFails(p, At(6000, ResumeThrows));
  }

  /** As written, a recording stopped while paused is saved with the time
      since the pause included: recorded from 1 s to 11 s, paused, stopped at
      71 s, it is listed as 70 s long instead of 10 s. */
  lemma PausedTailCountedAsWritten()
    ensures var s1 := StartRecording(Initial, Writable, At(1000, Faultless));
      var p := PauseRecording(s1.vm, At(11000, Faultless));
      var asWritten := StopAsWritten(p, s1.fs, At(71000, Faultless));
      var fixed := StopRecording(p, s1.fs, At(71000, Faultless));
      |asWritten.vm.recordings| == 1 && asWritten.vm.recordings[0].durationSec == 70 &&
      |fixed.vm.recordings| == 1 && fixed.vm.recordings[0].durationSec == 10
  {
    var s1 := StartRecording(Initial, Writable, At(1000, Faultless));
    assert s1.vm.startTimeMs == 1000;
    var p := PauseRecording(s1.vm, At(11000, Faultless));
    assert p.pausedTimeMs == 10000;
  }
}
